=== FILE: README.md ===
# SBC-scripts analysis core in Dafny

This project models the sequential logic of six SBC-scripts tools that turn
cryo-electron tomography picks of the axoneme into doublet-level statistics
and input files, and proves properties of that logic:

- **Doublet assignment** (`format_inital.py`). A contour number is shifted by the
  folder's first doublet. It is then folded onto the nine-doublet ring, by
  mod-9 arithmetic clockwise or by the 17-entry reflection table
  counter-clockwise. The raw `model2point` lines are numbered from 1, and the
  points of each doublet are counted the way `value_counts().sort_index()`
  counts them (`doublet.dfy`, `tally.dfy`).
- **Bend analysis** (`englishORspanish.py`). A doublet trace is cut into ten equal
  segments and one direction is fitted per segment. Angles between
  consecutive directions are kept when at most 100 degrees. A doublet is bent when a
  kept angle exceeds 6 degrees. The report carries the per-doublet bending
  sums, the bent doublets (1-based), the angle spreads and the verdict
  (`bend.dfy`).
- **Contingency statistics** (`calculate_stats.py`). For each class set `[1]`,
  `[2,4]`, `[3]`, the points are counted in the doublet groups 1-4, 5 and 6-9.
  Group totals come from the count file. From these the omnibus 3x2 table and
  the three pairwise 2x2 tables are built, and each pairwise test is judged
  against the Bonferroni level 0.05/3 (`contingency.dfy`).
- **Histograms** (`get_hist.py`). Class 4 is merged into 2 and doublets are grouped
  1-4 / 5 / 6-9. The model builds the count pivot, normalises its rows,
  reindexes it, and checks the legend lookup. Each folder's samples are routed
  into the straight or bend pool, in the pool class that the main loop updates.
  The pools are then written out and read back for the four combined
  histograms (`histogram.dfy`).
- **RELION classes to IMOD models** (`relion_classes_to_mod_files.py`). The model scans the
  STAR header for the six `_rln` columns, skips the remaining labels, and
  parses the data rows into per-tomogram particle lists while tracking the
  class range. It then writes one coordinates file per tomogram, picks
  the palette colours (an IndexError there leaves those files behind)
  and builds one `point2model` command per file (`star_classes.dfy`).
- **Pre-exposure dose correction** (`correct_pre_exposure_dose.py`). The mdoc scanner
  collects `(TiltAngle, PriorRecordDose)` pairs. The nearest-tilt lookup
  takes the first closest pair. The dose column of every qualifying STAR
  line from line 36 on is rewritten in a copy of the lines, and the array
  of lines is overwritten only once every line has been rewritten
  (`dose.dfy`).

`util.dfy` holds Option/Result, absolute value, clamping and real sums.
`text.dfy` models the Python string operations these tools rely on:
`split()`, `strip()`, `split(sep)`, `"\t".join` and `startswith`, with
whitespace being the characters Python's `str.isspace` accepts.

Python values are modelled as follows:
- Floats are `real`.
- `float()` and `int()` on a token are abstract partial functions (`string -> Option<…>`) passed in as parameters.
- The numpy numerics are fields of the `BendAnalysis.Numerics` datatype: the SVD line fit of a segment, the cosine of two vectors, and arccos in degrees.
- The chi-square p-value is a parameter from table to real.
- A Python exception that the modelled code lets escape is a `Failure` carrying the kind of exception: `IndexError`, `ValueError`, `StopIteration`, `ZeroDivisionError`, `LinAlgError` on an empty doublet, a raising chi-square test, a missing file or a missing dictionary key.
- Files appear as sequences of lines, or, for the STAR file that is overwritten, as an `array<string>`.

Two behaviours are modelled as written:
- `ModName` keeps the text before the first `.` of the coordinates file name, so a tomogram name containing a dot loses its tail (`StarClasses.ModNameOfCoordinates` states both cases).
- In `calculate_stats.py` a class set is skipped only when the points file is missing and the count file exists. A missing count file therefore makes the folder raise (`Contingency.FolderReports`).

## Model

| member | source | states |
|---|---|---|
| Util.Abs | generate_dynein_conformation_graphs/englishORspanish.py:87 | the absolute value is non-negative and is `x` or `-x` |
| Util.Clamp | generate_dynein_conformation_graphs/englishORspanish.py:56 | `np.clip` lies in `[lo, hi]`, is the identity inside, and is the nearer bound outside |
| Util.SumRealAppend | generate_dynein_conformation_graphs/englishORspanish.py:87 | the sum of a concatenation is the sum of the sums |
| Util.SumRealNonNegative | generate_dynein_conformation_graphs/englishORspanish.py:87 | a sum of non-negative reals is non-negative |
| Util.SumRealBoundsEntry | generate_dynein_conformation_graphs/englishORspanish.py:87 | each non-negative term is at most the sum |
| Text.TokenLength | relion_classes_to_mod/relion_classes_to_mod_files.py:43 | the first token is a maximal run of non-space characters |
| Text.Words | relion_classes_to_mod/relion_classes_to_mod_files.py:43 | `split()` yields non-empty tokens free of whitespace |
| Text.WordsAreMaximalRuns | relion_classes_to_mod/relion_classes_to_mod_files.py:43 | `split()` returns the maximal non-whitespace runs in order: the line is exactly those words interleaved with whitespace gaps, every gap between two words non-empty |
| Text.WordsEmptyIffBlank | relion_classes_to_mod/relion_classes_to_mod_files.py:51-53 | `split()` is empty exactly when the line is all whitespace |
| Text.TrimStart | correct_pre_exposure_dose/correct_pre_exposure_dose.py:21 | leading whitespace removed: a suffix starting with a non-space, empty iff blank |
| Text.TrimEnd | correct_pre_exposure_dose/correct_pre_exposure_dose.py:21 | trailing whitespace removed: a prefix ending with a non-space, empty iff blank |
| Text.TrimStartDropsBlank | correct_pre_exposure_dose/correct_pre_exposure_dose.py:21 | what the leading trim removes is all whitespace |
| Text.TrimEndDropsBlank | correct_pre_exposure_dose/correct_pre_exposure_dose.py:21 | what the trailing trim removes is all whitespace |
| Text.Strip | correct_pre_exposure_dose/correct_pre_exposure_dose.py:21 | `strip()` is empty iff the line is blank, and otherwise starts and ends with a non-space |
| Text.StripMeans | correct_pre_exposure_dose/correct_pre_exposure_dose.py:21 | `strip()` is a slice of the line whose removed head and tail are all whitespace |
| Text.StripChar | relion_classes_to_mod/relion_classes_to_mod_files.py:45 | `strip('#')` neither starts nor ends with `#` and is no longer than its input |
| Text.StripCharMeans | relion_classes_to_mod/relion_classes_to_mod_files.py:45 | `strip('#')` is a slice of the line whose removed head and tail are all `#` |
| Text.SplitOn | correct_pre_exposure_dose/correct_pre_exposure_dose.py:26 | `split('=')` has at least two parts iff `=` occurs, is `[s]` otherwise, and no part holds the separator |
| Text.SplitOnHead | correct_pre_exposure_dose/correct_pre_exposure_dose.py:26 | the first part is the text before the first separator |
| Text.SplitOnJoin | correct_pre_exposure_dose/correct_pre_exposure_dose.py:26 | joining the parts of `split('=')` with `=` gives back the line |
| Text.TokenLengthOfWord | correct_pre_exposure_dose/correct_pre_exposure_dose.py:86 | a word followed by whitespace is read back as one token |
| Text.WordsOfJoin | correct_pre_exposure_dose/correct_pre_exposure_dose.py:86 | splitting a tab-joined, newline-ended list of words gives back those words |
| Text.NatToDecimal | relion_classes_to_mod/relion_classes_to_mod_files.py:81 | a decimal rendering is a non-empty string of digits |
| Text.NatToDecimalValue | relion_classes_to_mod/relion_classes_to_mod_files.py:81 | the rendering reads back as the number, and has a leading `0` only for 0 |
| Tally.Occurrences | geneate_dynein_conformation_graphs/format_inital.py:59 | the count is at most the length and is positive iff the value occurs |
| Tally.Minimum | geneate_dynein_conformation_graphs/format_inital.py:60 | the minimum occurs and is below every entry |
| Tally.Without | geneate_dynein_conformation_graphs/format_inital.py:59 | removing a value drops exactly its occurrences and keeps every other count |
| Tally.ValueCounts | geneate_dynein_conformation_graphs/format_inital.py:59-60 | `value_counts().sort_index()` as a sorted list of (value, count) pairs; stated by `Tally.ValueCountsFacts` |
| Tally.ValueCountsFacts | geneate_dynein_conformation_graphs/format_inital.py:59-60 | `value_counts().sort_index()` has strictly increasing keys, exactly the values present, each count at least 1 and equal to its occurrences, and the counts sum to the number of values |
| Tally.SortedDistinct | generate_dynein_conformation_graphs/get_hist.py:48 | sorted distinct values are strictly increasing and are exactly the values present |
| Doublet.TransformC | geneate_dynein_conformation_graphs/format_inital.py:17-18 | the clockwise fold lies in 1..9 and is congruent to its input mod 9 |
| Doublet.TransformCIdentity | geneate_dynein_conformation_graphs/format_inital.py:17-18 | the clockwise fold is the identity on 1..9 |
| Doublet.TransformCPeriodic | geneate_dynein_conformation_graphs/format_inital.py:17-18 | the clockwise fold is 9-periodic |
| Doublet.TransformCC | geneate_dynein_conformation_graphs/format_inital.py:20-55 | the reflection table is defined exactly on -7..9 and there equals the clockwise fold of `2 - x` |
| Doublet.TransformCCInvolution | geneate_dynein_conformation_graphs/format_inital.py:20-55 | on 1..9 the reflection lands in 1..9, undoes itself and fixes only 1 |
| Doublet.AssignDoublet | geneate_dynein_conformation_graphs/format_inital.py:242-249 | a doublet is in 1..9: clockwise the fold of `contour + 1 - first`, otherwise the reflection of it |
| Doublet.FirstDoubletAnchors | geneate_dynein_conformation_graphs/format_inital.py:242-249 | the first doublet's contour is doublet 1; the next contour is 2 clockwise and 9 counter-clockwise |
| Doublet.CounterClockwiseDefined | geneate_dynein_conformation_graphs/format_inital.py:246-249 | for contour and first doublet in 1..9 the counter-clockwise assignment is always defined |
| Doublet.ClockwiseHit | geneate_dynein_conformation_graphs/format_inital.py:242-245 | every doublet is hit by some contour in any window of nine consecutive contours |
| Doublet.ClockwiseDistinct | geneate_dynein_conformation_graphs/format_inital.py:242-245 | two contours less than nine apart get different doublets |
| Doublet.ClockwiseBijective | geneate_dynein_conformation_graphs/format_inital.py:242-245 | nine consecutive contours map one-to-one onto doublets 1..9 |
| Doublet.CounterClockwiseHit | geneate_dynein_conformation_graphs/format_inital.py:246-249 | counter-clockwise, every doublet is hit within a window of nine contours in the defined range |
| Doublet.CounterClockwiseDistinct | geneate_dynein_conformation_graphs/format_inital.py:246-249 | counter-clockwise, two defined contours less than nine apart get different doublets |
| Doublet.CounterClockwiseBijective | geneate_dynein_conformation_graphs/format_inital.py:246-249 | counter-clockwise, nine consecutive contours in the defined range map one-to-one onto doublets 1..9 |
| Doublet.DoubletColumn | geneate_dynein_conformation_graphs/format_inital.py:244-249 | the Doublet column assigns each row's contour, and is fully defined when contours and first doublet are in 1..9 |
| Doublet.NumberPoints | geneate_dynein_conformation_graphs/format_inital.py:216-223 | row `i` is numbered `i + 1` and carries the whitespace tokens of line `i` |
| Doublet.Defined | geneate_dynein_conformation_graphs/format_inital.py:59 | the doublets that `value_counts` sees are exactly the defined entries |
| Doublet.CalculateCounts | geneate_dynein_conformation_graphs/format_inital.py:57-65 | the count file lists each defined doublet once, ascending, each count at least 1 and equal to its points, with counts summing to the defined points |
| BendAnalysis.Segment | generate_dynein_conformation_graphs/englishORspanish.py:38 | every segment holds `len(data) // num_segments` points |
| BendAnalysis.Segments | generate_dynein_conformation_graphs/englishORspanish.py:36-38 | exactly `num_segments` segments are cut |
| BendAnalysis.SegmentsPrefix | generate_dynein_conformation_graphs/englishORspanish.py:29-38 | the first `j` segments, concatenated, are the first `j * L` points |
| BendAnalysis.SegmentsCoverPrefix | generate_dynein_conformation_graphs/englishORspanish.py:29-38 | the segments tile the first `num_segments * L` points in order and drop exactly `len mod num_segments` trailing points |
| BendAnalysis.Directions | generate_dynein_conformation_graphs/englishORspanish.py:36-47 | the per-segment direction list; stated by `BendAnalysis.DirectionsPointwise` |
| BendAnalysis.DirectionsUpTo | generate_dynein_conformation_graphs/englishORspanish.py:36-47 | after `j` iterations there are `j` direction vectors |
| BendAnalysis.DirectionsPointwise | generate_dynein_conformation_graphs/englishORspanish.py:36-47 | direction `i` is the fit of segment `i` |
| BendAnalysis.FitDirections | generate_dynein_conformation_graphs/englishORspanish.py:35-47 | an empty doublet makes the fit raise (`np.array([])` is one-dimensional, so `svd` raises); otherwise the fitting loop yields one direction per segment, in segment order |
| BendAnalysis.ClippedCosine | generate_dynein_conformation_graphs/englishORspanish.py:56 | the cosine handed to arccos lies in [-1, 1] and is unchanged when already inside |
| BendAnalysis.PairAngles | generate_dynein_conformation_graphs/englishORspanish.py:50-59 | there is one angle per consecutive pair of directions |
| BendAnalysis.PairAnglesPointwise | generate_dynein_conformation_graphs/englishORspanish.py:50-59 | angle `i` is measured between directions `i` and `i + 1` |
| BendAnalysis.KeepAtMost | generate_dynein_conformation_graphs/englishORspanish.py:61-63 | filtering never lengthens the list |
| BendAnalysis.KeepAtMostMembers | generate_dynein_conformation_graphs/englishORspanish.py:61-63 | the survivors are exactly the angles at most the threshold |
| BendAnalysis.KeepAtMostAppend | generate_dynein_conformation_graphs/englishORspanish.py:61-63 | the filter distributes over concatenation, so survivors keep their order |
| BendAnalysis.KeepAtMostWithin | generate_dynein_conformation_graphs/englishORspanish.py:61-63 | a list already within the threshold is kept whole |
| BendAnalysis.KeepAtMostIdempotent | generate_dynein_conformation_graphs/englishORspanish.py:61-63 | filtering twice is filtering once |
| BendAnalysis.RetainedAngles | generate_dynein_conformation_graphs/englishORspanish.py:27-65 | `calculate_angles` returns at most `num_segments - 1` angles |
| BendAnalysis.MeasurePairs | generate_dynein_conformation_graphs/englishORspanish.py:49-65 | the pair loop returns the filtered consecutive-pair angles |
| BendAnalysis.CalculateAngles | generate_dynein_conformation_graphs/englishORspanish.py:27-65 | `calculate_angles` raises iff the doublet is empty, and otherwise returns the retained angles of the segment directions |
| BendAnalysis.BendingAmount | generate_dynein_conformation_graphs/englishORspanish.py:87 | the bending amount is non-negative |
| BendAnalysis.BendingAmountSums | generate_dynein_conformation_graphs/englishORspanish.py:87 | the bending amount is the sum of the angles' magnitudes |
| BendAnalysis.BendingAmountAdds | generate_dynein_conformation_graphs/englishORspanish.py:87 | the bending amount of a concatenation is the sum of the parts' amounts |
| BendAnalysis.BendingAmountBounds | generate_dynein_conformation_graphs/englishORspanish.py:86-88 | every angle's magnitude is at most the bending amount |
| BendAnalysis.IsBent | generate_dynein_conformation_graphs/englishORspanish.py:90-92 | the bent test on one doublet's angles; stated by `BendAnalysis.IsBentMeans` |
| BendAnalysis.IsBentMeans | generate_dynein_conformation_graphs/englishORspanish.py:90-92 | a doublet is bent iff some retained angle exceeds 6 degrees |
| BendAnalysis.BentIndices | generate_dynein_conformation_graphs/englishORspanish.py:81-92 | the `bent_lists` the loop builds; stated by `BendAnalysis.BentIndicesExact` |
| BendAnalysis.BentIndicesExact | generate_dynein_conformation_graphs/englishORspanish.py:81-92 | `bent_lists` holds exactly the 1-based indices of bent doublets, strictly increasing, each in range |
| BendAnalysis.VerdictOf | generate_dynein_conformation_graphs/englishORspanish.py:115-118 | the verdict is "all straight" iff no doublet is bent, and otherwise lists the bent doublets |
| BendAnalysis.MaxOf | generate_dynein_conformation_graphs/englishORspanish.py:107 | `np.max` is an entry and bounds every entry from above |
| BendAnalysis.MinOf | generate_dynein_conformation_graphs/englishORspanish.py:106 | `np.min` is an entry and bounds every entry from below |
| BendAnalysis.AngleRange | generate_dynein_conformation_graphs/englishORspanish.py:106-109 | `np.max(doublet) - np.min(doublet)`; stated by `BendAnalysis.AngleRangeBounds` |
| BendAnalysis.AngleRangeBounds | generate_dynein_conformation_graphs/englishORspanish.py:105-110 | the angle spread is non-negative and bounds every difference of two angles |
| BendAnalysis.DoubletAngles | generate_dynein_conformation_graphs/englishORspanish.py:83 | the `calculate_angles(data, num_segments, bend_threshold)` call for one doublet; stated by `BendAnalysis.AllDoubletAnglesPointwise` |
| BendAnalysis.AllDoubletAngles | generate_dynein_conformation_graphs/englishORspanish.py:81-84 | one list of retained angles per doublet |
| BendAnalysis.AllDoubletAnglesPointwise | generate_dynein_conformation_graphs/englishORspanish.py:81-84 | entry `i` is the retained angles of doublet `i` |
| BendAnalysis.AngleDifferences | generate_dynein_conformation_graphs/englishORspanish.py:105-110 | the spreads loop fails at the first doublet with no retained angle, and otherwise gives each doublet's spread |
| BendAnalysis.Amounts | generate_dynein_conformation_graphs/englishORspanish.py:77-88 | `bending_amounts`, one per doublet; stated by `BendAnalysis.AmountsPointwise` |
| BendAnalysis.AmountsPointwise | generate_dynein_conformation_graphs/englishORspanish.py:86-88 | one bending amount per doublet, in order |
| BendAnalysis.MeasureDoublets | generate_dynein_conformation_graphs/englishORspanish.py:80-92 | the doublet loop stops at the first empty doublet; when none is empty it yields all retained angles, each doublet's bending amount and exactly the bent indices |
| BendAnalysis.AssembledReportSummarises | generate_dynein_conformation_graphs/englishORspanish.py:100-118 | columns built per doublet, with the verdict, form a consistent report |
| BendAnalysis.Report | generate_dynein_conformation_graphs/englishORspanish.py:100-118 | aggregation fails on no doublets, or at the first doublet without angles; otherwise the report summarises the angles |
| BendAnalysis.CalculateFit | generate_dynein_conformation_graphs/englishORspanish.py:68-118 | `calculate_fit` succeeds iff there are doublets, none is empty and each keeps an angle; it fails on no doublets, otherwise names the first empty doublet, otherwise the first doublet without angles; on success the report summarises every doublet's retained angles |
| Contingency.GroupsPartitionRing | geneate_dynein_conformation_graphs/calculate_stats.py:44-51 | groups 1-4, 5 and 6-9 are disjoint and cover exactly 1..9 |
| Contingency.RowsInGroup | geneate_dynein_conformation_graphs/calculate_stats.py:44-50 | the selection holds exactly the rows whose doublet is in the group |
| Contingency.RowsOfClass | geneate_dynein_conformation_graphs/calculate_stats.py:45-51 | the selection holds exactly the rows whose class is in the class set |
| Contingency.GroupCount | geneate_dynein_conformation_graphs/calculate_stats.py:44-51 | a group's class count is at most its number of rows |
| Contingency.GroupCountIsMatching | geneate_dynein_conformation_graphs/calculate_stats.py:44-51 | the count is the number of rows with doublet in the group and class in the set |
| Contingency.GroupCountsPartition | geneate_dynein_conformation_graphs/calculate_stats.py:44-51 | the three counts sum to the rows on the ring whose class is in the set |
| Contingency.MatchingPartition | geneate_dynein_conformation_graphs/calculate_stats.py:44-51 | the three group-wise matches partition the matching rows on the ring |
| Contingency.CountsInGroup | geneate_dynein_conformation_graphs/calculate_stats.py:54-56 | the selection holds exactly the count rows of the group's doublets |
| Contingency.GroupTotal | geneate_dynein_conformation_graphs/calculate_stats.py:54-56 | `total_1_4`, `total_5`, `total_6_9`; stated by `Contingency.GroupTotalIsMatching` and `Contingency.GroupTotalOfCountTable` |
| Contingency.GroupTotalIsMatching | geneate_dynein_conformation_graphs/calculate_stats.py:54-56 | a group total is the sum of the Count column over the group's doublets |
| Contingency.CountTable | geneate_dynein_conformation_graphs/format_inital.py:57-65 | the count file has one row per distinct defined doublet |
| Contingency.TotalOfValueCounts | geneate_dynein_conformation_graphs/format_inital.py:57-65 | summing a value-count table over a group counts the group's values |
| Contingency.GroupTotalOfCountTable | geneate_dynein_conformation_graphs/calculate_stats.py:54-56 | with the count file from `calculate_counts`, a group total is the group's number of points and bounds its class count |
| Contingency.TableRow | geneate_dynein_conformation_graphs/calculate_stats.py:59-61 | a table row is `[count, total - count]` and sums to the total |
| Contingency.Figures | geneate_dynein_conformation_graphs/calculate_stats.py:44-56 | three counts and three totals, in group order 1-4, 5, 6-9 |
| Contingency.Omnibus | geneate_dynein_conformation_graphs/calculate_stats.py:59-61 | the 3x2 table has rows 1-4, 5, 6-9, each `[count, total - count]` |
| Contingency.Pairwise | geneate_dynein_conformation_graphs/calculate_stats.py:63-70 | the pairwise tables are omnibus rows (0,1), (0,2) and (1,2) |
| Contingency.Significant | geneate_dynein_conformation_graphs/calculate_stats.py:81-82 | significant iff `p < 0.05 / 3`, strictly, so `p = 0.05 / 3` is not |
| Contingency.ClassSetStatistics | geneate_dynein_conformation_graphs/calculate_stats.py:73-95 | a class-set report labels the first class; a failure is the chi-square error of a table |
| Contingency.TestedTables | geneate_dynein_conformation_graphs/calculate_stats.py:73-80 | the four tables handed to `chi2_contingency` are the omnibus table then the three pairwise tables, each row two cells |
| Contingency.MarginTestsMean | geneate_dynein_conformation_graphs/calculate_stats.py:73-80 | a table has a negative cell, or a row summing to zero, exactly when some cell or row says so |
| Contingency.ChiSquareRaises | geneate_dynein_conformation_graphs/calculate_stats.py:73-78 | when `chi2_contingency` raises on a two-column table; stated by `Contingency.OmnibusRaises` and `Contingency.TestTablesMeans` |
| Contingency.OmnibusRaises | geneate_dynein_conformation_graphs/calculate_stats.py:59-61 | on the omnibus table the chi-square test raises iff a class count exceeds its total, or, with a non-zero grand total, a group total is zero, no point is in the class set, or every point is |
| Contingency.ClassSetStatisticsMeans | geneate_dynein_conformation_graphs/calculate_stats.py:73-95 | a class set succeeds iff none of its four tables makes the test raise, and otherwise fails on the first one that does; on success it holds the omnibus and pairwise tables, their p-values from the test, and significance as `p < 0.05 / 3` |
| Contingency.TestTables | geneate_dynein_conformation_graphs/calculate_stats.py:73-95 | the four tests in order and their report; stated by `Contingency.TestTablesMeans` |
| Contingency.TestTablesMeans | geneate_dynein_conformation_graphs/calculate_stats.py:73-95 | the four tests, run in order on any four tables, succeed iff no table makes the test raise, fail on the first one that does, and on success report each table's p-value and each pair's verdict `p < 0.05 / 3` |
| Contingency.ReportsUpTo | geneate_dynein_conformation_graphs/calculate_stats.py:33-41 | the first `n` class sets, on success, give `n` reports |
| Contingency.ReportsUpToMeans | geneate_dynein_conformation_graphs/calculate_stats.py:33-41 | for any per-class-set statistics, the first `n` class sets succeed iff each does, then report each class set's statistics in order, and otherwise fail with the error of the first one that raises |
| Contingency.ReportsFailureStops | geneate_dynein_conformation_graphs/calculate_stats.py:33-41 | after a raising class set the later class sets do not matter |
| Contingency.SkipsClassSets | geneate_dynein_conformation_graphs/calculate_stats.py:35-37 | the guard that skips a class set; stated by `Contingency.FolderReports` |
| Contingency.FolderReports | geneate_dynein_conformation_graphs/calculate_stats.py:33-41 | a folder yields nothing when only the points file is missing, fails naming the first missing file otherwise, and with both files is the class-set fold over `[1]`, `[2,4]`, `[3]` |
| Contingency.FolderReportsOfFiles | geneate_dynein_conformation_graphs/calculate_stats.py:33-41 | with both files, a folder succeeds iff its three class sets do, then yields their three reports in order, each labelled by its first class; otherwise it fails with the chi-square error of the first class set that raises |
| Contingency.ProcessFolder | geneate_dynein_conformation_graphs/calculate_stats.py:33-95 | the class-set loop computes the folder's reports |
| Contingency.Statistics | geneate_dynein_conformation_graphs/calculate_stats.py:16-41 | `poly01Tomo01` never appears, and the run succeeds iff every other folder's reports succeed |
| Contingency.Included | geneate_dynein_conformation_graphs/calculate_stats.py:16-18 | the folders kept are listed folders other than `poly01Tomo01` |
| Contingency.StatisticsContents | geneate_dynein_conformation_graphs/calculate_stats.py:16-41 | on success there is one entry per folder other than `poly01Tomo01`, in listing order, holding that folder's name and reports |
| Contingency.StatisticsFailure | geneate_dynein_conformation_graphs/calculate_stats.py:16-41 | on failure the error is that of the first failing folder other than `poly01Tomo01` |
| Contingency.FailureStops | geneate_dynein_conformation_graphs/calculate_stats.py:16-41 | after a failing folder the later folders do not matter |
| Contingency.ProcessFolders | geneate_dynein_conformation_graphs/calculate_stats.py:16-95 | the folder loop computes the statistics of every folder |
| Histogram.RemapClass | generate_dynein_conformation_graphs/get_hist.py:40 | class 4 becomes 2, every other class is kept, and no 4 remains, so remapping twice is remapping once |
| Histogram.GroupKey | generate_dynein_conformation_graphs/get_hist.py:44 | doublets 1-4, 5 and 6-9 go to '1-4', '5' and '6-9'; any other value is kept |
| Histogram.ClassesAt | generate_dynein_conformation_graphs/get_hist.py:48 | the remapped classes at a row key contain no class 4 |
| Histogram.PresentClasses | generate_dynein_conformation_graphs/get_hist.py:48 | the classes with a defined doublet are no more than the samples |
| Histogram.ClassesAtArePresent | generate_dynein_conformation_graphs/get_hist.py:48 | a class seen at any row key is a pivot column |
| Histogram.PresentClassesOrigin | generate_dynein_conformation_graphs/get_hist.py:48 | a class is present iff some sample with a defined doublet has it after remapping |
| Histogram.Columns | generate_dynein_conformation_graphs/get_hist.py:48 | the pivot columns are the present classes, ascending |
| Histogram.DoubletPresentHasClasses | generate_dynein_conformation_graphs/get_hist.py:48 | every doublet in the index has a non-empty row |
| Histogram.ClassesAtCounts | generate_dynein_conformation_graphs/get_hist.py:48 | the count of a class among a row key's remapped classes equals a direct one-pass count over the samples |
| Histogram.PivotCellCounts | generate_dynein_conformation_graphs/get_hist.py:48-57 | an unnormalised pivot cell is the number of samples with that row key and that column's class |
| Histogram.SingleIndex | generate_dynein_conformation_graphs/get_hist.py:48 | the ungrouped index is the doublets present, ascending, each with a non-empty row |
| Histogram.Index | generate_dynein_conformation_graphs/get_hist.py:56-57 | grouped, the rows are exactly '1-4', '5', '6-9'; ungrouped, the doublets present |
| Histogram.PivotRow | generate_dynein_conformation_graphs/get_hist.py:48-57 | a reindexed row is missing iff no sample has that key, and otherwise holds each column's count, divided by the row total when normalised |
| Histogram.PivotTable | generate_dynein_conformation_graphs/get_hist.py:48-57 | the pivot has the index rows and the present-class columns, and every ungrouped row is present |
| Histogram.CountAmongAll | generate_dynein_conformation_graphs/get_hist.py:53 | over columns covering every class, the row counts sum to the row's samples |
| Histogram.ScaledCountsSum | generate_dynein_conformation_graphs/get_hist.py:52-53 | a scaled row sums to its covered count over the divisor |
| Histogram.CoveredRowSum | generate_dynein_conformation_graphs/get_hist.py:52-53 | a covering row sums to its sample count unscaled and to 1 when scaled by it |
| Histogram.NormalisedCellBounds | generate_dynein_conformation_graphs/get_hist.py:52-53 | every normalised cell lies in [0, 1] |
| Histogram.CountRowTotal | generate_dynein_conformation_graphs/get_hist.py:48 | a present count row sums to its number of samples |
| Histogram.NormalisedRowTotal | generate_dynein_conformation_graphs/get_hist.py:52-53 | every present normalised row sums to 1 and its cells lie in [0, 1] |
| Histogram.LegendLabel | generate_dynein_conformation_graphs/get_hist.py:60 | only classes 1, 2 and 3 have a legend label |
| Histogram.Legends | generate_dynein_conformation_graphs/get_hist.py:60-74 | the legend lookup succeeds iff every column is 1, 2 or 3, and otherwise names an offending column |
| Histogram.LegendsDefined | generate_dynein_conformation_graphs/get_hist.py:60-74 | the legend lookup succeeds iff every remapped class present is 1, 2 or 3 |
| Histogram.FigureOf | generate_dynein_conformation_graphs/get_hist.py:36-74 | a figure is the normalised pivot with one legend per column, or the class whose legend lookup raises |
| Histogram.GenerateFigure | generate_dynein_conformation_graphs/get_hist.py:36-74 | a folder figure has rows '1-4', '5', '6-9', and each present row sums to 1 |
| Histogram.GenerateCombinedHistogram | generate_dynein_conformation_graphs/get_hist.py:91-124 | the combined figure keeps the fixed order when grouped, has every row present when not, and each present row sums to 1 |
| Histogram.PoolAccumulator.constructor | generate_dynein_conformation_graphs/get_hist.py:11-12 | both pools start empty |
| Histogram.PoolAccumulator.Add | generate_dynein_conformation_graphs/get_hist.py:164-173 | 'straight' samples go only to the straight pool, 'bend' only to the bend pool, anything else to neither, by appending |
| Histogram.Routed | generate_dynein_conformation_graphs/get_hist.py:165-173 | what one folder adds to a pool; stated by `Histogram.PoolSizes` and `Histogram.UndeterminedFolderIgnored` |
| Histogram.Pool | generate_dynein_conformation_graphs/get_hist.py:165-173 | the pool the folder loop accumulates; stated by `Histogram.PoolSizes`, `Histogram.UndeterminedFolderIgnored` and `Histogram.PoolAccumulator.Add` |
| Histogram.PoolSizes | generate_dynein_conformation_graphs/get_hist.py:164-173 | the two pools together hold at most all samples |
| Histogram.UndeterminedFolderIgnored | generate_dynein_conformation_graphs/get_hist.py:171-173 | a folder whose direction is neither 'straight' nor 'bend' changes no pool |
| Histogram.Visit | generate_dynein_conformation_graphs/get_hist.py:154-173 | a folder without a points file is skipped; one with a file needs a bend direction or raises naming it |
| Histogram.VisitFigure | generate_dynein_conformation_graphs/get_hist.py:154-173 | for a folder with a points file, a visit is its `generate_figure`, failing as that does, or raising on a missing bend direction |
| Histogram.Figures | generate_dynein_conformation_graphs/get_hist.py:147-173 | on success every present folder had a bend direction, with at most one figure per folder |
| Histogram.PresentFolders | generate_dynein_conformation_graphs/get_hist.py:154-157 | the present folders are listed folders with a points file |
| Histogram.FiguresSucceed | generate_dynein_conformation_graphs/get_hist.py:147-173 | the main loop succeeds iff every present folder's pass does |
| Histogram.FiguresPassFails | generate_dynein_conformation_graphs/get_hist.py:147-173 | a pass that raises makes the main loop raise |
| Histogram.FiguresOfVisits | generate_dynein_conformation_graphs/get_hist.py:147-173 | the main loop succeeds iff every present folder's visit does, and then holds one figure per present folder, in listing order |
| Histogram.FiguresContents | generate_dynein_conformation_graphs/get_hist.py:147-173 | the main loop succeeds iff every present folder's figure can be drawn and has a bend direction, and then holds each present folder's `generate_figure`, in listing order |
| Histogram.FiguresFailureStops | generate_dynein_conformation_graphs/get_hist.py:147-173 | after a failing folder the later folders do not matter |
| Histogram.VisitFolder | generate_dynein_conformation_graphs/get_hist.py:154-173 | one iteration yields the folder's figure and appends its samples to the pool its direction names |
| Histogram.MainLoop | generate_dynein_conformation_graphs/get_hist.py:146-173 | the main loop yields every figure and grows each pool by the folders routed to it, in listing order |
| Histogram.PoolFile | generate_dynein_conformation_graphs/get_hist.py:181-185 | a non-empty pool is written out; an empty one leaves the file of an earlier run, if any |
| Histogram.CombinedFromFile | generate_dynein_conformation_graphs/get_hist.py:91-98 | a missing pooled file raises naming it; otherwise the combined histogram of its rows |
| Histogram.CombinedHistograms | generate_dynein_conformation_graphs/get_hist.py:187-192 | a missing straight file raises first, a missing bend file raises naming it, and success gives four figures |
| Histogram.CombinedHistogramsMeans | generate_dynein_conformation_graphs/get_hist.py:187-192 | the combined histograms succeed iff both files exist and all four can be drawn, and are then straight grouped, straight single, bend grouped and bend single |
| Histogram.HistogramRun | generate_dynein_conformation_graphs/get_hist.py:146-192 | the script fails as the main loop does, and on success holds the main loop's figures and four combined figures |
| Histogram.FreshRunNeedsStraightFolder | generate_dynein_conformation_graphs/get_hist.py:175-192 | on a fresh run with no folder marked 'straight', the script raises on the missing straight file after the main loop |
| Histogram.RunHistograms | generate_dynein_conformation_graphs/get_hist.py:146-192 | the script, run over the pool object, computes that result |
| StarClasses.RlnField | relion_classes_to_mod/relion_classes_to_mod_files.py:11-17 | the six `_rln` labels and the field each names, any other label none; stated by `StarClasses.HeaderLineChanges` and `StarClasses.ScanHeaderKeys` |
| StarClasses.HeaderLine | relion_classes_to_mod/relion_classes_to_mod_files.py:43-45 | a header line only adds or overwrites column indices, failing only by IndexError or ValueError |
| StarClasses.HeaderLineChanges | relion_classes_to_mod/relion_classes_to_mod_files.py:43-45 | only a label line followed by a column number changes the columns; it sets that label's field to the number, `#` stripped, minus 1 and keeps every other field |
| StarClasses.ScanHeader | relion_classes_to_mod/relion_classes_to_mod_files.py:38-42 | the scan stops once all six fields are known or at the end of input |
| StarClasses.LabelStepFacts | relion_classes_to_mod/relion_classes_to_mod_files.py:43-45 | a header step keeps known columns and can only raise on the column number |
| StarClasses.ScanHeaderKeys | relion_classes_to_mod/relion_classes_to_mod_files.py:38-45 | the scan never forgets a column it found |
| StarClasses.ScanStopsWhenKnown | relion_classes_to_mod/relion_classes_to_mod_files.py:38-42 | lines after the point where all columns are known are never read by the scan |
| StarClasses.FindColumns | relion_classes_to_mod/relion_classes_to_mod_files.py:36-45 | the header loop computes the header scan |
| StarClasses.FirstDataLine | relion_classes_to_mod/relion_classes_to_mod_files.py:47-49 | the first data line is the first line from the position that does not start with '_', or StopIteration if none |
| StarClasses.SkipLabels | relion_classes_to_mod/relion_classes_to_mod_files.py:47-49 | the label-skip loop finds that line |
| StarClasses.PyIndex | relion_classes_to_mod/relion_classes_to_mod_files.py:54-59 | Python indexing, including negative indices, defined iff in range |
| StarClasses.ParseRow | relion_classes_to_mod/relion_classes_to_mod_files.py:54-64 | one data row's fields and numbers; its meaning is stated by `StarClasses.ParseRowMeaning` |
| StarClasses.ParseRowMeaning | relion_classes_to_mod/relion_classes_to_mod_files.py:54-64 | a row parses iff its columns are in range and its numbers parse and binning is non-zero, and then it yields `(class, contour + 1, x/b, y/b, z/b)` for its tomogram |
| StarClasses.ParseRows | relion_classes_to_mod/relion_classes_to_mod_files.py:50-65 | no more rows than lines |
| StarClasses.ParseLine | relion_classes_to_mod/relion_classes_to_mod_files.py:51-64 | one data line, stripped and split: blank gives no row, anything else is parsed; stated by `StarClasses.BlankLineSkipped` and `StarClasses.ParseRowMeaning` |
| StarClasses.BlankLineSkipped | relion_classes_to_mod/relion_classes_to_mod_files.py:51-53 | a blank data line contributes nothing |
| StarClasses.FailureSticks | relion_classes_to_mod/relion_classes_to_mod_files.py:50-65 | once a line raises, later lines do not matter |
| StarClasses.FailureDecides | relion_classes_to_mod/relion_classes_to_mod_files.py:50-65 | the outcome is decided at the first raising line |
| StarClasses.ParticlesOf | relion_classes_to_mod/relion_classes_to_mod_files.py:62-65 | a tomogram's particles are drawn from the rows |
| StarClasses.Add | relion_classes_to_mod/relion_classes_to_mod_files.py:60-65 | one data-loop iteration's update of `outputs`, `min_class` and `max_class`; stated by `StarClasses.CollectParticles`, `StarClasses.CollectNames` and `StarClasses.ClassRange` |
| StarClasses.Collect | relion_classes_to_mod/relion_classes_to_mod_files.py:34-65 | `outputs` and the class range after all rows, from the empty dict and `(1, 1)`; stated by `StarClasses.CollectParticles`, `StarClasses.CollectNames`, `StarClasses.ClassRange` and `StarClasses.ReadFromRows` |
| StarClasses.CollectParticles | relion_classes_to_mod/relion_classes_to_mod_files.py:62-65 | a tomogram has an entry iff some row names it, and its list is its rows' particles in file order |
| StarClasses.CollectNames | relion_classes_to_mod/relion_classes_to_mod_files.py:62-69 | the output names are distinct and are exactly the tomograms with particles |
| StarClasses.ClassRange | relion_classes_to_mod/relion_classes_to_mod_files.py:34 | the tracked range is `min(1, classes)` to `max(1, classes)`, updated per row at lines 60-61 |
| StarClasses.NameOrder | relion_classes_to_mod/relion_classes_to_mod_files.py:62-65 | a new tomogram is appended to the names in first-seen order; a known one changes nothing |
| StarClasses.ReadFromRows | relion_classes_to_mod/relion_classes_to_mod_files.py:50-65 | resuming the data loop from the rows read so far gives the whole file's outputs |
| StarClasses.ReadLine | relion_classes_to_mod/relion_classes_to_mod_files.py:51-65 | one iteration parses a line and adds its row |
| StarClasses.ReadParticles | relion_classes_to_mod/relion_classes_to_mod_files.py:50-65 | the data loop computes the grouped outputs of the parsed data lines |
| StarClasses.UsedColors | relion_classes_to_mod/relion_classes_to_mod_files.py:76 | the colours are the first `max - min + 1` palette entries, and IndexError when that exceeds 10 (the header's warning at lines 3-4) |
| StarClasses.CoordinatesName | relion_classes_to_mod/relion_classes_to_mod_files.py:70 | the `<tomo>_coordinates.txt` file name; stated by `StarClasses.ModNameOfCoordinates` and `StarClasses.Convert` |
| StarClasses.ModName | relion_classes_to_mod/relion_classes_to_mod_files.py:78 | the model file name made from a coordinates file name; stated by `StarClasses.ModNameSuffix` and `StarClasses.ModNameOfCoordinates` |
| StarClasses.ModNameSuffix | relion_classes_to_mod/relion_classes_to_mod_files.py:78 | the output name ends in '.mod' |
| StarClasses.ModNameOfCoordinates | relion_classes_to_mod/relion_classes_to_mod_files.py:70-78 | an undotted tomogram gives `tomo_coordinates.mod`; a dotted one keeps only the text before its first dot |
| StarClasses.ColorOptions | relion_classes_to_mod/relion_classes_to_mod_files.py:80-81 | two arguments per colour |
| StarClasses.ColorOptionAt | relion_classes_to_mod/relion_classes_to_mod_files.py:80-81 | colour `k` contributes '-color' then 'r,g,b' at positions `2k` and `2k + 1` |
| StarClasses.Command | relion_classes_to_mod/relion_classes_to_mod_files.py:79-82 | the `point2model` argument list for one file; stated by `StarClasses.CommandLayout` |
| StarClasses.CommandLayout | relion_classes_to_mod/relion_classes_to_mod_files.py:79-82 | the command is `point2model -sphere 5`, then the colour options, then the input and output names |
| StarClasses.BuildCommand | relion_classes_to_mod/relion_classes_to_mod_files.py:79-82 | the command loop builds that command |
| StarClasses.Convert | relion_classes_to_mod/relion_classes_to_mod_files.py:68-82 | one coordinates file per tomogram, in output order, is always written; then either one command per file, or the IndexError, which is raised iff the class range exceeds the palette and keeps the files already written |
| StarClasses.ConvertFiles | relion_classes_to_mod/relion_classes_to_mod_files.py:68-84 | the writing loop followed by the palette lookup and the command loop computes that conversion, including the files left behind when the palette raises |
| StarClasses.WrittenBeforeRaise | relion_classes_to_mod/relion_classes_to_mod_files.py:69-76 | when the palette raises, the conversion is the files the writing loop produced with the IndexError |
| StarClasses.WriteCoordinateFiles | relion_classes_to_mod/relion_classes_to_mod_files.py:68-74 | the writing loop names one `_coordinates.txt` file per tomogram, in output order |
| StarClasses.BuildCommands | relion_classes_to_mod/relion_classes_to_mod_files.py:77-84 | the command loop builds one `point2model` command per coordinates file, in the same order |
| StarClasses.MissingColumnStops | relion_classes_to_mod/relion_classes_to_mod_files.py:38-49 | a file without all six columns ends in StopIteration, for any binning |
| StarClasses.OneFilePerTomogram | relion_classes_to_mod/relion_classes_to_mod_files.py:69-74 | every tomogram with particles gets its coordinates file |
| StarClasses.ClassesToMod | relion_classes_to_mod/relion_classes_to_mod_files.py:30-84 | the whole script as a function of the lines and binning; stated by `StarClasses.MissingColumnStops`, `StarClasses.OneFilePerTomogram` and `StarClasses.RelionClassesToMod` |
| StarClasses.RelionClassesToMod | relion_classes_to_mod/relion_classes_to_mod_files.py:30-84 | `main` computes the header scan, label skip, data loop and conversion; a failure before the conversion writes nothing, and the palette IndexError comes with the files already written |
| PreExposureDose.ValueAfterEquals | correct_pre_exposure_dose/correct_pre_exposure_dose.py:26-28 | raises IndexError iff there is no '=', otherwise the parsed stripped text after the first '=' |
| PreExposureDose.KindOf | correct_pre_exposure_dose/correct_pre_exposure_dose.py:21-27 | which `startswith` branch a stripped line takes, in the script's order; stated by `PreExposureDose.MdocStepCases` |
| PreExposureDose.MdocStep | correct_pre_exposure_dose/correct_pre_exposure_dose.py:20-30 | one line of the MDOC loop; stated by `PreExposureDose.MdocStepCases` |
| PreExposureDose.MdocStepCases | correct_pre_exposure_dose/correct_pre_exposure_dose.py:20-30 | '[ZValue' resets tilt and dose; 'TiltAngle' sets the tilt; 'PriorRecordDose' sets the dose and appends the pair iff a tilt is pending; other lines change nothing |
| PreExposureDose.StepExtends | correct_pre_exposure_dose/correct_pre_exposure_dose.py:25-30 | a step only appends, and at most one pair, and only on a dose line |
| PreExposureDose.LineStepAppends | correct_pre_exposure_dose/correct_pre_exposure_dose.py:20-30 | the line step extends the pairs and appends only on dose lines |
| PreExposureDose.ScanFrom | correct_pre_exposure_dose/correct_pre_exposure_dose.py:20-30 | the `for line in lines` loop from a given line and state; stated by `PreExposureDose.ScanExtends`, `PreExposureDose.PairsBound` and `PreExposureDose.ScanPrefix` |
| PreExposureDose.ScanExtends | correct_pre_exposure_dose/correct_pre_exposure_dose.py:20-32 | the scan keeps earlier pairs in file order |
| PreExposureDose.PairsBound | correct_pre_exposure_dose/correct_pre_exposure_dose.py:20-32 | the scan adds at most one pair per PriorRecordDose line |
| PreExposureDose.ParseMdoc | correct_pre_exposure_dose/correct_pre_exposure_dose.py:13-18 | a missing mdoc file yields no pairs |
| PreExposureDose.ParseMdocBound | correct_pre_exposure_dose/correct_pre_exposure_dose.py:20-32 | no more pairs than PriorRecordDose lines |
| PreExposureDose.ScanPrefix | correct_pre_exposure_dose/correct_pre_exposure_dose.py:20-32 | the pairs of a prefix of the lines are a prefix of the pairs |
| PreExposureDose.ParseMdocPrefix | correct_pre_exposure_dose/correct_pre_exposure_dose.py:20-32 | parsing a prefix of an mdoc gives a prefix of its pairs |
| PreExposureDose.ReadMdocLine | correct_pre_exposure_dose/correct_pre_exposure_dose.py:21-30 | one iteration of the parser loop performs the line step |
| PreExposureDose.ParseMdocLines | correct_pre_exposure_dose/correct_pre_exposure_dose.py:4-32 | the parser loop computes the mdoc scan |
| PreExposureDose.ClosestIndex | correct_pre_exposure_dose/correct_pre_exposure_dose.py:37 | the chosen pair minimises the distance, and every earlier pair is strictly farther |
| PreExposureDose.FindClosestDose | correct_pre_exposure_dose/correct_pre_exposure_dose.py:34-38 | None iff there are no pairs, otherwise the dose of the first pair at minimal distance |
| PreExposureDose.FirstNearestWins | correct_pre_exposure_dose/correct_pre_exposure_dose.py:37 | a pair strictly closer than all earlier and no farther than all later ones gives the dose |
| PreExposureDose.RoundHalfEven | correct_pre_exposure_dose/correct_pre_exposure_dose.py:80 | `round` is within one half, and ties go to the even integer |
| PreExposureDose.RoundNearest | correct_pre_exposure_dose/correct_pre_exposure_dose.py:80 | a value less than one half from an integer rounds to it |
| PreExposureDose.AdjustedDose | correct_pre_exposure_dose/correct_pre_exposure_dose.py:80-83 | ZeroDivisionError iff the exposure is 0; otherwise `max(0, (round(prior/exposure) - 1) * exposure)`, never negative |
| PreExposureDose.WholeExposures | correct_pre_exposure_dose/correct_pre_exposure_dose.py:80-83 | a prior dose of `k` whole exposures becomes `k - 1` exposures |
| PreExposureDose.RewriteLine | correct_pre_exposure_dose/correct_pre_exposure_dose.py:63-86 | a non-qualifying line, or an empty pair list, leaves the line unchanged; a qualifying line fails only on a zero exposure |
| PreExposureDose.Qualifies | correct_pre_exposure_dose/correct_pre_exposure_dose.py:63-74 | the lines the rewrite loop does not skip; stated by `PreExposureDose.RewriteLine` and `PreExposureDose.RewriteChangesOnlyDoseColumn` |
| PreExposureDose.RewriteChangesOnlyDoseColumn | correct_pre_exposure_dose/correct_pre_exposure_dose.py:67-86 | a rewritten line has the same columns except column 4, tab-joined |
| PreExposureDose.RewriteLines | correct_pre_exposure_dose/correct_pre_exposure_dose.py:62-86 | lines before index 35 stay, every later line becomes its rewrite, and the only failure is ZeroDivisionError |
| PreExposureDose.UpdateStarFile | correct_pre_exposure_dose/correct_pre_exposure_dose.py:48-89 | no pairs, or fewer than 36 lines, leave the file unchanged; otherwise it is updated iff every line from index 35 rewrites, each then replaced by its rewrite; a raising line leaves the file unchanged, since it is written only after the loop |

## Left out

- The floating-point numerics stay abstract. These are the SVD direction fit, the dot product and norms, arccos and the degree conversion (`BendAnalysis.Numerics`).
- `np.mean` and `np.max` of the bending amounts and `np.average` of the spreads are not computed. Floating-point aggregates are outside the model. Only the error `np.max` raises on no doublets is kept (`FitError.NoDoublets`).
- The chi-square statistic, degrees of freedom and expected frequencies from `chi2_contingency` are a library call. The p-value is a parameter.
- Reading and writing files, `os.listdir`, `os.path.exists`, `os.remove` and directory creation are not modelled. Folder listings, file contents and file existence are inputs (`Option` for a file that may be missing).
- Other external effects are not modelled: `os.system("model2point …")`, `subprocess.run(point2model …)`, argparse, `print`, and the YAML metadata (`prepare_metadata`, `read_metadata`). The metadata is a map given as input.
- CSV reading and writing, and pandas DataFrame mechanics, are not modelled. Rows are sequences of datatypes.
- Plotting (`show_plot`, bar charts, seaborn palettes, figure styling) is left out. A figure is its pivot table and legend.
- Number formatting (the fixed-width coordinates text, `f"{adjusted_dose:.4f}"`) and `float()`/`int()` parsing are parameters, because they are float I/O.
- `imodxf2emanjson.py` and `convert_rel4_rel5.py` are not part of this model. They are float numerics over foreign libraries.
- The grouping of points into per-doublet traces in the `englishORspanish.py` main loop (lines 173-199) and its result files are not part of this model. `calculate_fit` takes the traces as input.
- The construction of the mdoc path from the STAR file name is left out. The mdoc lines are passed in.
- `update_all_star_files` is left out: its glob over the STAR folder is I/O.
- PreExposureDose.RewriteLines: when a line raises ZeroDivisionError, the contract does not describe the working copy's contents, which are then discarded. `UpdateStarFile` rewrites a copy and states that the file is unchanged.
- BendAnalysis.KeepAtMost: its own contract states only the length bound. Membership, order and idempotence are the separate lemmas listed above.
- SVD non-convergence is not modelled: on a non-empty doublet the line fit of each segment is total (`BendAnalysis.Numerics`). Only the `LinAlgError` of an empty doublet is.
- The chi-square test is an abstract p-value. The model states when `chi2_contingency` raises (`Contingency.ChiSquareRaises`). An all-zero table, on which scipy returns NaN rather than raising, gets a real p-value from the parameter.
- Contingency.Statistics: the statistics file is appended to as class sets finish, so reports written before a raising class set stay in the file. The model keeps only the outcome: the reports on success, the first error on failure.

=== FILE: bend.dfy ===
/**
 * The bend analysis of englishORspanish.py. Each doublet's point trace is cut
 * into equal contiguous segments (the remainder is dropped), a direction is
 * fitted to each segment, the angle between consecutive directions is
 * measured, angles above `BendThreshold` (100 degrees, treated as junk) are
 * discarded, and a doublet is reported bent when a retained angle exceeds
 * `AngleThreshold` (6 degrees).
 */
module BendAnalysis {
  import opened Util

  datatype Point = Point(x: real, y: real, z: real)
  datatype Vec = Vec(x: real, y: real, z: real)

  /**
   * The floating-point numerics delegated to numpy, kept abstract: the SVD
   * line fit of a segment of a non-empty doublet (first right singular vector
   * of the mean-centred points), the cosine of two vectors (dot product over the product of the
   * norms) and arccos converted to degrees.
   */
  datatype Numerics = Numerics(
    fit: seq<Point> -> Vec,
    cosine: (Vec, Vec) -> real,
    arccosDegrees: real -> real)

  /** The settings fixed inside `calculate_fit`. */
  const AngleThreshold: real := 6.0
  const BendThreshold: real := 100.0
  const NumSegments: nat := 10

  lemma SegmentBounds(n: nat, k: nat, i: nat)
    requires 0 < k && i < k
    ensures 0 <= i * (n / k) <= (i + 1) * (n / k) <= k * (n / k) <= n
  {
    var q := n / k;
    assert 0 <= i * q;
    assert (i + 1) * q == i * q + q;
    assert 0 <= (k - (i + 1)) * q;
    assert k * q == (i + 1) * q + (k - (i + 1)) * q;
    assert k * q + n % k == n;
  }

  /** Segment `i`: the `i`-th run of `len(data) // numSegments` consecutive points. */
  function Segment(data: seq<Point>, numSegments: nat, i: nat): (s: seq<Point>)
    requires 0 < numSegments && i < numSegments
    ensures |s| == |data| / numSegments
  {
    var len := |data| / numSegments;
    SegmentBounds(|data|, numSegments, i);
    data[i * len .. (i + 1) * len]
  }

  function Concat(ss: seq<seq<Point>>): seq<Point>
  {
    if ss == [] then [] else Concat(ss[..|ss| - 1]) + ss[|ss| - 1]
  }

  lemma ConcatSnoc(ss: seq<seq<Point>>, s: seq<Point>)
    ensures Concat(ss + [s]) == Concat(ss) + s
  {
    assert (ss + [s])[..|ss|] == ss;
  }

  /** All `numSegments` segments, in order. */
  function Segments(data: seq<Point>, numSegments: nat): (segs: seq<seq<Point>>)
    requires 0 < numSegments
    ensures |segs| == numSegments
  {
    seq(numSegments, i requires 0 <= i < numSegments => Segment(data, numSegments, i))
  }

  /** The first `j` segments make up the first `j * (len // numSegments)` points. */
  lemma {:induction false} SegmentsPrefix(data: seq<Point>, numSegments: nat, j: nat)
    requires 0 < numSegments && j <= numSegments
    ensures j * (|data| / numSegments) <= |data|
    ensures Concat(Segments(data, numSegments)[..j]) == data[..j * (|data| / numSegments)]
  {
    var len := |data| / numSegments;
    if j == 0 {
      assert Segments(data, numSegments)[..0] == [];
    } else {
      var segs := Segments(data, numSegments);
      SegmentsPrefix(data, numSegments, j - 1);
      SegmentBounds(|data|, numSegments, j - 1);
      var lo := (j - 1) * len;
      assert j * len == lo + len;
      assert segs[j - 1] == data[lo..lo + len];
      assert segs[..j] == segs[..j - 1] + [segs[j - 1]];
      ConcatSnoc(segs[..j - 1], segs[j - 1]);
      assert data[..lo + len] == data[..lo] + data[lo..lo + len];
    }
  }

  /**
   * The segments are contiguous and non-overlapping and, in order, make up
   * exactly the first `numSegments * (len // numSegments)` points; the
   * `len % numSegments` trailing points belong to no segment.
   */
  lemma SegmentsCoverPrefix(data: seq<Point>, numSegments: nat)
    requires 0 < numSegments
    ensures Concat(Segments(data, numSegments)) == data[..numSegments * (|data| / numSegments)]
    ensures |data| - numSegments * (|data| / numSegments) == |data| % numSegments
  {
    var segs := Segments(data, numSegments);
    SegmentsPrefix(data, numSegments, numSegments);
    assert segs[..numSegments] == segs;
    TrailingPoints(|data|, numSegments);
  }

  lemma TrailingPoints(n: nat, k: nat)
    requires 0 < k
    ensures n - k * (n / k) == n % k
  {
  }

  /** The directions fitted to the first `j` segments, in segment order. */
  function DirectionsUpTo(data: seq<Point>, numSegments: nat, j: nat, num: Numerics): (dirs: seq<Vec>)
    requires 0 < numSegments && j <= numSegments
    ensures |dirs| == j
  {
    if j == 0 then [] else DirectionsUpTo(data, numSegments, j - 1, num) + [num.fit(Segment(data, numSegments, j - 1))]
  }

  /** One direction per segment, in segment order. */
  function Directions(data: seq<Point>, numSegments: nat, num: Numerics): seq<Vec>
    requires 0 < numSegments
  {
    DirectionsUpTo(data, numSegments, numSegments, num)
  }

  /** Direction `i` is the line fitted to segment `i`. */
  lemma {:induction false} DirectionsPointwise(data: seq<Point>, numSegments: nat, j: nat, num: Numerics)
    requires 0 < numSegments && j <= numSegments
    ensures forall i :: 0 <= i < j ==>
              DirectionsUpTo(data, numSegments, j, num)[i] == num.fit(Segments(data, numSegments)[i])
  {
    if j > 0 {
      DirectionsPointwise(data, numSegments, j - 1, num);
    }
  }

  /** The cosine handed to arccos, clipped into [-1, 1]. */
  function ClippedCosine(num: Numerics, v1: Vec, v2: Vec): (c: real)
    ensures -1.0 <= c <= 1.0
    ensures -1.0 <= num.cosine(v1, v2) <= 1.0 ==> c == num.cosine(v1, v2)
  {
    Clamp(num.cosine(v1, v2), -1.0, 1.0)
  }

  /** The angle in degrees between two consecutive directions. */
  function Angle(num: Numerics, v1: Vec, v2: Vec): real
  {
    num.arccosDegrees(ClippedCosine(num, v1, v2))
  }

  /** The angle of every consecutive pair of directions, in pair order. */
  function PairAngles(dirs: seq<Vec>, num: Numerics): (angles: seq<real>)
    ensures |angles| == if dirs == [] then 0 else |dirs| - 1
  {
    if |dirs| < 2 then []
    else PairAngles(dirs[..|dirs| - 1], num) + [Angle(num, dirs[|dirs| - 2], dirs[|dirs| - 1])]
  }

  /** Angle `i` is the angle between directions `i` and `i + 1`. */
  lemma {:induction false} PairAnglesPointwise(dirs: seq<Vec>, num: Numerics)
    ensures forall i :: 0 <= i < |PairAngles(dirs, num)| ==> PairAngles(dirs, num)[i] == Angle(num, dirs[i], dirs[i + 1])
  {
    if |dirs| >= 2 {
      var prefix := dirs[..|dirs| - 1];
      PairAnglesPointwise(prefix, num);
      assert forall i :: 0 <= i < |prefix| ==> prefix[i] == dirs[i];
    }
  }

  /** The junk filter: the angles at most `threshold`, in their original order. */
  function KeepAtMost(angles: seq<real>, threshold: real): (kept: seq<real>)
    ensures |kept| <= |angles|
  {
    if angles == [] then []
    else
      var prefix := angles[..|angles| - 1];
      var last := angles[|angles| - 1];
      KeepAtMost(prefix, threshold) + (if last <= threshold then [last] else [])
  }

  /** An angle survives the filter exactly when it occurs and is at most the threshold. */
  lemma {:induction false} KeepAtMostMembers(angles: seq<real>, threshold: real)
    ensures forall a :: a in KeepAtMost(angles, threshold) <==> a in angles && a <= threshold
    decreases |angles|
  {
    if angles != [] {
      var prefix := angles[..|angles| - 1];
      var last := angles[|angles| - 1];
      KeepAtMostMembers(prefix, threshold);
      assert angles == prefix + [last];
    }
  }

  /** Filtering distributes over concatenation, so survivors keep their relative order. */
  lemma {:induction false} KeepAtMostAppend(a: seq<real>, b: seq<real>, threshold: real)
    ensures KeepAtMost(a + b, threshold) == KeepAtMost(a, threshold) + KeepAtMost(b, threshold)
    decreases |b|
  {
    if b == [] {
      assert a + b == a;
    } else {
      var b' := b[..|b| - 1];
      assert (a + b)[..|a + b| - 1] == a + b';
      KeepAtMostAppend(a, b', threshold);
    }
  }

  /** A list already within the threshold passes the filter unchanged. */
  lemma {:induction false} KeepAtMostWithin(angles: seq<real>, threshold: real)
    requires forall i :: 0 <= i < |angles| ==> angles[i] <= threshold
    ensures KeepAtMost(angles, threshold) == angles
    decreases |angles|
  {
    if angles != [] {
      KeepAtMostWithin(angles[..|angles| - 1], threshold);
      assert angles == angles[..|angles| - 1] + [angles[|angles| - 1]];
    }
  }

  /** Re-running the filter on its own output changes nothing. */
  lemma KeepAtMostIdempotent(angles: seq<real>, threshold: real)
    ensures KeepAtMost(KeepAtMost(angles, threshold), threshold) == KeepAtMost(angles, threshold)
  {
    var kept := KeepAtMost(angles, threshold);
    KeepAtMostMembers(angles, threshold);
    assert forall i :: 0 <= i < |kept| ==> kept[i] in kept;
    KeepAtMostWithin(kept, threshold);
  }

  lemma PairAnglesExtend(dirs: seq<Vec>, i: nat, num: Numerics)
    requires i + 1 < |dirs|
    ensures PairAngles(dirs[..i + 2], num) == PairAngles(dirs[..i + 1], num) + [Angle(num, dirs[i], dirs[i + 1])]
  {
    assert dirs[..i + 2][..i + 1] == dirs[..i + 1];
  }

  lemma KeepAtMostSnoc(angles: seq<real>, a: real, threshold: real)
    ensures KeepAtMost(angles + [a], threshold) == KeepAtMost(angles, threshold) + (if a <= threshold then [a] else [])
  {
    assert (angles + [a])[..|angles|] == angles;
  }

  /** What `calculate_angles` returns: the consecutive-pair angles that pass the filter. */
  function RetainedAngles(data: seq<Point>, numSegments: nat, threshold: real, num: Numerics): (angles: seq<real>)
    requires 0 < numSegments
    ensures |angles| <= numSegments - 1
  {
    KeepAtMost(PairAngles(Directions(data, numSegments, num), num), threshold)
  }

  /**
   * The first loop of `calculate_angles`: one fitted direction per segment, in
   * segment order. A doublet with no points is the one-dimensional
   * `np.array([])`, and `np.linalg.svd` raises LinAlgError on its first
   * segment: the result is then `None`.
   */
  method FitDirections(data: seq<Point>, numSegments: nat, num: Numerics) returns (r: Option<seq<Vec>>)
    requires 0 < numSegments
    ensures r.None? <==> data == []
    ensures r.Some? ==> r.value == Directions(data, numSegments, num)
  {
    var segmentLength := |data| / numSegments;
    var directionVectors := [];
    for i := 0 to numSegments
      invariant data == [] ==> i == 0
      invariant directionVectors == DirectionsUpTo(data, numSegments, i, num)
    {
      SegmentBounds(|data|, numSegments, i);
      var segment := data[i * segmentLength .. (i + 1) * segmentLength];
      if data == [] {
        return None;
      }
      directionVectors := directionVectors + [num.fit(segment)];
    }
    return Some(directionVectors);
  }

  /**
   * The second loop of `calculate_angles`: the angle of each consecutive pair
   * of directions, keeping those at most `angleThreshold`.
   */
  method MeasurePairs(directionVectors: seq<Vec>, angleThreshold: real, num: Numerics) returns (angles: seq<real>)
    ensures angles == KeepAtMost(PairAngles(directionVectors, num), angleThreshold)
  {
    angles := [];
    if directionVectors == [] {
      // `range(len(direction_vectors) - 1)` is `range(-1)`, which is empty.
      return;
    }
    for i := 0 to |directionVectors| - 1
      invariant angles == KeepAtMost(PairAngles(directionVectors[..i + 1], num), angleThreshold)
    {
      var vec1 := directionVectors[i];
      var vec2 := directionVectors[i + 1];
      var angleDegrees := num.arccosDegrees(Clamp(num.cosine(vec1, vec2), -1.0, 1.0));
      assert angleDegrees == Angle(num, vec1, vec2);
      PairAnglesExtend(directionVectors, i, num);
      KeepAtMostSnoc(PairAngles(directionVectors[..i + 1], num), angleDegrees, angleThreshold);
      if angleDegrees <= angleThreshold {
        angles := angles + [angleDegrees];
      }
    }
    assert directionVectors[..|directionVectors|] == directionVectors;
  }

  /**
   * `calculate_angles`: fit one direction per segment, then measure each
   * consecutive pair and keep the angles at most `angleThreshold`.
   */
  method CalculateAngles(data: seq<Point>, numSegments: nat, angleThreshold: real, num: Numerics)
    returns (r: Option<seq<real>>)
    requires 0 < numSegments
    ensures r.None? <==> data == []
    ensures r.Some? ==> r.value == RetainedAngles(data, numSegments, angleThreshold, num)
  {
    var directionVectors := FitDirections(data, numSegments, num);
    if directionVectors.None? {
      return None;
    }
    var angles := MeasurePairs(directionVectors.value, angleThreshold, num);
    return Some(angles);
  }

  /** `np.abs(angles)`: the magnitude of each angle, in order. */
  function Magnitudes(angles: seq<real>): (m: seq<real>)
    ensures |m| == |angles|
    ensures forall i :: 0 <= i < |angles| ==> m[i] == Abs(angles[i])
  {
    if angles == [] then [] else Magnitudes(angles[..|angles| - 1]) + [Abs(angles[|angles| - 1])]
  }

  /** `np.sum(np.abs(angles))`: the bending amount of one doublet, accumulated angle by angle. */
  function BendingAmount(angles: seq<real>): (amount: real)
    ensures amount >= 0.0
  {
    if angles == [] then 0.0 else BendingAmount(angles[..|angles| - 1]) + Abs(angles[|angles| - 1])
  }

  /** The bending amount is the sum of the magnitudes of the angles. */
  lemma {:induction false} BendingAmountSums(angles: seq<real>)
    ensures BendingAmount(angles) == SumReal(Magnitudes(angles))
  {
    if angles != [] {
      var prefix := angles[..|angles| - 1];
      BendingAmountSums(prefix);
      assert Magnitudes(angles)[..|angles| - 1] == Magnitudes(prefix);
    }
  }

  /** No single angle bends a doublet more than its bending amount. */
  lemma BendingAmountBounds(angles: seq<real>)
    ensures forall i :: 0 <= i < |angles| ==> Abs(angles[i]) <= BendingAmount(angles)
  {
    BendingAmountSums(angles);
    forall i | 0 <= i < |angles| ensures Abs(angles[i]) <= BendingAmount(angles) {
      SumRealBoundsEntry(Magnitudes(angles), i);
    }
  }

  /**
   * The bending amount adds up over the angles: the angles of two runs bend
   * a doublet as much as the two runs together.
   */
  lemma {:induction false} BendingAmountAdds(a: seq<real>, b: seq<real>)
    ensures BendingAmount(a + b) == BendingAmount(a) + BendingAmount(b)
    decreases |b|
  {
    if b == [] {
      assert a + b == a;
    } else {
      var b' := b[..|b| - 1];
      assert (a + b)[..|a + b| - 1] == a + b';
      BendingAmountAdds(a, b');
    }
  }

  /** `any(angle > angle_threshold for angle in angles)`. */
  predicate IsBent(angles: seq<real>)
  {
    angles != [] && (IsBent(angles[..|angles| - 1]) || angles[|angles| - 1] > AngleThreshold)
  }

  /** A doublet is bent exactly when one of its angles exceeds the threshold. */
  lemma {:induction false} IsBentMeans(angles: seq<real>)
    ensures IsBent(angles) <==> exists i :: 0 <= i < |angles| && angles[i] > AngleThreshold
  {
    if angles != [] {
      var prefix := angles[..|angles| - 1];
      IsBentMeans(prefix);
      assert forall i :: 0 <= i < |prefix| ==> prefix[i] == angles[i];
    }
  }

  /** The 1-based indices of the bent doublets, collected in doublet order. */
  function BentIndices(allAngles: seq<seq<real>>): seq<nat>
  {
    if allAngles == [] then []
    else
      var n := |allAngles|;
      BentIndices(allAngles[..n - 1]) + (if IsBent(allAngles[n - 1]) then [n] else [])
  }

  /** The bent list holds exactly the 1-based indices of the bent doublets, ascending. */
  lemma {:induction false} BentIndicesExact(allAngles: seq<seq<real>>)
    ensures forall i :: 0 <= i < |BentIndices(allAngles)| ==> 1 <= BentIndices(allAngles)[i] <= |allAngles|
    ensures forall i, j :: 0 <= i < j < |BentIndices(allAngles)| ==> BentIndices(allAngles)[i] < BentIndices(allAngles)[j]
    ensures forall k :: k in BentIndices(allAngles) <==> 1 <= k <= |allAngles| && IsBent(allAngles[k - 1])
  {
    if allAngles != [] {
      var n := |allAngles|;
      var prefix := allAngles[..n - 1];
      var previous := BentIndices(prefix);
      var last := if IsBent(allAngles[n - 1]) then [n] else [];
      assert BentIndices(allAngles) == previous + last;
      BentIndicesExact(prefix);
      forall k
        ensures k in previous + last <==> 1 <= k <= n && IsBent(allAngles[k - 1])
      {
        if 1 <= k < n {
          assert prefix[k - 1] == allAngles[k - 1];
        }
      }
    }
  }

  datatype Verdict = AllStraight | LikelyBent(doublets: seq<nat>)

  /** The closing sentence: all straight exactly when no doublet is bent. */
  function VerdictOf(bentLists: seq<nat>): (v: Verdict)
    ensures v == AllStraight <==> bentLists == []
    ensures v.LikelyBent? ==> v.doublets == bentLists
  {
    if bentLists != [] then LikelyBent(bentLists) else AllStraight
  }

  function MaxOf(s: seq<real>): (m: real)
    requires s != []
    ensures m in s && forall i :: 0 <= i < |s| ==> s[i] <= m
  {
    if |s| == 1 then s[0]
    else
      var m := MaxOf(s[1..]);
      if s[0] >= m then s[0] else m
  }

  function MinOf(s: seq<real>): (m: real)
    requires s != []
    ensures m in s && forall i :: 0 <= i < |s| ==> m <= s[i]
  {
    if |s| == 1 then s[0]
    else
      var m := MinOf(s[1..]);
      if s[0] <= m then s[0] else m
  }

  /** `np.max(doublet) - np.min(doublet)`: the spread of one doublet's retained angles. */
  function AngleRange(angles: seq<real>): (spread: real)
    requires angles != []
  {
    MaxOf(angles) - MinOf(angles)
  }

  /** The spread is never negative and bounds the difference of any two retained angles. */
  lemma AngleRangeBounds(angles: seq<real>, i: nat, j: nat)
    requires i < |angles| && j < |angles|
    ensures 0.0 <= AngleRange(angles)
    ensures angles[i] - angles[j] <= AngleRange(angles)
  {
  }

  datatype FitReport = FitReport(
    allAngles: seq<seq<real>>,
    bendingAmounts: seq<real>,
    bentLists: seq<nat>,
    angleDifferences: seq<real>,
    verdict: Verdict)

  /** What makes `calculate_fit` raise: `np.max` of no doublets, or `np.min` of a doublet with no retained angle. */
  datatype FitError = NoDoublets | NoRetainedAngles(doublet: nat) | EmptyDoublet(doublet: nat)

  /** The retained angles of one doublet under `calculate_fit`'s settings. */
  function DoubletAngles(data: seq<Point>, num: Numerics): seq<real>
  {
    RetainedAngles(data, NumSegments, BendThreshold, num)
  }

  /** The retained angles of every doublet, in doublet order. */
  function AllDoubletAngles(dataLists: seq<seq<Point>>, num: Numerics): (all: seq<seq<real>>)
    ensures |all| == |dataLists|
  {
    if dataLists == [] then []
    else AllDoubletAngles(dataLists[..|dataLists| - 1], num) + [DoubletAngles(dataLists[|dataLists| - 1], num)]
  }

  /** Entry `i` is the retained angles of doublet `i`. */
  lemma {:induction false} AllDoubletAnglesPointwise(dataLists: seq<seq<Point>>, num: Numerics)
    ensures forall i :: 0 <= i < |dataLists| ==> AllDoubletAngles(dataLists, num)[i] == DoubletAngles(dataLists[i], num)
  {
    if dataLists != [] {
      var prefix := dataLists[..|dataLists| - 1];
      AllDoubletAnglesPointwise(prefix, num);
      assert forall i :: 0 <= i < |prefix| ==> prefix[i] == dataLists[i];
    }
  }

  /** Measuring one more doublet appends its retained angles. */
  lemma AllDoubletAnglesStep(dataLists: seq<seq<Point>>, index: nat, num: Numerics)
    requires index < |dataLists|
    ensures AllDoubletAngles(dataLists[..index + 1], num) ==
              AllDoubletAngles(dataLists[..index], num) + [DoubletAngles(dataLists[index], num)]
  {
    assert dataLists[..index + 1][..index] == dataLists[..index];
  }

  /** The report's per-doublet columns agree with the retained angles they summarise. */
  ghost predicate SummarisesAngles(report: FitReport)
  {
    && |report.bendingAmounts| == |report.angleDifferences| == |report.allAngles|
    && (forall i :: 0 <= i < |report.allAngles| ==>
          && report.allAngles[i] != []
          && report.bendingAmounts[i] == BendingAmount(report.allAngles[i])
          && report.angleDifferences[i] == AngleRange(report.allAngles[i]))
    && report.bentLists == BentIndices(report.allAngles)
    && report.verdict == VerdictOf(report.bentLists)
  }

  /**
   * The spread of each doublet's retained angles, in doublet order; `np.min`
   * raises on the first doublet that kept no angle (reported 0-based here).
   */
  method AngleDifferences(allAngles: seq<seq<real>>) returns (r: Result<seq<real>, nat>)
    ensures r.Success? <==> forall i :: 0 <= i < |allAngles| ==> allAngles[i] != []
    ensures r.Failure? ==>
              && r.error < |allAngles| && allAngles[r.error] == []
              && forall j :: 0 <= j < r.error ==> allAngles[j] != []
    ensures r.Success? ==>
              && |r.value| == |allAngles|
              && forall i :: 0 <= i < |allAngles| ==> allAngles[i] != [] && r.value[i] == AngleRange(allAngles[i])
  {
    var angleDifferences: seq<real> := [];
    for index := 0 to |allAngles|
      invariant |angleDifferences| == index
      invariant forall i :: 0 <= i < index ==> allAngles[i] != [] && angleDifferences[i] == AngleRange(allAngles[i])
    {
      if allAngles[index] == [] {
        return Failure(index);
      }
      angleDifferences := angleDifferences + [AngleRange(allAngles[index])];
    }
    return Success(angleDifferences);
  }

  /** The bending amount of each doublet, in doublet order. */
  function Amounts(allAngles: seq<seq<real>>): seq<real>
  {
    if allAngles == [] then []
    else Amounts(allAngles[..|allAngles| - 1]) + [BendingAmount(allAngles[|allAngles| - 1])]
  }

  /** One bending amount per doublet, each the amount of that doublet's angles. */
  lemma {:induction false} AmountsPointwise(allAngles: seq<seq<real>>)
    ensures |Amounts(allAngles)| == |allAngles|
    ensures forall i :: 0 <= i < |allAngles| ==> Amounts(allAngles)[i] == BendingAmount(allAngles[i])
  {
    if allAngles != [] {
      var prefix := allAngles[..|allAngles| - 1];
      AmountsPointwise(prefix);
      assert forall i :: 0 <= i < |prefix| ==> prefix[i] == allAngles[i];
    }
  }

  /** Measuring one more doublet extends the amounts and, when it is bent, the bent list. */
  lemma MeasureStep(previous: seq<seq<real>>, angles: seq<real>)
    ensures Amounts(previous + [angles]) == Amounts(previous) + [BendingAmount(angles)]
    ensures BentIndices(previous + [angles]) ==
              BentIndices(previous) + (if IsBent(angles) then [|previous| + 1] else [])
  {
    assert (previous + [angles])[..|previous|] == previous;
  }

  /** Measuring doublet `index` keeps the loop's three columns in step with the doublets measured so far. */
  lemma MeasureAdvances(dataLists: seq<seq<Point>>, index: nat, num: Numerics, allAngles: seq<seq<real>>, angles: seq<real>)
    requires index < |dataLists| && allAngles == AllDoubletAngles(dataLists[..index], num)
    requires angles == DoubletAngles(dataLists[index], num)
    ensures allAngles + [angles] == AllDoubletAngles(dataLists[..index + 1], num)
    ensures Amounts(allAngles + [angles]) == Amounts(allAngles) + [BendingAmount(angles)]
    ensures BentIndices(allAngles + [angles]) == BentIndices(allAngles) + (if IsBent(angles) then [index + 1] else [])
  {
    AllDoubletAnglesStep(dataLists, index, num);
    MeasureStep(allAngles, angles);
  }

  /**
   * The first loop of `calculate_fit`: each doublet's retained angles, its
   * bending amount, and the 1-based indices of the bent doublets.
   */
  method MeasureDoublets(dataLists: seq<seq<Point>>, num: Numerics)
    returns (allAngles: seq<seq<real>>, bendingAmounts: seq<real>, bentLists: seq<nat>, emptyAt: Option<nat>)
    ensures emptyAt.None? <==> forall i :: 0 <= i < |dataLists| ==> dataLists[i] != []
    ensures emptyAt.Some? ==>
              && emptyAt.value < |dataLists| && dataLists[emptyAt.value] == []
              && forall j :: 0 <= j < emptyAt.value ==> dataLists[j] != []
    ensures emptyAt.None? ==>
              && allAngles == AllDoubletAngles(dataLists, num)
              && |bendingAmounts| == |dataLists|
              && (forall i :: 0 <= i < |dataLists| ==> bendingAmounts[i] == BendingAmount(allAngles[i]))
              && bentLists == BentIndices(allAngles)
  {
    allAngles, bendingAmounts, bentLists, emptyAt := [], [], [], None;
    for index := 0 to |dataLists|
      invariant emptyAt.None? && forall j :: 0 <= j < index ==> dataLists[j] != []
      invariant allAngles == AllDoubletAngles(dataLists[..index], num)
      invariant bendingAmounts == Amounts(allAngles)
      invariant bentLists == BentIndices(allAngles)
    {
      var measured := CalculateAngles(dataLists[index], NumSegments, BendThreshold, num);
      if measured.None? {
        // The LinAlgError of an empty doublet escapes `calculate_fit`.
        assert dataLists[index] == [];
        emptyAt := Some(index);
        return;
      }
      var angles := measured.value;
      assert dataLists[index] != [] && angles == DoubletAngles(dataLists[index], num);
      MeasureAdvances(dataLists, index, num, allAngles, angles);
      allAngles := allAngles + [angles];
      bendingAmounts := bendingAmounts + [BendingAmount(angles)];
      if IsBent(angles) {
        bentLists := bentLists + [index + 1];
      }
    }
    MeasuredAll(dataLists, num, allAngles, bendingAmounts);
  }

  /** Once every doublet is measured, the loop's columns are the whole input's. */
  lemma MeasuredAll(dataLists: seq<seq<Point>>, num: Numerics, allAngles: seq<seq<real>>, bendingAmounts: seq<real>)
    requires allAngles == AllDoubletAngles(dataLists[..|dataLists|], num)
    requires bendingAmounts == Amounts(allAngles)
    ensures allAngles == AllDoubletAngles(dataLists, num)
    ensures |bendingAmounts| == |dataLists|
    ensures forall i :: 0 <= i < |dataLists| ==> bendingAmounts[i] == BendingAmount(allAngles[i])
  {
    assert dataLists[..|dataLists|] == dataLists;
    AmountsPointwise(allAngles);
  }

  /** A report assembled from consistent per-doublet columns summarises its angles. */
  lemma AssembledReportSummarises(allAngles: seq<seq<real>>, bendingAmounts: seq<real>, bentLists: seq<nat>,
                                  differences: seq<real>)
    requires |bendingAmounts| == |differences| == |allAngles|
    requires forall i :: 0 <= i < |allAngles| ==> bendingAmounts[i] == BendingAmount(allAngles[i])
    requires forall i :: 0 <= i < |allAngles| ==> allAngles[i] != [] && differences[i] == AngleRange(allAngles[i])
    requires bentLists == BentIndices(allAngles)
    ensures SummarisesAngles(FitReport(allAngles, bendingAmounts, bentLists, differences, VerdictOf(bentLists)))
  {
  }

  /**
   * The second half of `calculate_fit`, on the measured lists: the spread of
   * each doublet's angles, then the report with its verdict.
   */
  method Report(allAngles: seq<seq<real>>, bendingAmounts: seq<real>, bentLists: seq<nat>)
    returns (r: Result<FitReport, FitError>)
    requires |bendingAmounts| == |allAngles|
    requires forall i :: 0 <= i < |allAngles| ==> bendingAmounts[i] == BendingAmount(allAngles[i])
    requires bentLists == BentIndices(allAngles)
    ensures r.Success? <==> |allAngles| > 0 && forall i :: 0 <= i < |allAngles| ==> allAngles[i] != []
    ensures r == Failure(NoDoublets) <==> |allAngles| == 0
    ensures r.Failure? ==> !r.error.EmptyDoublet?
    ensures r.Failure? && r.error.NoRetainedAngles? ==>
              && 1 <= r.error.doublet <= |allAngles|
              && allAngles[r.error.doublet - 1] == []
              && forall j :: 0 <= j < r.error.doublet - 1 ==> allAngles[j] != []
    ensures r.Success? ==> r.value.allAngles == allAngles && SummarisesAngles(r.value)
  {
    if |allAngles| == 0 {
      return Failure(NoDoublets);
    }
    var differences := AngleDifferences(allAngles);
    if differences.Failure? {
      return Failure(NoRetainedAngles(differences.error + 1));
    }
    AssembledReportSummarises(allAngles, bendingAmounts, bentLists, differences.value);
    r := Success(FitReport(allAngles, bendingAmounts, bentLists, differences.value, VerdictOf(bentLists)));
  }

  /**
   * `calculate_fit`: per doublet, the retained angles, the bending amount and
   * the bent test; then the spread of each doublet's angles and the verdict.
   */
  method CalculateFit(dataLists: seq<seq<Point>>, num: Numerics) returns (r: Result<FitReport, FitError>)
    ensures r.Success? <==>
              && |dataLists| > 0
              && forall i :: 0 <= i < |dataLists| ==> dataLists[i] != [] && DoubletAngles(dataLists[i], num) != []
    ensures r == Failure(NoDoublets) <==> |dataLists| == 0
    ensures r.Failure? && r.error.EmptyDoublet? <==> exists i :: 0 <= i < |dataLists| && dataLists[i] == []
    ensures r.Failure? && r.error.EmptyDoublet? ==>
              && 1 <= r.error.doublet <= |dataLists|
              && dataLists[r.error.doublet - 1] == []
              && forall j :: 0 <= j < r.error.doublet - 1 ==> dataLists[j] != []
    ensures r.Failure? && r.error.NoRetainedAngles? ==>
              && 1 <= r.error.doublet <= |dataLists|
              && (forall i :: 0 <= i < |dataLists| ==> dataLists[i] != [])
              && DoubletAngles(dataLists[r.error.doublet - 1], num) == []
              && forall j :: 0 <= j < r.error.doublet - 1 ==> DoubletAngles(dataLists[j], num) != []
    ensures r.Success? ==> r.value.allAngles == AllDoubletAngles(dataLists, num) && SummarisesAngles(r.value)
  {
    var allAngles, bendingAmounts, bentLists, emptyAt := MeasureDoublets(dataLists, num);
    if emptyAt.Some? {
      assert dataLists[emptyAt.value] == [];
      return Failure(EmptyDoublet(emptyAt.value + 1));
    }
    r := Report(allAngles, bendingAmounts, bentLists);
    SuccessOnDoublets(dataLists, num, r);
    UnretainedOnDoublets(dataLists, num, r);
  }

  /** Report's success condition, read on the doublets rather than on their angle lists. */
  lemma SuccessOnDoublets(dataLists: seq<seq<Point>>, num: Numerics, r: Result<FitReport, FitError>)
    requires forall i :: 0 <= i < |dataLists| ==> dataLists[i] != []
    requires var allAngles := AllDoubletAngles(dataLists, num);
             r.Success? <==> |allAngles| > 0 && forall i :: 0 <= i < |allAngles| ==> allAngles[i] != []
    ensures r.Success? <==>
              && |dataLists| > 0
              && forall i :: 0 <= i < |dataLists| ==> dataLists[i] != [] && DoubletAngles(dataLists[i], num) != []
  {
    AllDoubletAnglesPointwise(dataLists, num);
  }

  /** Report's first doublet without angles, read on the doublets rather than on their angle lists. */
  lemma UnretainedOnDoublets(dataLists: seq<seq<Point>>, num: Numerics, r: Result<FitReport, FitError>)
    requires var allAngles := AllDoubletAngles(dataLists, num);
             r.Failure? && r.error.NoRetainedAngles? ==>
               && 1 <= r.error.doublet <= |allAngles|
               && allAngles[r.error.doublet - 1] == []
               && forall j :: 0 <= j < r.error.doublet - 1 ==> allAngles[j] != []
    ensures r.Failure? && r.error.NoRetainedAngles? ==>
              && DoubletAngles(dataLists[r.error.doublet - 1], num) == []
              && forall j :: 0 <= j < r.error.doublet - 1 ==> DoubletAngles(dataLists[j], num) != []
  {
    AllDoubletAnglesPointwise(dataLists, num);
  }
}

=== FILE: contingency.dfy ===
/**
 * `calculate_stats.py`: for every tomogram folder and every dynein class set,
 * count the points of that class set in the doublet groups 1-4, 5 and 6-9,
 * take each group's total from the count table, and build the 3x2 omnibus
 * table and the three 2x2 pairwise tables handed to the chi-square test.
 * A pairwise test is significant when its p-value is below the
 * Bonferroni-corrected level 0.05 / 3.
 */
module Contingency {
  import opened Util
  import Tally
  import Doublet

  /** One row of `<folder>_bin4_points.csv`; the doublet is NaN (None) where the assignment was undefined. */
  datatype PointRow = PointRow(doublet: Option<int>, cls: int)

  /** One row of `<folder>_count.csv`. */
  datatype CountRow = CountRow(doublet: int, count: int)

  /** The three doublet groups, in table-row order. */
  datatype Group = OneToFour | Five | SixToNine

  const Groups: seq<Group> := [OneToFour, Five, SixToNine]

  function Members(g: Group): set<int>
  {
    match g
    case OneToFour => {1, 2, 3, 4}
    case Five => {5}
    case SixToNine => {6, 7, 8, 9}
  }

  /** `Series.isin(G)`: NaN is never a member. */
  predicate InGroup(d: Option<int>, g: Group)
  {
    d.Some? && d.value in Members(g)
  }

  /** The groups are disjoint and together hold exactly the doublets 1..9. */
  lemma GroupsPartitionRing(d: int)
    ensures (1 <= d <= 9) <==> (d in Members(OneToFour) || d in Members(Five) || d in Members(SixToNine))
    ensures !(d in Members(OneToFour) && d in Members(Five))
    ensures !(d in Members(OneToFour) && d in Members(SixToNine))
    ensures !(d in Members(Five) && d in Members(SixToNine))
  {
  }

  /** A class set is never empty: its first class labels its report. */
  type ClassSet = classes: seq<int> | classes != [] witness [1]

  /** The class sets, in evaluation order; classes 2 and 4 are pooled. */
  const ClassSets: seq<ClassSet> := [[1], [2, 4], [3]]

  /** `df[df['Doublet'].isin(G)]`. */
  function RowsInGroup(rows: seq<PointRow>, g: Group): (sel: seq<PointRow>)
    ensures |sel| <= |rows|
    ensures forall r :: r in sel <==> r in rows && InGroup(r.doublet, g)
  {
    if rows == [] then []
    else
      var rest := RowsInGroup(rows[1..], g);
      assert forall r :: r in rows <==> r == rows[0] || r in rows[1..];
      if InGroup(rows[0].doublet, g) then [rows[0]] + rest else rest
  }

  /** `doublets[doublets['class'].isin(S)]`. */
  function RowsOfClass(rows: seq<PointRow>, classes: seq<int>): (sel: seq<PointRow>)
    ensures |sel| <= |rows|
    ensures forall r :: r in sel <==> r in rows && r.cls in classes
  {
    if rows == [] then []
    else
      var rest := RowsOfClass(rows[1..], classes);
      assert forall r :: r in rows <==> r == rows[0] || r in rows[1..];
      if rows[0].cls in classes then [rows[0]] + rest else rest
  }

  /** `count_class2_<group>`: the group's rows, then those of the class set, counted with `.shape[0]`. */
  function GroupCount(rows: seq<PointRow>, g: Group, classes: seq<int>): (n: nat)
    ensures n <= |RowsInGroup(rows, g)|
  {
    |RowsOfClass(RowsInGroup(rows, g), classes)|
  }

  /** Independent one-pass count of the rows in group `g` whose class is in the set. */
  function CountMatching(rows: seq<PointRow>, g: Group, classes: seq<int>): nat
  {
    if rows == [] then 0
    else (if InGroup(rows[0].doublet, g) && rows[0].cls in classes then 1 else 0) + CountMatching(rows[1..], g, classes)
  }

  /** Rows whose doublet lies on the ring 1..9 and whose class is in the set. */
  function CountOnRing(rows: seq<PointRow>, classes: seq<int>): nat
  {
    if rows == [] then 0
    else
      var d := rows[0].doublet;
      (if d.Some? && 1 <= d.value <= 9 && rows[0].cls in classes then 1 else 0) + CountOnRing(rows[1..], classes)
  }

  /** The two-stage filter counts exactly the rows with doublet in the group and class in the set. */
  lemma {:induction false} GroupCountIsMatching(rows: seq<PointRow>, g: Group, classes: seq<int>)
    ensures GroupCount(rows, g, classes) == CountMatching(rows, g, classes)
  {
    if rows != [] {
      GroupCountIsMatching(rows[1..], g, classes);
      var rest := RowsInGroup(rows[1..], g);
      if InGroup(rows[0].doublet, g) {
        assert RowsInGroup(rows, g) == [rows[0]] + rest;
        assert ([rows[0]] + rest)[1..] == rest;
      }
    }
  }

  /** The three group counts add up to the class set's points on doublets 1..9. */
  lemma {:induction false} GroupCountsPartition(rows: seq<PointRow>, classes: seq<int>)
    ensures GroupCount(rows, OneToFour, classes) + GroupCount(rows, Five, classes) + GroupCount(rows, SixToNine, classes)
            == CountOnRing(rows, classes)
  {
    GroupCountIsMatching(rows, OneToFour, classes);
    GroupCountIsMatching(rows, Five, classes);
    GroupCountIsMatching(rows, SixToNine, classes);
    MatchingPartition(rows, classes);
  }

  lemma {:induction false} MatchingPartition(rows: seq<PointRow>, classes: seq<int>)
    ensures CountMatching(rows, OneToFour, classes) + CountMatching(rows, Five, classes) + CountMatching(rows, SixToNine, classes)
            == CountOnRing(rows, classes)
  {
    if rows != [] {
      MatchingPartition(rows[1..], classes);
      if rows[0].doublet.Some? {
        GroupsPartitionRing(rows[0].doublet.value);
      }
    }
  }

  /** `df_count[df_count['Doublet'].isin(G)]`. */
  function CountsInGroup(counts: seq<CountRow>, g: Group): (sel: seq<CountRow>)
    ensures forall r :: r in sel <==> r in counts && r.doublet in Members(g)
  {
    if counts == [] then []
    else
      var rest := CountsInGroup(counts[1..], g);
      assert forall r :: r in counts <==> r == counts[0] || r in counts[1..];
      if counts[0].doublet in Members(g) then [counts[0]] + rest else rest
  }

  /** `['Count'].sum()`. */
  function SumCounts(counts: seq<CountRow>): int
  {
    if counts == [] then 0 else counts[0].count + SumCounts(counts[1..])
  }

  /** `total_<group>`. */
  function GroupTotal(counts: seq<CountRow>, g: Group): int
  {
    SumCounts(CountsInGroup(counts, g))
  }

  /** Independent definition of the total: the Count column summed over rows whose doublet is in the group. */
  function TotalMatching(counts: seq<CountRow>, g: Group): int
  {
    if counts == [] then 0
    else (if counts[0].doublet in Members(g) then counts[0].count else 0) + TotalMatching(counts[1..], g)
  }

  lemma {:induction false} GroupTotalIsMatching(counts: seq<CountRow>, g: Group)
    ensures GroupTotal(counts, g) == TotalMatching(counts, g)
  {
    if counts != [] {
      GroupTotalIsMatching(counts[1..], g);
      var rest := CountsInGroup(counts[1..], g);
      if counts[0].doublet in Members(g) {
        assert ([counts[0]] + rest)[1..] == rest;
      }
    }
  }

  /**
   * The count table `calculate_counts` writes for a points file: one row per
   * distinct (non-NaN) doublet, ascending, with its number of points.
   */
  function CountTable(rows: seq<PointRow>): (counts: seq<CountRow>)
    ensures |counts| == |Doublet.CalculateCounts(DoubletValues(rows))|
  {
    var vc := Doublet.CalculateCounts(DoubletValues(rows));
    seq(|vc|, i requires 0 <= i < |vc| => CountRow(vc[i].value, vc[i].count as int))
  }

  /** The values of the rows' Doublet column, in row order. */
  function DoubletValues(rows: seq<PointRow>): (col: seq<Option<int>>)
    ensures |col| == |rows|
    ensures forall i :: 0 <= i < |rows| ==> col[i] == rows[i].doublet
  {
    seq(|rows|, i requires 0 <= i < |rows| => rows[i].doublet)
  }

  /** How many of the integers lie in the group. */
  function CountIn(xs: seq<int>, g: Group): nat
  {
    if xs == [] then 0 else (if xs[0] in Members(g) then 1 else 0) + CountIn(xs[1..], g)
  }

  lemma {:induction false} CountInOfDefined(rows: seq<PointRow>, g: Group)
    ensures CountIn(Doublet.Defined(DoubletValues(rows)), g) == |RowsInGroup(rows, g)|
  {
    if rows != [] {
      CountInOfDefined(rows[1..], g);
      var col := DoubletValues(rows);
      assert col[1..] == DoubletValues(rows[1..]);
      var rest := Doublet.Defined(col[1..]);
      if col[0].Some? {
        assert ([col[0].value] + rest)[1..] == rest;
      }
    }
  }

  /** Taking out every copy of `m` removes exactly its occurrences from the group count. */
  lemma {:induction false} CountInWithout(xs: seq<int>, m: int, g: Group)
    ensures CountIn(xs, g) == (if m in Members(g) then Tally.Occurrences(xs, m) else 0) + CountIn(Tally.Without(xs, m), g)
  {
    if xs != [] {
      CountInWithout(xs[1..], m, g);
      if xs[0] != m {
        var rest := Tally.Without(xs[1..], m);
        assert ([xs[0]] + rest)[1..] == rest;
      }
    }
  }

  function RowsOfCounts(vc: seq<Tally.ValueCount>): seq<CountRow>
  {
    seq(|vc|, i requires 0 <= i < |vc| => CountRow(vc[i].value, vc[i].count as int))
  }

  lemma RowsOfCountsCons(v: Tally.ValueCount, rest: seq<Tally.ValueCount>, g: Group)
    ensures TotalMatching(RowsOfCounts([v] + rest), g)
            == (if v.value in Members(g) then v.count else 0) + TotalMatching(RowsOfCounts(rest), g)
  {
    assert RowsOfCounts([v] + rest)[1..] == RowsOfCounts(rest);
  }

  lemma {:induction false} TotalOfValueCounts(xs: seq<int>, g: Group)
    ensures TotalMatching(RowsOfCounts(Tally.ValueCounts(xs)), g) == CountIn(xs, g)
    decreases |xs|
  {
    if xs != [] {
      var m := Tally.Minimum(xs);
      var ys := Tally.Without(xs, m);
      var head := Tally.ValueCount(m, Tally.Occurrences(xs, m));
      assert Tally.ValueCounts(xs) == [head] + Tally.ValueCounts(ys);
      TotalOfValueCounts(ys, g);
      CountInWithout(xs, m, g);
      RowsOfCountsCons(head, Tally.ValueCounts(ys), g);
    }
  }

  /**
   * With the count table `calculate_counts` writes for the same points file,
   * each group total is the number of points in the group, so no entry
   * `total - count` of the tables is negative.
   */
  lemma GroupTotalOfCountTable(rows: seq<PointRow>, g: Group, classes: seq<int>)
    ensures GroupTotal(CountTable(rows), g) == |RowsInGroup(rows, g)|
    ensures 0 <= GroupCount(rows, g, classes) <= GroupTotal(CountTable(rows), g)
  {
    var xs := Doublet.Defined(DoubletValues(rows));
    assert CountTable(rows) == RowsOfCounts(Tally.ValueCounts(xs));
    GroupTotalIsMatching(CountTable(rows), g);
    TotalOfValueCounts(xs, g);
    CountInOfDefined(rows, g);
  }

  /** One table row: `[count, total - count]`. */
  function TableRow(count: int, total: int): (row: seq<int>)
    ensures |row| == 2 && row[0] == count && row[0] + row[1] == total
  {
    [count, total - count]
  }

  /** The per-group counts and totals of one class set, in the order 1-4, 5, 6-9. */
  datatype GroupFigures = GroupFigures(counts: seq<int>, totals: seq<int>)

  function Figures(rows: seq<PointRow>, counts: seq<CountRow>, classes: seq<int>): (f: GroupFigures)
    ensures |f.counts| == |f.totals| == 3
    ensures forall k :: 0 <= k < 3 ==> f.counts[k] == CountMatching(rows, Groups[k], classes)
    ensures forall k :: 0 <= k < 3 ==> f.totals[k] == TotalMatching(counts, Groups[k])
  {
    GroupCountIsMatching(rows, OneToFour, classes);
    GroupCountIsMatching(rows, Five, classes);
    GroupCountIsMatching(rows, SixToNine, classes);
    GroupTotalIsMatching(counts, OneToFour);
    GroupTotalIsMatching(counts, Five);
    GroupTotalIsMatching(counts, SixToNine);
    GroupFigures(
      [GroupCount(rows, OneToFour, classes), GroupCount(rows, Five, classes), GroupCount(rows, SixToNine, classes)],
      [GroupTotal(counts, OneToFour), GroupTotal(counts, Five), GroupTotal(counts, SixToNine)])
  }

  /** `data`: the omnibus table, one row per group in the order 1-4, 5, 6-9. */
  function Omnibus(f: GroupFigures): (table: seq<seq<int>>)
    requires |f.counts| == |f.totals| == 3
    ensures |table| == 3
    ensures forall k :: 0 <= k < 3 ==> |table[k]| == 2 && table[k][0] == f.counts[k] && table[k][0] + table[k][1] == f.totals[k]
  {
    [TableRow(f.counts[0], f.totals[0]), TableRow(f.counts[1], f.totals[1]), TableRow(f.counts[2], f.totals[2])]
  }

  /** `data_1_4_vs_5`, `data_1_4_vs_6_9` and `data_5_vs_6_9`, each written out from the figures. */
  function Pairwise(f: GroupFigures): (tables: seq<seq<seq<int>>>)
    requires |f.counts| == |f.totals| == 3
    ensures |tables| == 3
    ensures tables[0] == [Omnibus(f)[0], Omnibus(f)[1]]
    ensures tables[1] == [Omnibus(f)[0], Omnibus(f)[2]]
    ensures tables[2] == [Omnibus(f)[1], Omnibus(f)[2]]
  {
    var c14, c5, c69 := f.counts[0], f.counts[1], f.counts[2];
    var t14, t5, t69 := f.totals[0], f.totals[1], f.totals[2];
    [ [[c14, t14 - c14], [c5, t5 - c5]],
      [[c14, t14 - c14], [c69, t69 - c69]],
      [[c5, t5 - c5], [c69, t69 - c69]] ]
  }

  const Alpha: real := 0.05

  const BonferroniAlpha: real := Alpha / 3.0

  /** `p < bonferroni_alpha`: a strict comparison. */
  function Significant(p: real): (significant: bool)
    ensures significant <==> 3.0 * p < 0.05
    ensures p == 0.05 / 3.0 ==> !significant
  {
    p < BonferroniAlpha
  }

  /** Sum of the entries of one table row. */
  function RowTotal(row: seq<int>): int
  {
    if row == [] then 0 else RowTotal(row[..|row| - 1]) + row[|row| - 1]
  }

  /** Sum of column `j` of a table whose rows all have a column `j`. */
  function ColumnTotal(table: seq<seq<int>>, j: nat): int
    requires forall i :: 0 <= i < |table| ==> j < |table[i]|
  {
    if table == [] then 0 else ColumnTotal(table[..|table| - 1], j) + table[|table| - 1][j]
  }

  /** Sum of every entry of the table. */
  function TableTotal(table: seq<seq<int>>): int
  {
    if table == [] then 0 else TableTotal(table[..|table| - 1]) + RowTotal(table[|table| - 1])
  }

  /**
   * When `chi2_contingency` raises ValueError on a table with two columns:
   * some entry is negative, or some expected frequency (row total times
   * column total over the grand total) is zero, that is, a row or a column
   * sums to zero while the table does not. An all-zero table does not raise:
   * its expected frequencies are 0/0.
   */
  predicate ChiSquareRaises(table: seq<seq<int>>)
    requires forall i :: 0 <= i < |table| ==> |table[i]| == 2
  {
    || HasNegative(table)
    || (TableTotal(table) != 0 && (HasZeroRow(table) || ColumnTotal(table, 0) == 0 || ColumnTotal(table, 1) == 0))
  }

  /** `np.any(observed < 0)`, row by row. */
  predicate HasNegative(table: seq<seq<int>>)
    requires forall i :: 0 <= i < |table| ==> |table[i]| == 2
  {
    table != [] && (HasNegative(table[..|table| - 1]) || table[|table| - 1][0] < 0 || table[|table| - 1][1] < 0)
  }

  /** Some row of the table sums to zero. */
  predicate HasZeroRow(table: seq<seq<int>>)
  {
    table != [] && (HasZeroRow(table[..|table| - 1]) || RowTotal(table[|table| - 1]) == 0)
  }

  /** The row-by-row tests say: some entry is negative; some row sums to zero. */
  lemma {:induction false} MarginTestsMean(table: seq<seq<int>>)
    requires forall i :: 0 <= i < |table| ==> |table[i]| == 2
    ensures HasNegative(table) <==> exists i, j :: 0 <= i < |table| && 0 <= j < 2 && table[i][j] < 0
    ensures HasZeroRow(table) <==> exists i :: 0 <= i < |table| && RowTotal(table[i]) == 0
  {
    if table != [] {
      var prefix := table[..|table| - 1];
      MarginTestsMean(prefix);
      assert forall i :: 0 <= i < |prefix| ==> prefix[i] == table[i];
    }
  }

  /** The four tables handed to `chi2_contingency`, in call order: the omnibus table, then the three pairs. */
  function TestedTables(f: GroupFigures): (tables: seq<seq<seq<int>>>)
    requires |f.counts| == |f.totals| == 3
    ensures |tables| == 4 && tables[0] == Omnibus(f) && tables[1..] == Pairwise(f)
    ensures forall k, i :: 0 <= k < 4 && 0 <= i < |tables[k]| ==> |tables[k][i]| == 2
  {
    [Omnibus(f)] + Pairwise(f)
  }

  /**
   * In terms of the group figures, the omnibus test raises exactly when some
   * group counts more points of the class set than its total, or when the
   * groups hold points and some group total is zero, or the class set takes
   * none of them, or all of them.
   */
  lemma OmnibusRaises(f: GroupFigures)
    requires |f.counts| == |f.totals| == 3
    requires forall k :: 0 <= k < 3 ==> f.counts[k] >= 0
    ensures var c, t := f.counts, f.totals;
            ChiSquareRaises(Omnibus(f)) <==>
              || (exists k :: 0 <= k < 3 && c[k] > t[k])
              || (t[0] + t[1] + t[2] != 0
                  && ((exists k :: 0 <= k < 3 && t[k] == 0)
                      || c[0] + c[1] + c[2] == 0 || c[0] + c[1] + c[2] == t[0] + t[1] + t[2]))
  {
    var table := Omnibus(f);
    var c, t := f.counts, f.totals;
    forall k | 0 <= k < 3 ensures RowTotal(table[k]) == t[k] {
      RowTotalOfPair(table[k]);
    }
    TotalsOfThreeRows(table);
    MarginTestsMean(table);
  }

  lemma RowTotalOfPair(row: seq<int>)
    requires |row| == 2
    ensures RowTotal(row) == row[0] + row[1]
  {
    assert row[..1][..0] == [];
    assert RowTotal(row[..1]) == row[0];
  }

  lemma TotalsOfThreeRows(table: seq<seq<int>>)
    requires |table| == 3 && forall i :: 0 <= i < 3 ==> |table[i]| == 2
    ensures TableTotal(table) == RowTotal(table[0]) + RowTotal(table[1]) + RowTotal(table[2])
    ensures ColumnTotal(table, 0) == table[0][0] + table[1][0] + table[2][0]
    ensures ColumnTotal(table, 1) == table[0][1] + table[1][1] + table[2][1]
  {
    var t1, t2 := table[..1], table[..2];
    assert t2[..1] == t1 && t1[..0] == [];
    assert TableTotal(t1) == RowTotal(table[0]);
    assert TableTotal(t2) == RowTotal(table[0]) + RowTotal(table[1]);
    assert t1[0] == table[0];
    assert ColumnTotal(t1, 0) == ColumnTotal([], 0) + table[0][0];
    assert ColumnTotal(t1, 1) == ColumnTotal([], 1) + table[0][1];
    assert ColumnTotal(t2, 0) == table[0][0] + table[1][0];
    assert ColumnTotal(t2, 1) == table[0][1] + table[1][1];
    assert table[..3] == table;
  }

  /** What one class set contributes to the folder's statistics file. */
  datatype ClassSetReport = ClassSetReport(
    classLabel: int,
    table: seq<seq<int>>,
    pValue: real,
    pairTables: seq<seq<seq<int>>>,
    pairPValues: seq<real>,
    pairSignificant: seq<bool>)

  /**
   * `pd.read_csv` raises on a missing file; `chi2_contingency` raises
   * ValueError on a table it cannot test.
   */
  datatype StatsError = FileNotFound(path: string) | ChiSquareError(table: seq<seq<int>>)

  /**
   * One pass of the class-set loop; `chi2` stands for the p-value of
   * `chi2_contingency`.
   */
  function ClassSetStatistics(rows: seq<PointRow>, counts: seq<CountRow>, classes: seq<int>,
                              chi2: seq<seq<int>> -> real): (rep: Result<ClassSetReport, StatsError>)
    requires classes != []
    ensures rep.Success? ==> rep.value.classLabel == classes[0]
    ensures rep.Failure? ==> rep.error.ChiSquareError?
  {
    TestTables(classes[0], TestedTables(Figures(rows, counts, classes)), chi2)
  }

  /** The four tests run in order, and the first table that cannot be tested raises. */
  function TestTables(classLabel: int, tables: seq<seq<seq<int>>>, chi2: seq<seq<int>> -> real)
    : (rep: Result<ClassSetReport, StatsError>)
    requires |tables| == 4 && forall k, i :: 0 <= k < 4 && 0 <= i < |tables[k]| ==> |tables[k][i]| == 2
    ensures rep.Success? ==> rep.value.classLabel == classLabel
    ensures rep.Failure? ==> rep.error.ChiSquareError?
  {
    if ChiSquareRaises(tables[0]) then Failure(ChiSquareError(tables[0]))
    else if ChiSquareRaises(tables[1]) then Failure(ChiSquareError(tables[1]))
    else if ChiSquareRaises(tables[2]) then Failure(ChiSquareError(tables[2]))
    else if ChiSquareRaises(tables[3]) then Failure(ChiSquareError(tables[3]))
    else
      var table, pairs := tables[0], tables[1..];
      var ps := [chi2(pairs[0]), chi2(pairs[1]), chi2(pairs[2])];
      Success(ClassSetReport(classLabel, table, chi2(table), pairs, ps,
                             [Significant(ps[0]), Significant(ps[1]), Significant(ps[2])]))
  }

  /**
   * The tests fail exactly when one of the four tables cannot be tested,
   * naming the first such table; otherwise the report holds the tables, the
   * p-value of each and the Bonferroni verdict of each pair.
   */
  lemma TestTablesMeans(classLabel: int, tables: seq<seq<seq<int>>>, chi2: seq<seq<int>> -> real)
    requires |tables| == 4 && forall k, i :: 0 <= k < 4 && 0 <= i < |tables[k]| ==> |tables[k][i]| == 2
    ensures var rep := TestTables(classLabel, tables, chi2);
            && (rep.Success? <==> forall k :: 0 <= k < 4 ==> !ChiSquareRaises(tables[k]))
            && (rep.Failure? ==>
                  exists k :: 0 <= k < 4 && rep.error == ChiSquareError(tables[k]) && ChiSquareRaises(tables[k])
                              && forall j :: 0 <= j < k ==> !ChiSquareRaises(tables[j]))
            && (rep.Success? ==>
                  && rep.value.table == tables[0]
                  && rep.value.pairTables == tables[1..]
                  && rep.value.pValue == chi2(tables[0])
                  && |rep.value.pairPValues| == |rep.value.pairSignificant| == 3
                  && (forall k :: 0 <= k < 3 ==> rep.value.pairPValues[k] == chi2(tables[k + 1]))
                  && (forall k :: 0 <= k < 3 ==> rep.value.pairSignificant[k] == (rep.value.pairPValues[k] < 0.05 / 3.0)))
  {
    var rep := TestTables(classLabel, tables, chi2);
    if ChiSquareRaises(tables[0]) {
      assert rep.error == ChiSquareError(tables[0]);
    } else if ChiSquareRaises(tables[1]) {
      assert forall j :: 0 <= j < 1 ==> !ChiSquareRaises(tables[j]);
    } else if ChiSquareRaises(tables[2]) {
      assert forall j :: 0 <= j < 2 ==> !ChiSquareRaises(tables[j]);
    } else if ChiSquareRaises(tables[3]) {
      assert forall j :: 0 <= j < 3 ==> !ChiSquareRaises(tables[j]);
    }
  }

  /**
   * A class set's report holds its omnibus table and its three pairwise
   * tables, built from the class set's group figures, with the p-value of
   * each and the Bonferroni verdict of each pair. The report fails exactly
   * when one of the four tables cannot be tested, naming the first such
   * table in call order.
   */
  lemma ClassSetStatisticsMeans(rows: seq<PointRow>, counts: seq<CountRow>, classes: seq<int>,
                                chi2: seq<seq<int>> -> real)
    requires classes != []
    ensures var rep, tables := ClassSetStatistics(rows, counts, classes, chi2), TestedTables(Figures(rows, counts, classes));
            && (rep.Success? <==> forall k :: 0 <= k < 4 ==> !ChiSquareRaises(tables[k]))
            && (rep.Failure? ==>
                  exists k :: 0 <= k < 4 && rep.error == ChiSquareError(tables[k]) && ChiSquareRaises(tables[k])
                              && forall j :: 0 <= j < k ==> !ChiSquareRaises(tables[j]))
    ensures var rep, f := ClassSetStatistics(rows, counts, classes, chi2), Figures(rows, counts, classes);
            rep.Success? ==>
              && rep.value.table == Omnibus(f)
              && rep.value.pairTables == Pairwise(f)
              && rep.value.pValue == chi2(rep.value.table)
              && |rep.value.pairPValues| == |rep.value.pairSignificant| == 3
              && (forall k :: 0 <= k < 3 ==> rep.value.pairPValues[k] == chi2(rep.value.pairTables[k]))
              && (forall k :: 0 <= k < 3 ==> rep.value.pairSignificant[k] == (rep.value.pairPValues[k] < 0.05 / 3.0))
  {
    TestTablesMeans(classes[0], TestedTables(Figures(rows, counts, classes)), chi2);
  }

  /** A folder under `Data`; a missing file is None. */
  datatype Folder = Folder(name: string, points: Option<seq<PointRow>>, counts: Option<seq<CountRow>>)

  function PointsPath(name: string): string
  {
    "Results/" + name + "/" + name + "_bin4_points.csv"
  }

  function CountPath(name: string): string
  {
    "Results/" + name + "/" + name + "_count.csv"
  }

  /** The class-set guard: skipped only when the points file is missing and the count file exists. */
  predicate SkipsClassSets(folder: Folder)
  {
    folder.points.None? && folder.counts.Some?
  }

  /** The class-set loop's body for one folder's two files. */
  function SetStatistics(rows: seq<PointRow>, counts: seq<CountRow>, chi2: seq<seq<int>> -> real)
    : ClassSet -> Result<ClassSetReport, StatsError>
  {
    (classes: ClassSet) => ClassSetStatistics(rows, counts, classes, chi2)
  }

  /** The reports of the first `n` class sets, or the error of the first one that raises. */
  function ReportsUpTo(stats: ClassSet -> Result<ClassSetReport, StatsError>, n: nat)
    : (r: Result<seq<ClassSetReport>, StatsError>)
    requires n <= |ClassSets|
    ensures r.Success? ==> |r.value| == n
  {
    if n == 0 then Success([])
    else
      match ReportsUpTo(stats, n - 1)
      case Failure(e) => Failure(e)
      case Success(reports) =>
        match stats(ClassSets[n - 1])
        case Failure(e) => Failure(e)
        case Success(report) => Success(reports + [report])
  }

  /**
   * The statistics file of one folder: one report per class set, or the
   * error `read_csv` or `chi2_contingency` raises.
   */
  function FolderReports(folder: Folder, chi2: seq<seq<int>> -> real): (r: Result<seq<ClassSetReport>, StatsError>)
    ensures SkipsClassSets(folder) ==> r == Success([])
    ensures !SkipsClassSets(folder) && folder.points.None? ==> r == Failure(FileNotFound(PointsPath(folder.name)))
    ensures folder.points.Some? && folder.counts.None? ==> r == Failure(FileNotFound(CountPath(folder.name)))
    ensures folder.points.Some? && folder.counts.Some? ==>
              r == ReportsUpTo(SetStatistics(folder.points.value, folder.counts.value, chi2), |ClassSets|)
  {
    if SkipsClassSets(folder) then Success([])
    else if folder.points.None? then Failure(FileNotFound(PointsPath(folder.name)))
    else if folder.counts.None? then Failure(FileNotFound(CountPath(folder.name)))
    else ReportsUpTo(SetStatistics(folder.points.value, folder.counts.value, chi2), |ClassSets|)
  }

  /**
   * A folder with both files yields the reports of `[1]`, `[2, 4]` and `[3]`,
   * in that order, each the class set's statistics; it fails only when one of
   * them raises, with the error of the first that does.
   */
  lemma FolderReportsOfFiles(folder: Folder, chi2: seq<seq<int>> -> real)
    requires folder.points.Some? && folder.counts.Some?
    ensures var r := FolderReports(folder, chi2);
            var rows, counts := folder.points.value, folder.counts.value;
            && (r.Success? <==> forall k :: 0 <= k < 3 ==> ClassSetStatistics(rows, counts, ClassSets[k], chi2).Success?)
            && (r.Success? ==>
                  && |r.value| == 3
                  && forall k :: 0 <= k < 3 ==>
                       && ClassSetStatistics(rows, counts, ClassSets[k], chi2).Success?
                       && r.value[k] == ClassSetStatistics(rows, counts, ClassSets[k], chi2).value
                       && r.value[k].classLabel == ClassSets[k][0])
            && (r.Failure? ==>
                  exists k :: 0 <= k < 3 && ClassSetStatistics(rows, counts, ClassSets[k], chi2) == Failure(r.error)
                              && forall j :: 0 <= j < k ==> ClassSetStatistics(rows, counts, ClassSets[j], chi2).Success?)
            && (r.Failure? ==> r.error.ChiSquareError?)
  {
    var rows, counts := folder.points.value, folder.counts.value;
    var stats := SetStatistics(rows, counts, chi2);
    ReportsUpToMeans(stats, |ClassSets|);
    forall k | 0 <= k < 3 ensures stats(ClassSets[k]) == ClassSetStatistics(rows, counts, ClassSets[k], chi2) {
    }
  }

  /**
   * The first `n` reports are the class sets' statistics, in order; they
   * fail exactly when one class set raises, with the error of the first.
   */
  lemma {:induction false} ReportsUpToMeans(stats: ClassSet -> Result<ClassSetReport, StatsError>, n: nat)
    requires n <= |ClassSets|
    ensures var r := ReportsUpTo(stats, n);
            && (r.Success? <==> forall k :: 0 <= k < n ==> stats(ClassSets[k]).Success?)
            && (r.Success? ==> forall k :: 0 <= k < n ==> stats(ClassSets[k]).Success? && r.value[k] == stats(ClassSets[k]).value)
            && (r.Failure? ==>
                  exists k :: 0 <= k < n && stats(ClassSets[k]) == Failure(r.error)
                              && forall j :: 0 <= j < k ==> stats(ClassSets[j]).Success?)
  {
    if n > 0 {
      ReportsUpToMeans(stats, n - 1);
      if ReportsUpTo(stats, n - 1).Success? && stats(ClassSets[n - 1]).Failure? {
        assert forall j :: 0 <= j < n - 1 ==> stats(ClassSets[j]).Success?;
      }
    }
  }

  /** The class-set loop of one folder, appending each report to the statistics file. */
  method ProcessFolder(folder: Folder, chi2: seq<seq<int>> -> real) returns (r: Result<seq<ClassSetReport>, StatsError>)
    ensures r == FolderReports(folder, chi2)
  {
    var results: seq<ClassSetReport> := [];
    for k := 0 to |ClassSets|
      invariant SkipsClassSets(folder) ==> results == []
      invariant !SkipsClassSets(folder) && 0 < k ==> folder.points.Some? && folder.counts.Some?
      invariant folder.points.Some? && folder.counts.Some? ==>
                  ReportsUpTo(SetStatistics(folder.points.value, folder.counts.value, chi2), k) == Success(results)
    {
      if SkipsClassSets(folder) {
        continue;
      }
      if folder.points.None? {
        return Failure(FileNotFound(PointsPath(folder.name)));
      }
      if folder.counts.None? {
        return Failure(FileNotFound(CountPath(folder.name)));
      }
      var rows, counts := folder.points.value, folder.counts.value;
      ghost var stats := SetStatistics(rows, counts, chi2);
      assert ReportsUpTo(stats, k) == Success(results);
      var report := ClassSetStatistics(rows, counts, ClassSets[k], chi2);
      assert stats(ClassSets[k]) == report;
      if report.Failure? {
        assert ReportsUpTo(stats, k + 1) == Failure(report.error);
        ReportsFailureStops(stats, k + 1);
        return Failure(report.error);
      }
      assert ReportsUpTo(stats, k + 1) == Success(results + [report.value]);
      results := results + [report.value];
    }
    return Success(results);
  }

  /** Once a class set raises, the folder fails with its error. */
  lemma {:induction false} ReportsFailureStops(stats: ClassSet -> Result<ClassSetReport, StatsError>, n: nat)
    requires 0 < n <= |ClassSets| && ReportsUpTo(stats, n).Failure?
    ensures ReportsUpTo(stats, |ClassSets|) == ReportsUpTo(stats, n)
    decreases |ClassSets| - n
  {
    if n < |ClassSets| {
      ReportsFailureStops(stats, n + 1);
    }
  }

  const ExcludedFolder: string := "poly01Tomo01"

  /** The folder loop: every folder except `poly01Tomo01`, in listing order; the first error stops the run. */
  function Statistics(folders: seq<Folder>, chi2: seq<seq<int>> -> real): (r: Result<seq<(string, seq<ClassSetReport>)>, StatsError>)
    ensures r.Success? ==> forall k :: 0 <= k < |r.value| ==> r.value[k].0 != ExcludedFolder
    ensures r.Success? ==> |r.value| <= |folders|
    ensures r.Success? <==>
              forall i :: 0 <= i < |folders| && folders[i].name != ExcludedFolder ==> FolderReports(folders[i], chi2).Success?
  {
    if folders == [] then Success([])
    else
      var prefix := folders[..|folders| - 1];
      var last := folders[|folders| - 1];
      var r := Statistics(prefix, chi2);
      assert forall i :: 0 <= i < |prefix| ==> prefix[i] == folders[i];
      if r.Failure? then r
      else if last.name == ExcludedFolder then r
      else
        match FolderReports(last, chi2)
        case Failure(e) => Failure(e)
        case Success(reports) => Success(r.value + [(last.name, reports)])
  }

  /** The folders the run visits: all but `poly01Tomo01`, in listing order. */
  function Included(folders: seq<Folder>): (kept: seq<Folder>)
    ensures forall k :: 0 <= k < |kept| ==> kept[k] in folders && kept[k].name != ExcludedFolder
  {
    if folders == [] then []
    else
      var prefix := folders[..|folders| - 1];
      var last := folders[|folders| - 1];
      Included(prefix) + (if last.name == ExcludedFolder then [] else [last])
  }

  /**
   * A successful run writes, for each visited folder in listing order, that
   * folder's name and its reports.
   */
  lemma {:induction false} StatisticsContents(folders: seq<Folder>, chi2: seq<seq<int>> -> real)
    requires Statistics(folders, chi2).Success?
    ensures var r, kept := Statistics(folders, chi2), Included(folders);
            && |r.value| == |kept|
            && forall k :: 0 <= k < |kept| ==> r.value[k] == (kept[k].name, FolderReports(kept[k], chi2).value)
  {
    if folders != [] {
      var prefix := folders[..|folders| - 1];
      assert forall i :: 0 <= i < |prefix| ==> prefix[i] == folders[i];
      StatisticsContents(prefix, chi2);
    }
  }

  /**
   * A failed run fails with the error of the first visited folder that
   * fails; every visited folder before it succeeds.
   */
  lemma {:induction false} StatisticsFailure(folders: seq<Folder>, chi2: seq<seq<int>> -> real) returns (i: nat)
    requires Statistics(folders, chi2).Failure?
    ensures i < |folders| && folders[i].name != ExcludedFolder
    ensures FolderReports(folders[i], chi2) == Failure(Statistics(folders, chi2).error)
    ensures forall j :: 0 <= j < i && folders[j].name != ExcludedFolder ==> FolderReports(folders[j], chi2).Success?
  {
    var prefix := folders[..|folders| - 1];
    assert forall j :: 0 <= j < |prefix| ==> prefix[j] == folders[j];
    if Statistics(prefix, chi2).Failure? {
      i := StatisticsFailure(prefix, chi2);
    } else {
      i := |folders| - 1;
    }
  }

  /** Once a prefix of the folders fails, the whole run fails with the same error. */
  lemma {:induction false} FailureStops(folders: seq<Folder>, i: nat, chi2: seq<seq<int>> -> real)
    requires i <= |folders| && Statistics(folders[..i], chi2).Failure?
    ensures Statistics(folders, chi2) == Statistics(folders[..i], chi2)
    decreases |folders| - i
  {
    if i == |folders| {
      assert folders[..i] == folders;
    } else {
      assert folders[..i + 1][..i] == folders[..i];
      FailureStops(folders, i + 1, chi2);
    }
  }

  method ProcessFolders(folders: seq<Folder>, chi2: seq<seq<int>> -> real)
    returns (r: Result<seq<(string, seq<ClassSetReport>)>, StatsError>)
    ensures r == Statistics(folders, chi2)
  {
    var written: seq<(string, seq<ClassSetReport>)> := [];
    for i := 0 to |folders|
      invariant Statistics(folders[..i], chi2) == Success(written)
    {
      assert folders[..i + 1][..i] == folders[..i];
      if folders[i].name == ExcludedFolder {
        continue;
      }
      var reports := ProcessFolder(folders[i], chi2);
      if reports.Failure? {
        assert Statistics(folders[..i + 1], chi2) == Failure(reports.error);
        FailureStops(folders, i + 1, chi2);
        return Failure(reports.error);
      }
      written := written + [(folders[i].name, reports.value)];
    }
    assert folders[..|folders|] == folders;
    return Success(written);
  }
}

=== FILE: dose.dfy ===
/**
 * correct_pre_exposure_dose.py: reads (TiltAngle, PriorRecordDose) pairs
 * from a SerialEM MDOC file and rewrites the pre-exposure dose column of a
 * RELION tilt-series STAR file, tilt by tilt, to the dose the tilt received
 * before it was recorded.
 *
 * Files are sequences of lines. `float()` is the parser `parseFloat`, and
 * the `:.4f` rendering of a dose is the `format` parameter.
 */
module PreExposureDose {
  import opened Util
  import opened Text

  /** The exceptions that end the script early. */
  datatype DoseError = IndexError | ValueError | ZeroDivisionError

  datatype TiltDose = TiltDose(tilt: real, dose: real)

  // ------------------------------------------------------------------ MDOC

  /** The state of the MDOC loop: the pending tilt and dose of the current section, and the pairs so far. */
  datatype ScanState = ScanState(tilt: Option<real>, dose: Option<real>, pairs: seq<TiltDose>)

  /** `float(line.split('=')[1].strip())`: a line without '=' is an IndexError. */
  function ValueAfterEquals(line: string, parseFloat: string -> Option<real>): (r: Result<real, DoseError>)
    ensures r == Failure(IndexError) <==> '=' !in line
    ensures r.Success? ==> parseFloat(Strip(SplitOn(line, '=')[1])) == Some(r.value)
  {
    var parts := SplitOn(line, '=');
    if |parts| < 2 then Failure(IndexError)
    else
      match parseFloat(Strip(parts[1]))
      case None => Failure(ValueError)
      case Some(v) => Success(v)
  }

  /** What a stripped MDOC line is, by its prefix, tested in the script's order. */
  datatype LineKind = SectionStart | TiltLine | DoseLine | OtherLine

  function KindOf(raw: string): LineKind
  {
    var line := Strip(raw);
    if StartsWith(line, "[ZValue") then SectionStart
    else if StartsWith(line, "TiltAngle") then TiltLine
    else if StartsWith(line, "PriorRecordDose") then DoseLine
    else OtherLine
  }

  /**
   * One MDOC line: a `[ZValue` section header forgets the pending tilt and
   * dose; a `TiltAngle` line sets the tilt; a `PriorRecordDose` line sets the
   * dose and, when a tilt is pending, appends the pair. Other lines change
   * nothing.
   */
  function MdocStep(state: ScanState, raw: string, parseFloat: string -> Option<real>): (r: Result<ScanState, DoseError>)
  {
    var line := Strip(raw);
    match KindOf(raw)
    case SectionStart => Success(ScanState(None, None, state.pairs))
    case TiltLine =>
      (match ValueAfterEquals(line, parseFloat)
       case Failure(e) => Failure(e)
       case Success(v) => Success(state.(tilt := Some(v))))
    case DoseLine =>
      (match ValueAfterEquals(line, parseFloat)
       case Failure(e) => Failure(e)
       case Success(v) =>
         Success(ScanState(state.tilt, Some(v),
                           if state.tilt.Some? then state.pairs + [TiltDose(state.tilt.value, v)] else state.pairs)))
    case OtherLine => Success(state)
  }

  /** What one line does to the scan state, by kind of line. */
  lemma MdocStepCases(state: ScanState, raw: string, parseFloat: string -> Option<real>)
    ensures var r := MdocStep(state, raw, parseFloat);
      && (KindOf(raw) == SectionStart ==> r == Success(ScanState(None, None, state.pairs)))
      && (KindOf(raw) == OtherLine ==> r == Success(state))
      && (r.Success? && KindOf(raw) == TiltLine ==> r.value.tilt.Some? && r.value.dose == state.dose && r.value.pairs == state.pairs)
      && (r.Success? && KindOf(raw) == DoseLine ==> r.value.tilt == state.tilt && r.value.dose.Some?)
      && (r.Success? && KindOf(raw) == DoseLine ==>
            r.value.pairs == state.pairs + (if state.tilt.Some? then [TiltDose(state.tilt.value, r.value.dose.value)] else []))
      && (r.Failure? ==> KindOf(raw) == TiltLine || KindOf(raw) == DoseLine)
  {
  }

  /** One MDOC line under a fixed `float()`. */
  type Step = (ScanState, string) -> Result<ScanState, DoseError>

  function LineStep(parseFloat: string -> Option<real>): Step
  {
    (state, raw) => MdocStep(state, raw, parseFloat)
  }

  /** The `for line in lines` loop from line `i` on, starting in `state`. */
  function ScanFrom(step: Step, lines: seq<string>, i: nat, state: ScanState): (r: Result<ScanState, DoseError>)
    requires i <= |lines|
    decreases |lines| - i
  {
    if i == |lines| then Success(state)
    else
      match step(state, lines[i])
      case Failure(e) => Failure(e)
      case Success(next) => ScanFrom(step, lines, i + 1, next)
  }

  /** A step that only ever appends pairs. */
  ghost predicate Appends(step: Step)
  {
    forall state, raw :: step(state, raw).Success? ==> state.pairs <= step(state, raw).value.pairs
  }

  /** A step that appends at most one pair, and only on a `PriorRecordDose` line. */
  ghost predicate AppendsOnDoseLines(step: Step)
  {
    forall state, raw :: step(state, raw).Success? ==>
      |step(state, raw).value.pairs| <= |state.pairs| + (if KindOf(raw) == DoseLine then 1 else 0)
  }

  lemma StepExtends(state: ScanState, raw: string, parseFloat: string -> Option<real>)
    requires MdocStep(state, raw, parseFloat).Success?
    ensures state.pairs <= MdocStep(state, raw, parseFloat).value.pairs
    ensures |MdocStep(state, raw, parseFloat).value.pairs| <= |state.pairs| + (if KindOf(raw) == DoseLine then 1 else 0)
  {
    MdocStepCases(state, raw, parseFloat);
  }

  /** An MDOC line keeps the pairs read so far and adds at most one, on a `PriorRecordDose` line. */
  lemma LineStepAppends(parseFloat: string -> Option<real>)
    ensures Appends(LineStep(parseFloat)) && AppendsOnDoseLines(LineStep(parseFloat))
  {
    forall state, raw | LineStep(parseFloat)(state, raw).Success? {
      StepExtends(state, raw, parseFloat);
    }
  }

  /** Pairs are only ever appended: the scan extends the pairs it starts with. */
  lemma {:induction false} ScanExtends(step: Step, lines: seq<string>, i: nat, state: ScanState)
    requires Appends(step)
    requires i <= |lines| && ScanFrom(step, lines, i, state).Success?
    ensures state.pairs <= ScanFrom(step, lines, i, state).value.pairs
    decreases |lines| - i
  {
    if i < |lines| {
      var next := step(state, lines[i]).value;
      ScanExtends(step, lines, i + 1, next);
      var last := ScanFrom(step, lines, i + 1, next).value.pairs;
      assert last[..|state.pairs|] == next.pairs[..|state.pairs|];
    }
  }

  /** The number of `PriorRecordDose` lines. */
  function DoseLines(lines: seq<string>): nat
  {
    if lines == [] then 0 else (if KindOf(lines[0]) == DoseLine then 1 else 0) + DoseLines(lines[1..])
  }

  /** There are never more pairs than `PriorRecordDose` lines. */
  lemma {:induction false} PairsBound(step: Step, lines: seq<string>, i: nat, state: ScanState)
    requires AppendsOnDoseLines(step)
    requires i <= |lines| && ScanFrom(step, lines, i, state).Success?
    ensures |ScanFrom(step, lines, i, state).value.pairs| <= |state.pairs| + DoseLines(lines[i..])
    decreases |lines| - i
  {
    if i < |lines| {
      var next := step(state, lines[i]).value;
      PairsBound(step, lines, i + 1, next);
      assert lines[i..][1..] == lines[i + 1..];
    }
  }

  const Start := ScanState(None, None, [])

  /** `parse_mdoc_tiltangle_prior_dose`: a missing file gives no pairs. */
  function ParseMdoc(mdoc: Option<seq<string>>, parseFloat: string -> Option<real>): (r: Result<seq<TiltDose>, DoseError>)
    ensures mdoc.None? ==> r == Success([])
  {
    match mdoc
    case None => Success([])
    case Some(lines) =>
      match ScanFrom(LineStep(parseFloat), lines, 0, Start)
      case Failure(e) => Failure(e)
      case Success(state) => Success(state.pairs)
  }

  /** The MDOC file yields at most one pair per `PriorRecordDose` line. */
  lemma ParseMdocBound(lines: seq<string>, parseFloat: string -> Option<real>)
    requires ParseMdoc(Some(lines), parseFloat).Success?
    ensures |ParseMdoc(Some(lines), parseFloat).value| <= DoseLines(lines)
  {
    LineStepAppends(parseFloat);
    PairsBound(LineStep(parseFloat), lines, 0, Start);
    assert lines[0..] == lines;
  }

  /** The pairs of a scan that reads through are the pairs of its first lines followed by more: file order. */
  lemma {:induction false} ScanPrefix(step: Step, lines: seq<string>, k: nat, i: nat, state: ScanState)
    requires Appends(step)
    requires i <= k <= |lines|
    requires ScanFrom(step, lines, i, state).Success?
    ensures ScanFrom(step, lines[..k], i, state).Success?
    ensures ScanFrom(step, lines[..k], i, state).value.pairs <= ScanFrom(step, lines, i, state).value.pairs
    decreases |lines| - i
  {
    if i == k {
      ScanExtends(step, lines, i, state);
    } else {
      assert lines[..k][i] == lines[i];
      ScanPrefix(step, lines, k, i + 1, step(state, lines[i]).value);
    }
  }

  /** The pairs of the first `k` MDOC lines come first, in file order, among the pairs of the whole file. */
  lemma ParseMdocPrefix(lines: seq<string>, k: nat, parseFloat: string -> Option<real>)
    requires k <= |lines|
    requires ParseMdoc(Some(lines), parseFloat).Success?
    ensures ParseMdoc(Some(lines[..k]), parseFloat).Success?
    ensures ParseMdoc(Some(lines[..k]), parseFloat).value <= ParseMdoc(Some(lines), parseFloat).value
  {
    LineStepAppends(parseFloat);
    ScanPrefix(LineStep(parseFloat), lines, k, 0, Start);
  }

  /** The body of the MDOC loop for one line, on the loop's three variables. */
  method ReadMdocLine(tilt: Option<real>, dose: Option<real>, pairs: seq<TiltDose>, raw: string,
                      parseFloat: string -> Option<real>) returns (r: Result<ScanState, DoseError>)
    ensures r == MdocStep(ScanState(tilt, dose, pairs), raw, parseFloat)
  {
    var line := Strip(raw);
    var kind := KindOf(raw);
    if kind == SectionStart {
      return Success(ScanState(None, None, pairs));
    } else if kind == TiltLine {
      var v := ValueAfterEquals(line, parseFloat);
      if v.Failure? {
        return Failure(v.error);
      }
      return Success(ScanState(Some(v.value), dose, pairs));
    } else if kind == DoseLine {
      var v := ValueAfterEquals(line, parseFloat);
      if v.Failure? {
        return Failure(v.error);
      }
      var newPairs := pairs;
      if tilt.Some? {
        newPairs := pairs + [TiltDose(tilt.value, v.value)];
      }
      return Success(ScanState(tilt, Some(v.value), newPairs));
    }
    r := Success(ScanState(tilt, dose, pairs));
  }

  method ParseMdocLines(mdoc: Option<seq<string>>, parseFloat: string -> Option<real>) returns (r: Result<seq<TiltDose>, DoseError>)
    ensures r == ParseMdoc(mdoc, parseFloat)
  {
    if mdoc.None? {
      return Success([]);
    }
    var lines := mdoc.value;
    var tilt: Option<real> := None;
    var dose: Option<real> := None;
    var pairs: seq<TiltDose> := [];
    var i := 0;
    while i < |lines|
      invariant i <= |lines|
      invariant ScanFrom(LineStep(parseFloat), lines, i, ScanState(tilt, dose, pairs))
             == ScanFrom(LineStep(parseFloat), lines, 0, Start)
    {
      var next := ReadMdocLine(tilt, dose, pairs, lines[i], parseFloat);
      if next.Failure? {
        return Failure(next.error);
      }
      tilt, dose, pairs := next.value.tilt, next.value.dose, next.value.pairs;
      i := i + 1;
    }
    r := Success(pairs);
  }

  // ------------------------------------------------------------ nearest tilt

  function Distance(pair: TiltDose, angle: real): real
  {
    Abs(pair.tilt - angle)
  }

  /**
   * `min(tilt_doses, key=lambda x: abs(x[0] - tilt_angle))`: the position of
   * the first pair whose tilt is nearest `angle`.
   */
  function ClosestIndex(pairs: seq<TiltDose>, angle: real): (k: nat)
    requires pairs != []
    ensures k < |pairs|
    ensures forall j :: 0 <= j < |pairs| ==> Distance(pairs[k], angle) <= Distance(pairs[j], angle)
    ensures forall j :: 0 <= j < k ==> Distance(pairs[j], angle) > Distance(pairs[k], angle)
  {
    if |pairs| == 1 then 0
    else
      var init := pairs[..|pairs| - 1];
      var k := ClosestIndex(init, angle);
      assert forall j :: 0 <= j < |init| ==> init[j] == pairs[j];
      if Distance(pairs[|pairs| - 1], angle) < Distance(pairs[k], angle) then |pairs| - 1 else k
  }

  /** `find_closest_dose`: None exactly when there are no pairs. */
  function FindClosestDose(angle: real, pairs: seq<TiltDose>): (d: Option<real>)
    ensures d.None? <==> pairs == []
    ensures d.Some? ==>
      (exists k :: 0 <= k < |pairs| && pairs[k].dose == d.value &&
         (forall j :: 0 <= j < |pairs| ==> Distance(pairs[k], angle) <= Distance(pairs[j], angle)))
  {
    if pairs == [] then None else Some(pairs[ClosestIndex(pairs, angle)].dose)
  }

  /** Among pairs at the same distance, the earliest wins. */
  lemma FirstNearestWins(pairs: seq<TiltDose>, angle: real, k: nat)
    requires k < |pairs|
    requires forall j :: 0 <= j < |pairs| ==> Distance(pairs[k], angle) <= Distance(pairs[j], angle)
    requires forall j :: 0 <= j < k ==> Distance(pairs[j], angle) > Distance(pairs[k], angle)
    ensures FindClosestDose(angle, pairs) == Some(pairs[k].dose)
  {
    var c := ClosestIndex(pairs, angle);
    assert !(c < k) && !(k < c);
  }

  // ------------------------------------------------------------ dose value

  /** Python's `round()` on a float: to the nearest integer, ties to the even one. */
  function RoundHalfEven(x: real): (n: int)
    ensures -0.5 <= x - n as real <= 0.5
    ensures x - n as real == 0.5 || x - n as real == -0.5 ==> n % 2 == 0
  {
    var f := x.Floor;
    var d := x - f as real;
    if d < 0.5 then f
    else if d > 0.5 then f + 1
    else if f % 2 == 0 then f
    else f + 1
  }

  /** The nearest integer, when there is exactly one, is what `round` returns. */
  lemma RoundNearest(x: real, m: int)
    requires -0.5 < x - m as real < 0.5
    ensures RoundHalfEven(x) == m
  {
    var n := RoundHalfEven(x);
    assert -1.0 < n as real - m as real < 1.0;
  }

  /**
   * `round(prior / exposure) * exposure - exposure`, raised to 0 when
   * negative: the dose before this tilt, counted in whole exposures.
   */
  function AdjustedDose(prior: real, exposure: real): (r: Result<real, DoseError>)
    ensures r.Failure? <==> exposure == 0.0
    ensures r.Failure? ==> r.error == ZeroDivisionError
    ensures r.Success? ==> r.value >= 0.0
    ensures r.Success? && r.value > 0.0 ==> r.value == (RoundHalfEven(prior / exposure) - 1) as real * exposure
    ensures r.Success? && r.value == 0.0 ==> (RoundHalfEven(prior / exposure) - 1) as real * exposure <= 0.0
  {
    if exposure == 0.0 then Failure(ZeroDivisionError)
    else
      var mult := RoundHalfEven(prior / exposure);
      var adjusted := mult as real * exposure - exposure;
      Success(if adjusted < 0.0 then 0.0 else adjusted)
  }

  /** A prior dose of exactly k exposures (k >= 1) becomes k - 1 exposures. */
  lemma WholeExposures(k: nat, exposure: real)
    requires k >= 1 && exposure > 0.0
    ensures AdjustedDose(k as real * exposure, exposure) == Success((k - 1) as real * exposure)
  {
    var prior := k as real * exposure;
    assert prior / exposure == k as real;
    RoundNearest(k as real, k);
    assert RoundHalfEven(prior / exposure) == k;
    var adjusted := k as real * exposure - exposure;
    assert adjusted == (k - 1) as real * exposure;
    assert adjusted >= 0.0 by {
      assert (k - 1) as real >= 0.0;
    }
    assert AdjustedDose(prior, exposure).Success?;
    assert AdjustedDose(prior, exposure).value == (if RoundHalfEven(prior / exposure) as real * exposure - exposure < 0.0 then 0.0 else RoundHalfEven(prior / exposure) as real * exposure - exposure);
    assert RoundHalfEven(prior / exposure) as real * exposure - exposure == adjusted;
  }

  // ------------------------------------------------------------ STAR rewrite

  /** The data lines the rewrite looks at: non-blank, not a comment, five or more columns, column 2 a float. */
  predicate Qualifies(raw: string, parseFloat: string -> Option<real>)
  {
    var line := Strip(raw);
    line != [] && !StartsWith(line, "#") && |Words(line)| >= 5 && parseFloat(Words(line)[2]).Some?
  }

  /**
   * The body of the rewrite loop for one line: a qualifying line gets the
   * dose of the nearest MDOC tilt, adjusted, in column 4 and is re-joined
   * with tabs; every other line is kept as it is.
   */
  function RewriteLine(raw: string, pairs: seq<TiltDose>, exposure: real,
                       parseFloat: string -> Option<real>, format: real -> string): (r: Result<string, DoseError>)
    ensures !Qualifies(raw, parseFloat) || pairs == [] ==> r == Success(raw)
    ensures r.Failure? ==> r.error == ZeroDivisionError && exposure == 0.0
    ensures Qualifies(raw, parseFloat) && pairs != [] ==> (r.Failure? <==> exposure == 0.0)
  {
    var line := Strip(raw);
    if line == [] || StartsWith(line, "#") then Success(raw)
    else
      var cols := Words(line);
      if |cols| < 5 then Success(raw)
      else
        match parseFloat(cols[2])
        case None => Success(raw)
        case Some(tilt) =>
          match FindClosestDose(tilt, pairs)
          case None => Success(raw)
          case Some(prior) =>
            match AdjustedDose(prior, exposure)
            case Failure(e) => Failure(e)
            case Success(adjusted) => Success(Join(cols[4 := format(adjusted)], "\t") + "\n")
  }

  /**
   * A rewritten line splits back into the original columns with only
   * column 4 replaced, by the adjusted dose of the nearest tilt.
   */
  lemma RewriteChangesOnlyDoseColumn(raw: string, pairs: seq<TiltDose>, exposure: real,
                                     parseFloat: string -> Option<real>, format: real -> string)
    requires Qualifies(raw, parseFloat) && pairs != [] && exposure != 0.0
    requires IsWord(format(AdjustedDose(FindClosestDose(parseFloat(Words(Strip(raw))[2]).value, pairs).value, exposure).value))
    ensures RewriteLine(raw, pairs, exposure, parseFloat, format).Success?
    ensures
      var cols := Words(Strip(raw));
      var adjusted := AdjustedDose(FindClosestDose(parseFloat(cols[2]).value, pairs).value, exposure).value;
      Words(RewriteLine(raw, pairs, exposure, parseFloat, format).value) == cols[4 := format(adjusted)]
  {
    var cols := Words(Strip(raw));
    var adjusted := AdjustedDose(FindClosestDose(parseFloat(cols[2]).value, pairs).value, exposure).value;
    var updated := cols[4 := format(adjusted)];
    forall k | 0 <= k < |updated|
      ensures IsWord(updated[k])
    {
    }
    WordsOfJoin(updated);
  }

  /** The first line index the rewrite touches (Python's `range(35, len(lines))`, i.e. line 36 on). */
  const FirstDataIndex := 35

  /**
   * The `for i in range(35, len(lines))` loop, on the list of lines in
   * place: lines before index 35 are kept, every later line becomes its
   * rewrite; an exposure dose of 0 raises on the first qualifying line.
   */
  method RewriteLines(lines: array<string>, pairs: seq<TiltDose>, exposure: real,
                      parseFloat: string -> Option<real>, format: real -> string) returns (r: Result<(), DoseError>)
    modifies lines
    ensures forall i :: 0 <= i < lines.Length && i < FirstDataIndex ==> lines[i] == old(lines[i])
    ensures r.Success? <==> forall i :: FirstDataIndex <= i < lines.Length ==>
      RewriteLine(old(lines[i]), pairs, exposure, parseFloat, format).Success?
    ensures r.Success? ==> forall i :: FirstDataIndex <= i < lines.Length ==>
      RewriteLine(old(lines[i]), pairs, exposure, parseFloat, format) == Success(lines[i])
    ensures r.Failure? ==> r.error == ZeroDivisionError
  {
    ghost var before := lines[..];
    var i := FirstDataIndex;
    if lines.Length < i {
      return Success(());
    }
    while i < lines.Length
      invariant FirstDataIndex <= i <= lines.Length
      invariant forall k :: 0 <= k < lines.Length && (k < FirstDataIndex || i <= k) ==> lines[k] == before[k]
      invariant forall k :: FirstDataIndex <= k < i ==>
        RewriteLine(before[k], pairs, exposure, parseFloat, format) == Success(lines[k])
    {
      var next := RewriteLine(lines[i], pairs, exposure, parseFloat, format);
      if next.Failure? {
        return Failure(next.error);
      }
      lines[i] := next.value;
      i := i + 1;
    }
    r := Success(());
  }

  /** How `update_star_file` ends when it does not raise. */
  datatype Outcome = NoDoseData | TooShort | Updated

  /**
   * `update_star_file` on the STAR file's lines and the MDOC file's lines
   * (None when it is missing). The lines are rewritten in a copy, as
   * `readlines` gives, and written back only once every line is done, so a
   * raising line leaves the file as it was.
   */
  method UpdateStarFile(star: array<string>, mdoc: Option<seq<string>>, exposure: real,
                        parseFloat: string -> Option<real>, format: real -> string) returns (r: Result<Outcome, DoseError>)
    modifies star
    ensures ParseMdoc(mdoc, parseFloat).Failure? ==> r == Failure(ParseMdoc(mdoc, parseFloat).error) && star[..] == old(star[..])
    ensures ParseMdoc(mdoc, parseFloat) == Success([]) ==> r == Success(NoDoseData) && star[..] == old(star[..])
    ensures star.Length <= FirstDataIndex && ParseMdoc(mdoc, parseFloat).Success? && ParseMdoc(mdoc, parseFloat).value != [] ==>
      r == Success(TooShort) && star[..] == old(star[..])
    ensures r == Success(Updated) ==>
      (ParseMdoc(mdoc, parseFloat).Success? &&
       var pairs := ParseMdoc(mdoc, parseFloat).value;
       pairs != [] && star.Length > FirstDataIndex &&
       (forall i :: 0 <= i < FirstDataIndex ==> star[i] == old(star[i])) &&
       (forall i :: FirstDataIndex <= i < star.Length ==>
          RewriteLine(old(star[i]), pairs, exposure, parseFloat, format) == Success(star[i])))
    ensures star.Length > FirstDataIndex && ParseMdoc(mdoc, parseFloat).Success? && ParseMdoc(mdoc, parseFloat).value != [] ==>
      (r == Success(Updated) || r == Failure(ZeroDivisionError))
    ensures r.Failure? ==> star[..] == old(star[..])
    ensures star.Length > FirstDataIndex && ParseMdoc(mdoc, parseFloat).Success? && ParseMdoc(mdoc, parseFloat).value != [] ==>
      (r == Success(Updated) <==>
         forall i :: FirstDataIndex <= i < star.Length ==>
           RewriteLine(old(star[i]), ParseMdoc(mdoc, parseFloat).value, exposure, parseFloat, format).Success?)
  {
    var pairs := ParseMdocLines(mdoc, parseFloat);
    if pairs.Failure? {
      return Failure(pairs.error);
    }
    if pairs.value == [] {
      return Success(NoDoseData);
    }
    if star.Length < FirstDataIndex + 1 {
      return Success(TooShort);
    }
    var lines := new string[star.Length];
    forall i | 0 <= i < star.Length {
      lines[i] := star[i];
    }
    ghost var original := star[..];
    assert lines[..] == original;
    var rewritten := RewriteLines(lines, pairs.value, exposure, parseFloat, format);
    assert star[..] == original;
    if rewritten.Failure? {
      return Failure(rewritten.error);
    }
    forall i | 0 <= i < star.Length {
      star[i] := lines[i];
    }
    r := Success(Updated);
  }
}

=== FILE: doublet.dfy ===
/**
 * The doublet normaliser of format_inital.py: a raw contour number, shifted so
 * that the experiment's first doublet becomes 1, is folded onto the ring of
 * nine doublets, clockwise by modular arithmetic and counter-clockwise through
 * a fixed reflection table. Also the numbering of the raw point lines and the
 * per-doublet counts written beside them.
 */
module Doublet {
  import opened Util
  import opened Text
  import Tally

  /** `transform_value_c`: `((x - 1) % 9) + 1` with Python's (non-negative) remainder. */
  function TransformC(x: int): (r: int)
    ensures 1 <= r <= 9
    ensures (r - x) % 9 == 0
  {
    ((x - 1) % 9) + 1
  }

  /** The clockwise fold is the identity on the ring itself. */
  lemma TransformCIdentity(x: int)
    requires 1 <= x <= 9
    ensures TransformC(x) == x
  {
  }

  /** Two ring positions that are congruent modulo 9 are equal. */
  lemma {:induction false} RingCongruence(a: int, b: int)
    requires 1 <= a <= 9 && 1 <= b <= 9
    requires (a - b) % 9 == 0
    ensures a == b
  {
  }

  /** The clockwise fold depends only on the residue modulo 9: it is 9-periodic. */
  lemma {:induction false} TransformCPeriodic(x: int, k: int)
    ensures TransformC(x + 9 * k) == TransformC(x)
  {
    var r, s := TransformC(x + 9 * k), TransformC(x);
    assert (r - s) % 9 == 0 by {
      assert r - s == (r - (x + 9 * k)) - (s - x) + 9 * k;
    }
    RingCongruence(r, s);
  }

  /**
   * `transform_value_cc`: a `match` over the seventeen shifted values -7..9;
   * any other value falls through the match and yields None.
   */
  function TransformCC(x: int): (r: Option<int>)
    ensures r.Some? <==> -7 <= x <= 9
    ensures r.Some? ==> r.value == TransformC(2 - x)
  {
    match x
    case -7 => Some(9)
    case -6 => Some(8)
    case -5 => Some(7)
    case -4 => Some(6)
    case -3 => Some(5)
    case -2 => Some(4)
    case -1 => Some(3)
    case 0 => Some(2)
    case 1 => Some(1)
    case 2 => Some(9)
    case 3 => Some(8)
    case 4 => Some(7)
    case 5 => Some(6)
    case 6 => Some(5)
    case 7 => Some(4)
    case 8 => Some(3)
    case 9 => Some(2)
    case _ => None
  }

  /** On the ring the reflection is an involution fixing 1: 2<->9, 3<->8, 4<->7, 5<->6. */
  lemma TransformCCInvolution(x: int)
    requires 1 <= x <= 9
    ensures TransformCC(x).Some? && 1 <= TransformCC(x).value <= 9
    ensures TransformCC(TransformCC(x).value) == Some(x)
    ensures TransformCC(x) == Some(x) <==> x == 1
  {
  }

  /** `clockDirection == 'c'` selects the clockwise branch; any other value the reflection. */
  predicate Clockwise(clockDirection: string)
  {
    clockDirection == "c"
  }

  /**
   * The doublet of one point: `Contour + (1 - firstDoublet)` folded onto the
   * ring in the sample's rotational sense (None where the reflection table has
   * no entry).
   */
  function AssignDoublet(contour: int, firstDoublet: int, clockDirection: string): (r: Option<int>)
    ensures r.Some? ==> 1 <= r.value <= 9
    ensures Clockwise(clockDirection) ==>
              r.Some? && (r.value - (contour - firstDoublet + 1)) % 9 == 0
    ensures !Clockwise(clockDirection) ==>
              (r.Some? <==> -8 <= contour - firstDoublet <= 8) &&
              (r.Some? ==> (r.value - (firstDoublet - contour + 1)) % 9 == 0)
  {
    var shifted := contour + (1 - firstDoublet);
    if Clockwise(clockDirection) then Some(TransformC(shifted)) else TransformCC(shifted)
  }

  /**
   * The first doublet is doublet 1 in both senses; the contour after it is
   * doublet 2 clockwise and doublet 9 counter-clockwise.
   */
  lemma FirstDoubletAnchors(firstDoublet: int, clockDirection: string)
    ensures AssignDoublet(firstDoublet, firstDoublet, clockDirection) == Some(1)
    ensures Clockwise(clockDirection) ==> AssignDoublet(firstDoublet + 1, firstDoublet, clockDirection) == Some(2)
    ensures !Clockwise(clockDirection) ==> AssignDoublet(firstDoublet + 1, firstDoublet, clockDirection) == Some(9)
  {
  }

  /** With contour and first doublet both on the ring, the reflection table always has an entry. */
  lemma CounterClockwiseDefined(contour: int, firstDoublet: int, clockDirection: string)
    requires 1 <= contour <= 9 && 1 <= firstDoublet <= 9
    ensures AssignDoublet(contour, firstDoublet, clockDirection).Some?
  {
  }

  /**
   * Two values congruent modulo 9 to integers less than 9 apart are not
   * equal.
   */
  lemma {:induction false} WindowResidues(r1: int, r2: int, s1: int, s2: int)
    requires (r1 - s1) % 9 == 0 && (r2 - s2) % 9 == 0
    requires s1 < s2 < s1 + 9
    ensures r1 != r2
  {
    var q1, q2 := (r1 - s1) / 9, (r2 - s2) / 9;
    assert r1 - s1 == 9 * q1 && r2 - s2 == 9 * q2;
    assert r2 - r1 == (s2 - s1) + 9 * (q2 - q1);
  }

  /** Some contour of the window c0 .. c0 + 8 is assigned doublet `d`. */
  ghost predicate WindowReaches(c0: int, firstDoublet: int, clockDirection: string, d: int)
  {
    exists c :: c0 <= c < c0 + 9 && AssignDoublet(c, firstDoublet, clockDirection) == Some(d)
  }

  lemma {:induction false} ClockwiseHit(c0: int, firstDoublet: int, d: int) returns (c: int)
    requires 1 <= d <= 9
    ensures c0 <= c < c0 + 9 && AssignDoublet(c, firstDoublet, "c") == Some(d)
  {
    c := c0 + (d - 1 + firstDoublet - c0) % 9;
    var r := AssignDoublet(c, firstDoublet, "c").value;
    assert (r - d) % 9 == 0 by {
      var q := (d - 1 + firstDoublet - c0) / 9;
      assert c - firstDoublet + 1 == d - 9 * q;
      assert r - d == (r - (c - firstDoublet + 1)) - 9 * q;
    }
    RingCongruence(r, d);
  }

  lemma {:induction false} ClockwiseDistinct(c1: int, c2: int, firstDoublet: int)
    requires c1 < c2 < c1 + 9
    ensures AssignDoublet(c1, firstDoublet, "c") != AssignDoublet(c2, firstDoublet, "c")
  {
    var a1, a2 := AssignDoublet(c1, firstDoublet, "c"), AssignDoublet(c2, firstDoublet, "c");
    WindowResidues(a1.value, a2.value, c1 - firstDoublet + 1, c2 - firstDoublet + 1);
  }

  /** Nine consecutive contours take nine distinct doublets, so all of 1..9, clockwise. */
  lemma {:induction false} ClockwiseBijective(c0: int, firstDoublet: int)
    ensures forall c1, c2 :: c0 <= c1 < c2 < c0 + 9 ==>
              AssignDoublet(c1, firstDoublet, "c") != AssignDoublet(c2, firstDoublet, "c")
    ensures forall d :: 1 <= d <= 9 ==> WindowReaches(c0, firstDoublet, "c", d)
  {
    forall c1, c2 | c0 <= c1 < c2 < c0 + 9
      ensures AssignDoublet(c1, firstDoublet, "c") != AssignDoublet(c2, firstDoublet, "c")
    {
      ClockwiseDistinct(c1, c2, firstDoublet);
    }
    forall d | 1 <= d <= 9
      ensures WindowReaches(c0, firstDoublet, "c", d)
    {
      var c := ClockwiseHit(c0, firstDoublet, d);
    }
  }

  lemma {:induction false} CounterClockwiseHit(c0: int, firstDoublet: int, clockDirection: string, d: int)
    returns (c: int)
    requires !Clockwise(clockDirection)
    requires -8 <= c0 - firstDoublet <= 0
    requires 1 <= d <= 9
    ensures c0 <= c < c0 + 9 && AssignDoublet(c, firstDoublet, clockDirection) == Some(d)
  {
    c := c0 + (firstDoublet + 1 - d - c0) % 9;
    var a := AssignDoublet(c, firstDoublet, clockDirection);
    assert a.Some?;
    var r := a.value;
    assert (r - d) % 9 == 0 by {
      var q := (firstDoublet + 1 - d - c0) / 9;
      assert firstDoublet - c + 1 == d + 9 * q;
      assert r - d == (r - (firstDoublet - c + 1)) + 9 * q;
    }
    RingCongruence(r, d);
  }

  lemma {:induction false} CounterClockwiseDistinct(c1: int, c2: int, firstDoublet: int, clockDirection: string)
    requires !Clockwise(clockDirection)
    requires -8 <= c1 - firstDoublet && c2 - firstDoublet <= 8
    requires c1 < c2 < c1 + 9
    ensures AssignDoublet(c1, firstDoublet, clockDirection) != AssignDoublet(c2, firstDoublet, clockDirection)
  {
    var a1, a2 := AssignDoublet(c1, firstDoublet, clockDirection), AssignDoublet(c2, firstDoublet, clockDirection);
    assert a1.Some? && a2.Some?;
    WindowResidues(a2.value, a1.value, firstDoublet - c2 + 1, firstDoublet - c1 + 1);
  }

  /**
   * Counter-clockwise, nine consecutive contours whose shifted values stay in
   * the table's domain take nine distinct doublets, so all of 1..9; the window
   * 1..9 qualifies for every first doublet in 1..9.
   */
  lemma {:induction false} CounterClockwiseBijective(c0: int, firstDoublet: int, clockDirection: string)
    requires !Clockwise(clockDirection)
    requires -8 <= c0 - firstDoublet <= 0
    ensures forall c :: c0 <= c < c0 + 9 ==> AssignDoublet(c, firstDoublet, clockDirection).Some?
    ensures forall c1, c2 :: c0 <= c1 < c2 < c0 + 9 ==>
              AssignDoublet(c1, firstDoublet, clockDirection) != AssignDoublet(c2, firstDoublet, clockDirection)
    ensures forall d :: 1 <= d <= 9 ==> WindowReaches(c0, firstDoublet, clockDirection, d)
  {
    forall c1, c2 | c0 <= c1 < c2 < c0 + 9
      ensures AssignDoublet(c1, firstDoublet, clockDirection) != AssignDoublet(c2, firstDoublet, clockDirection)
    {
      CounterClockwiseDistinct(c1, c2, firstDoublet, clockDirection);
    }
    forall d | 1 <= d <= 9
      ensures WindowReaches(c0, firstDoublet, clockDirection, d)
    {
      var c := CounterClockwiseHit(c0, firstDoublet, clockDirection, d);
      assert c0 <= c < c0 + 9 && AssignDoublet(c, firstDoublet, clockDirection) == Some(d);
    }
  }

  /**
   * The Doublet column: the shift and fold applied to every Contour value.
   * When every contour and the first doublet lie on the ring, every point gets
   * a doublet.
   */
  function DoubletColumn(contours: seq<int>, firstDoublet: int, clockDirection: string): (col: seq<Option<int>>)
    ensures |col| == |contours|
    ensures forall i :: 0 <= i < |col| ==> col[i] == AssignDoublet(contours[i], firstDoublet, clockDirection)
    ensures (1 <= firstDoublet <= 9 && forall i :: 0 <= i < |contours| ==> 1 <= contours[i] <= 9) ==>
              forall i :: 0 <= i < |col| ==> col[i].Some? && 1 <= col[i].value <= 9
  {
    seq(|contours|, i requires 0 <= i < |contours| => AssignDoublet(contours[i], firstDoublet, clockDirection))
  }

  /** One row of the points table before the CSV header is applied: the point number, then the line's fields. */
  datatype PointLine = PointLine(point: nat, fields: seq<string>)

  /**
   * The numbering loop: every line of model2point's output becomes a row
   * whose first column is a running counter starting at 1, followed by the
   * line's whitespace-separated fields.
   */
  method NumberPoints(lines: seq<string>) returns (data: seq<PointLine>)
    ensures |data| == |lines|
    ensures forall i :: 0 <= i < |data| ==> data[i].point == i + 1 && data[i].fields == Words(lines[i])
  {
    data := [];
    var counter := 1;
    for k := 0 to |lines|
      invariant counter == k + 1
      invariant |data| == k
      invariant forall i :: 0 <= i < k ==> data[i].point == i + 1 && data[i].fields == Words(lines[i])
    {
      var columns := Words(lines[k]);
      data := data + [PointLine(counter, columns)];
      counter := counter + 1;
    }
  }

  /** The defined entries of a column, in order (pandas skips NaN when counting). */
  function Defined(col: seq<Option<int>>): (xs: seq<int>)
    ensures |xs| <= |col|
    ensures forall v :: v in xs <==> Some(v) in col
  {
    if col == [] then []
    else
      var rest := Defined(col[1..]);
      assert forall v :: Some(v) in col <==> col[0] == Some(v) || Some(v) in col[1..];
      if col[0].Some? then [col[0].value] + rest else rest
  }

  /**
   * `calculate_counts`: the count table, one row per distinct doublet in
   * ascending order, each with a positive count, the counts summing to the
   * number of points with a doublet.
   */
  function CalculateCounts(doublets: seq<Option<int>>): (rows: seq<Tally.ValueCount>)
    ensures Tally.StrictlyIncreasing(Tally.Keys(rows))
    ensures forall i :: 0 <= i < |rows| ==>
              1 <= rows[i].count == Tally.Occurrences(Defined(doublets), rows[i].value)
    ensures forall d :: Some(d) in doublets <==> d in Tally.Keys(rows)
    ensures Tally.TotalCount(rows) == |Defined(doublets)|
  {
    Tally.ValueCountsFacts(Defined(doublets));
    Tally.ValueCounts(Defined(doublets))
  }
}

=== FILE: histogram.dfy ===
/**
 * `get_hist.py`: per tomogram, the class-by-doublet count table behind the
 * histogram (classes 2 and 4 merged, doublets optionally grouped as 1-4, 5,
 * 6-9, rows optionally normalised to proportions, grouped rows in a fixed
 * order), its legend, and the pooling of every tomogram's points into the
 * straight and the bend data set for the combined histograms.
 */
module Histogram {
  import opened Util
  import Tally

  /** One row of `<folder>_bin4_points.csv`: its doublet (NaN as None) and its dynein class. */
  datatype Sample = Sample(doublet: Option<int>, cls: int)

  /** A pivot-table row label: a doublet group name after grouping, or a plain doublet. */
  datatype Key = Label(name: string) | Number(d: int)

  const Grouped: bool := true
  const Normalized: bool := true

  /** `replace({2: 2, 4: 2})`: class 4 is merged into class 2. */
  function RemapClass(c: int): (r: int)
    ensures r != 4
    ensures c == 4 ==> r == 2
    ensures c != 4 ==> r == c
  {
    if c == 4 then 2 else c
  }

  /** The doublet grouping: 1-4, 5 and 6-9 get a group label; any other value is left as it is. */
  function GroupKey(d: int): (k: Key)
    ensures (1 <= d <= 4) <==> k == Label("1-4")
    ensures d == 5 <==> k == Label("5")
    ensures (6 <= d <= 9) <==> k == Label("6-9")
    ensures !(1 <= d <= 9) <==> k == Number(d)
  {
    if 1 <= d <= 4 then Label("1-4")
    else if d == 5 then Label("5")
    else if 6 <= d <= 9 then Label("6-9")
    else Number(d)
  }

  function KeyOf(d: int, grouped: bool): Key
  {
    if grouped then GroupKey(d) else Number(d)
  }

  /** The row order `reindex` imposes in grouped mode. */
  const GroupOrder: seq<Key> := [Label("1-4"), Label("5"), Label("6-9")]

  /** The remapped classes of the samples whose (non-NaN) doublet falls under `key`, in file order. */
  function ClassesAt(samples: seq<Sample>, key: Key, grouped: bool): (cs: seq<int>)
    ensures |cs| <= |samples|
    ensures forall i :: 0 <= i < |cs| ==> cs[i] != 4
  {
    if samples == [] then []
    else
      var s := samples[0];
      var rest := ClassesAt(samples[1..], key, grouped);
      if s.doublet.Some? && KeyOf(s.doublet.value, grouped) == key then [RemapClass(s.cls)] + rest else rest
  }

  /** The remapped classes of every sample with a doublet: these become the pivot's columns. */
  function PresentClasses(samples: seq<Sample>): (cs: seq<int>)
    ensures |cs| <= |samples|
  {
    if samples == [] then []
    else
      var rest := PresentClasses(samples[1..]);
      if samples[0].doublet.Some? then [RemapClass(samples[0].cls)] + rest else rest
  }

  lemma {:induction false} ClassesAtArePresent(samples: seq<Sample>, key: Key, grouped: bool)
    ensures forall c :: c in ClassesAt(samples, key, grouped) ==> c in PresentClasses(samples)
  {
    if samples != [] {
      ClassesAtArePresent(samples[1..], key, grouped);
    }
  }

  /** Each present class is the remap of the class of some sample with a doublet. */
  lemma {:induction false} PresentClassesOrigin(samples: seq<Sample>, c: int)
    ensures c in PresentClasses(samples) <==>
            exists i :: 0 <= i < |samples| && samples[i].doublet.Some? && RemapClass(samples[i].cls) == c
  {
    if samples != [] {
      PresentClassesOrigin(samples[1..], c);
      if exists i :: 0 <= i < |samples| && samples[i].doublet.Some? && RemapClass(samples[i].cls) == c {
        var i :| 0 <= i < |samples| && samples[i].doublet.Some? && RemapClass(samples[i].cls) == c;
        if i > 0 {
          assert samples[1..][i - 1] == samples[i];
        }
      }
      if c in PresentClasses(samples[1..]) {
        var i :| 0 <= i < |samples[1..]| && samples[1..][i].doublet.Some? && RemapClass(samples[1..][i].cls) == c;
        assert samples[i + 1] == samples[1..][i];
      }
    }
  }

  /** The pivot's columns: the distinct remapped classes, ascending. */
  function Columns(samples: seq<Sample>): (cols: seq<int>)
    ensures Tally.StrictlyIncreasing(cols)
    ensures forall c :: c in cols <==> c in PresentClasses(samples)
  {
    Tally.SortedDistinct(PresentClasses(samples))
  }

  /** The doublets that occur (NaN dropped), in the order the ungrouped pivot lists them. */
  function DoubletsPresent(samples: seq<Sample>): (ds: seq<int>)
  {
    if samples == [] then []
    else
      var rest := DoubletsPresent(samples[1..]);
      if samples[0].doublet.Some? then [samples[0].doublet.value] + rest else rest
  }

  /** A sample with doublet `d` falls under the ungrouped key `Number(d)`. */
  lemma {:induction false} DoubletPresentHasClasses(samples: seq<Sample>, d: int)
    requires d in DoubletsPresent(samples)
    ensures ClassesAt(samples, Number(d), false) != []
  {
    if !(samples[0].doublet.Some? && samples[0].doublet.value == d) {
      DoubletPresentHasClasses(samples[1..], d);
    }
  }

  /**
   * One pivot row: the count of each column's class among `xs`, divided by
   * `divisor` (the row total when normalising, 1 otherwise).
   */
  function ScaledCounts(xs: seq<int>, cols: seq<int>, divisor: real): (row: seq<real>)
    requires divisor > 0.0
    ensures |row| == |cols|
    ensures forall j :: 0 <= j < |cols| ==> row[j] == Tally.Occurrences(xs, cols[j]) as real / divisor
  {
    seq(|cols|, j requires 0 <= j < |cols| => Tally.Occurrences(xs, cols[j]) as real / divisor)
  }

  /** A pivot table after the optional normalisation and reindexing; a NaN row is None. */
  datatype Table = Table(index: seq<Key>, columns: seq<int>, rows: seq<Option<seq<real>>>)

  function NumberKeys(ds: seq<int>): (keys: seq<Key>)
    ensures |keys| == |ds|
    ensures forall i :: 0 <= i < |ds| ==> keys[i] == Number(ds[i])
    ensures forall d :: Number(d) in keys <==> d in ds
  {
    if ds == [] then [] else [Number(ds[0])] + NumberKeys(ds[1..])
  }

  /** Single mode: a label per doublet that occurs, ascending. */
  function SingleIndex(samples: seq<Sample>): (index: seq<Key>)
    ensures forall i :: 0 <= i < |index| ==> index[i].Number? && ClassesAt(samples, index[i], false) != []
    ensures forall d :: d in DoubletsPresent(samples) <==> Number(d) in index
    ensures forall i, j :: 0 <= i < j < |index| ==> index[i].d < index[j].d
  {
    var ds := Tally.SortedDistinct(DoubletsPresent(samples));
    var index := NumberKeys(ds);
    forall i | 0 <= i < |index| ensures ClassesAt(samples, index[i], false) != [] {
      DoubletPresentHasClasses(samples, ds[i]);
    }
    index
  }

  /** The pivot's row labels: the fixed group order when grouped, every doublet ascending otherwise. */
  function Index(samples: seq<Sample>, grouped: bool): (index: seq<Key>)
    ensures grouped ==> index == GroupOrder
    ensures !grouped ==> index == SingleIndex(samples)
  {
    if grouped then GroupOrder else SingleIndex(samples)
  }

  /**
   * The pivot row of one label: None (NaN) when no sample falls under it,
   * otherwise per column the number of samples of that class, divided by
   * the row total when normalising.
   */
  function PivotRow(samples: seq<Sample>, key: Key, grouped: bool, normalized: bool): (row: Option<seq<real>>)
    ensures row.None? <==> ClassesAt(samples, key, grouped) == []
    ensures row.Some? ==> |row.value| == |Columns(samples)|
    ensures row.Some? && !normalized ==> forall j :: 0 <= j < |row.value| ==>
              row.value[j] == Tally.Occurrences(ClassesAt(samples, key, grouped), Columns(samples)[j]) as real
    ensures row.Some? && normalized ==> forall j :: 0 <= j < |row.value| ==>
              row.value[j] == Tally.Occurrences(ClassesAt(samples, key, grouped), Columns(samples)[j]) as real
                              / |ClassesAt(samples, key, grouped)| as real
  {
    var xs := ClassesAt(samples, key, grouped);
    if xs == [] then None
    else Some(ScaledCounts(xs, Columns(samples), if normalized then |xs| as real else 1.0))
  }

  /** Independent one-pass count of the samples with a doublet under `key` whose remapped class is `c`. */
  function CellCount(samples: seq<Sample>, key: Key, grouped: bool, c: int): nat
  {
    if samples == [] then 0
    else
      var s := samples[0];
      (if s.doublet.Some? && KeyOf(s.doublet.value, grouped) == key && RemapClass(s.cls) == c then 1 else 0)
      + CellCount(samples[1..], key, grouped, c)
  }

  /** Counting `c` among the classes under `key` counts the samples under `key` of remapped class `c`. */
  lemma {:induction false} ClassesAtCounts(samples: seq<Sample>, key: Key, grouped: bool, c: int)
    ensures Tally.Occurrences(ClassesAt(samples, key, grouped), c) == CellCount(samples, key, grouped, c)
  {
    if samples != [] {
      var s := samples[0];
      var rest := ClassesAt(samples[1..], key, grouped);
      ClassesAtCounts(samples[1..], key, grouped, c);
      if s.doublet.Some? && KeyOf(s.doublet.value, grouped) == key {
        assert ([RemapClass(s.cls)] + rest)[1..] == rest;
      }
    }
  }

  /**
   * The `aggfunc='count'` cell of the pivot at label `key` and column `j`:
   * the number of samples under `key` whose remapped class is that column's.
   */
  lemma PivotCellCounts(samples: seq<Sample>, key: Key, grouped: bool, j: nat)
    requires PivotRow(samples, key, grouped, false).Some? && j < |Columns(samples)|
    ensures PivotRow(samples, key, grouped, false).value[j] == CellCount(samples, key, grouped, Columns(samples)[j]) as real
  {
    ClassesAtCounts(samples, key, grouped, Columns(samples)[j]);
  }

  /**
   * `pivot_table(index='Doublet', columns='class', aggfunc='count', fill_value=0)`,
   * then `div(sum(axis=1), axis=0)` when normalising and `reindex(['1-4', '5', '6-9'])` when grouped.
   */
  function PivotTable(samples: seq<Sample>, grouped: bool, normalized: bool): (t: Table)
    ensures t.index == Index(samples, grouped) && t.columns == Columns(samples)
    ensures |t.rows| == |t.index|
    ensures forall i :: 0 <= i < |t.rows| ==> t.rows[i] == PivotRow(samples, t.index[i], grouped, normalized)
    ensures !grouped ==> forall i :: 0 <= i < |t.rows| ==> t.rows[i].Some?
  {
    var index := Index(samples, grouped);
    Table(index, Columns(samples), PivotRows(samples, index, grouped, normalized))
  }

  function PivotRows(samples: seq<Sample>, index: seq<Key>, grouped: bool, normalized: bool): (rows: seq<Option<seq<real>>>)
    ensures |rows| == |index|
    ensures forall i :: 0 <= i < |index| ==> rows[i] == PivotRow(samples, index[i], grouped, normalized)
  {
    seq(|index|, i requires 0 <= i < |index| => PivotRow(samples, index[i], grouped, normalized))
  }

  /** How many entries of `xs` are among `cols`. */
  function CountAmong(xs: seq<int>, cols: seq<int>): (n: nat)
    ensures n <= |xs|
  {
    if xs == [] then 0 else (if xs[0] in cols then 1 else 0) + CountAmong(xs[1..], cols)
  }

  lemma {:induction false} CountAmongSnoc(xs: seq<int>, cols: seq<int>, c: int)
    requires c !in cols
    ensures CountAmong(xs, cols + [c]) == CountAmong(xs, cols) + Tally.Occurrences(xs, c)
  {
    if xs != [] {
      CountAmongSnoc(xs[1..], cols, c);
    }
  }

  lemma {:induction false} CountAmongAll(xs: seq<int>, cols: seq<int>)
    requires forall i :: 0 <= i < |xs| ==> xs[i] in cols
    ensures CountAmong(xs, cols) == |xs|
  {
    if xs != [] {
      CountAmongAll(xs[1..], cols);
    }
  }

  /** One more cell `b / d` added to a running sum `a / d`. */
  lemma DivisionDistributes(total: real, prev: real, last: real, a: real, b: real, n: real, d: real)
    requires d > 0.0 && prev == a / d && last == b / d && total == prev + last && n == a + b
    ensures total == n / d
  {
  }

  /** A strictly increasing sequence does not repeat its last element. */
  lemma LastIsNew(cols: seq<int>)
    requires cols != [] && Tally.StrictlyIncreasing(cols)
    ensures cols[|cols| - 1] !in cols[..|cols| - 1]
    ensures Tally.StrictlyIncreasing(cols[..|cols| - 1])
  {
  }

  /** Dropping the last column drops the last cell. */
  lemma ScaledCountsPrefix(xs: seq<int>, cols: seq<int>, divisor: real)
    requires divisor > 0.0 && cols != []
    ensures ScaledCounts(xs, cols, divisor)[..|cols| - 1] == ScaledCounts(xs, cols[..|cols| - 1], divisor)
  {
  }

  /** A row's cells add up to the entries of `xs` it has a column for, over the divisor. */
  lemma {:induction false} ScaledCountsSum(xs: seq<int>, cols: seq<int>, divisor: real)
    requires divisor > 0.0
    requires Tally.StrictlyIncreasing(cols)
    ensures SumReal(ScaledCounts(xs, cols, divisor)) == CountAmong(xs, cols) as real / divisor
    decreases |cols|
  {
    if cols == [] {
      CountAmongNone(xs, cols);
    } else {
      var k := |cols| - 1;
      var front := cols[..k];
      LastIsNew(cols);
      ScaledCountsSum(xs, front, divisor);
      var row := ScaledCounts(xs, cols, divisor);
      ScaledCountsPrefix(xs, cols, divisor);
      assert SumReal(row) == SumReal(row[..k]) + row[k];
      assert cols == front + [cols[k]];
      CountAmongSnoc(xs, front, cols[k]);
      var a := CountAmong(xs, front) as real;
      var b := Tally.Occurrences(xs, cols[k]) as real;
      DivisionDistributes(SumReal(row), SumReal(row[..k]), row[k], a, b, CountAmong(xs, cols) as real, divisor);
    }
  }

  lemma {:induction false} CountAmongNone(xs: seq<int>, cols: seq<int>)
    requires cols == []
    ensures CountAmong(xs, cols) == 0
  {
    if xs != [] {
      CountAmongNone(xs[1..], cols);
    }
  }

  lemma FractionBounds(k: nat, n: nat)
    requires k <= n && n > 0
    ensures 0.0 <= k as real / n as real <= 1.0
  {
  }

  lemma UnitDivision(total: real, n: real, d: real)
    requires n > 0.0 && d > 0.0 && total == n / d
    ensures d == 1.0 ==> total == n
    ensures d == n ==> total == 1.0
  {
    assert total * d == n;
    if d == n {
      assert (total - 1.0) * n == 0.0;
    }
  }

  /**
   * When every entry of `xs` has a column, the row's cells add up to |xs|
   * over the divisor: to |xs| for raw counts and to 1 when the divisor is
   * the row total.
   */
  lemma CoveredRowSum(xs: seq<int>, cols: seq<int>, divisor: real)
    requires xs != [] && divisor > 0.0
    requires Tally.StrictlyIncreasing(cols)
    requires forall i :: 0 <= i < |xs| ==> xs[i] in cols
    ensures divisor == 1.0 ==> SumReal(ScaledCounts(xs, cols, divisor)) == |xs| as real
    ensures divisor == |xs| as real ==> SumReal(ScaledCounts(xs, cols, divisor)) == 1.0
  {
    CountAmongAll(xs, cols);
    ScaledCountsSum(xs, cols, divisor);
    UnitDivision(SumReal(ScaledCounts(xs, cols, divisor)), |xs| as real, divisor);
  }

  /** A normalised cell is a share of the row total, so it lies in [0, 1]. */
  lemma NormalisedCellBounds(xs: seq<int>, cols: seq<int>, n: real)
    requires xs != [] && n == |xs| as real
    ensures forall j :: 0 <= j < |cols| ==> 0.0 <= ScaledCounts(xs, cols, n)[j] <= 1.0
  {
    forall j | 0 <= j < |cols| ensures 0.0 <= ScaledCounts(xs, cols, n)[j] <= 1.0 {
      FractionBounds(Tally.Occurrences(xs, cols[j]), |xs|);
    }
  }

  /** Without normalisation a pivot row sums to the number of samples under its label, which is positive. */
  lemma CountRowTotal(samples: seq<Sample>, key: Key, grouped: bool)
    requires PivotRow(samples, key, grouped, false).Some?
    ensures |ClassesAt(samples, key, grouped)| >= 1
    ensures SumReal(PivotRow(samples, key, grouped, false).value) == |ClassesAt(samples, key, grouped)| as real
  {
    ClassesAtArePresent(samples, key, grouped);
    CoveredRowSum(ClassesAt(samples, key, grouped), Columns(samples), 1.0);
  }

  /**
   * After normalisation every pivot row sums to 1 and each of its cells lies
   * in [0, 1]; the divisor, the row's own total, is never zero.
   */
  lemma NormalisedRowTotal(samples: seq<Sample>, key: Key, grouped: bool)
    requires PivotRow(samples, key, grouped, true).Some?
    ensures SumReal(PivotRow(samples, key, grouped, true).value) == 1.0
    ensures forall j :: 0 <= j < |PivotRow(samples, key, grouped, true).value| ==>
              0.0 <= PivotRow(samples, key, grouped, true).value[j] <= 1.0
  {
    var xs := ClassesAt(samples, key, grouped);
    ClassesAtArePresent(samples, key, grouped);
    CoveredRowSum(xs, Columns(samples), |xs| as real);
    NormalisedCellBounds(xs, Columns(samples), |xs| as real);
  }

  /** `custom_labels`: the legend name of a class, or None where the dictionary raises KeyError. */
  function LegendLabel(c: int): (name: Option<string>)
    ensures name.Some? <==> c in {1, 2, 3}
  {
    if c == 1 then Some("Unknown")
    else if c == 2 then Some("Pre PS")
    else if c == 3 then Some("Post PS")
    else None
  }

  /** The legend of every column in order, or the first column whose lookup raises. */
  function Legends(columns: seq<int>): (r: Result<seq<string>, int>)
    ensures r.Success? <==> forall j :: 0 <= j < |columns| ==> columns[j] in {1, 2, 3}
    ensures r.Success? ==> |r.value| == |columns|
    ensures r.Success? ==> forall j :: 0 <= j < |columns| ==> Some(r.value[j]) == LegendLabel(columns[j])
    ensures r.Failure? ==> r.error in columns && r.error !in {1, 2, 3}
  {
    if columns == [] then Success([])
    else
      match LegendLabel(columns[0])
      case None => Failure(columns[0])
      case Some(name) =>
        var rest := Legends(columns[1..]);
        if rest.Failure? then rest else Success([name] + rest.value)
  }

  /** The legend exists exactly when every sample with a doublet has class 1, 2, 3 or 4. */
  lemma LegendsDefined(samples: seq<Sample>)
    ensures Legends(Columns(samples)).Success? <==>
            forall i :: 0 <= i < |samples| && samples[i].doublet.Some? ==> samples[i].cls in {1, 2, 3, 4}
  {
    var cols := Columns(samples);
    if Legends(cols).Success? {
      forall i | 0 <= i < |samples| && samples[i].doublet.Some? ensures samples[i].cls in {1, 2, 3, 4} {
        PresentClassesOrigin(samples, RemapClass(samples[i].cls));
        assert RemapClass(samples[i].cls) in cols;
      }
    } else {
      var c := Legends(cols).error;
      PresentClassesOrigin(samples, c);
    }
  }

  /** What a histogram shows: the table and one legend entry per column. */
  datatype Figure = Figure(table: Table, legend: seq<string>)

  /**
   * The exceptions of the histogram script: a class without a legend name, a
   * folder without a bend direction, or a pooled CSV file that does not exist.
   */
  datatype HistError = ClassLabelKeyError(cls: int) | BendDirectionKeyError(folder: string) | FileNotFound(path: string)

  /** The figure `generate_figure` draws for some samples: the normalised pivot table and its legend. */
  function FigureOf(samples: seq<Sample>, grouped: bool): (r: Result<Figure, HistError>)
    ensures r.Success? <==> Legends(Columns(samples)).Success?
    ensures r.Success? ==> r.value.table == PivotTable(samples, grouped, Normalized) && |r.value.legend| == |r.value.table.columns|
    ensures r.Failure? ==> r.error.ClassLabelKeyError? && r.error.cls in Columns(samples) && r.error.cls !in {1, 2, 3}
  {
    var table := PivotTable(samples, grouped, Normalized);
    match Legends(table.columns)
    case Failure(c) => Failure(ClassLabelKeyError(c))
    case Success(legend) => Success(Figure(table, legend))
  }

  /** `generate_figure`: the per-tomogram histogram, grouped and normalised as the script's switches say. */
  function GenerateFigure(samples: seq<Sample>): (r: Result<Figure, HistError>)
    ensures r.Success? ==> r.value.table.index == GroupOrder
    ensures r.Success? ==> forall i :: 0 <= i < |r.value.table.rows| && r.value.table.rows[i].Some? ==>
              SumReal(r.value.table.rows[i].value) == 1.0
  {
    var r := FigureOf(samples, Grouped);
    if r.Success? then
      forall i | 0 <= i < |r.value.table.rows| && r.value.table.rows[i].Some?
        ensures SumReal(r.value.table.rows[i].value) == 1.0
      {
        NormalisedRowTotal(samples, r.value.table.index[i], Grouped);
      }
      r
    else r
  }

  /** `generate_combined_histogram`: the same table over a pooled data set, grouped or not. */
  function GenerateCombinedHistogram(samples: seq<Sample>, groupedCombined: bool): (r: Result<Figure, HistError>)
    ensures r.Success? && groupedCombined ==> r.value.table.index == GroupOrder
    ensures r.Success? && !groupedCombined ==> forall i :: 0 <= i < |r.value.table.rows| ==> r.value.table.rows[i].Some?
    ensures r.Success? ==> forall i :: 0 <= i < |r.value.table.rows| && r.value.table.rows[i].Some? ==>
              SumReal(r.value.table.rows[i].value) == 1.0
  {
    var r := FigureOf(samples, groupedCombined);
    if r.Success? then
      forall i | 0 <= i < |r.value.table.rows| && r.value.table.rows[i].Some?
        ensures SumReal(r.value.table.rows[i].value) == 1.0
      {
        NormalisedRowTotal(samples, r.value.table.index[i], groupedCombined);
      }
      r
    else r
  }

  /** A folder under `Data`: its name and its points file, None when missing. */
  datatype HistFolder = HistFolder(name: string, samples: Option<seq<Sample>>)

  /** The module-level data sets `all_data_straight` and `all_data_bend`. */
  class PoolAccumulator {
    var straight: seq<Sample>
    var bend: seq<Sample>

    constructor ()
      ensures straight == [] && bend == []
    {
      straight := [];
      bend := [];
    }

    /** `pd.concat` onto the pool the bend direction names; any other direction leaves both pools alone. */
    method Add(samples: seq<Sample>, direction: string)
      modifies this
      ensures straight == old(straight) + (if direction == "straight" then samples else [])
      ensures bend == old(bend) + (if direction == "bend" then samples else [])
    {
      if direction == "straight" {
        straight := straight + samples;
      } else if direction == "bend" {
        bend := bend + samples;
      }
    }
  }

  /** What one folder adds to the pool named `which`: its samples when its file exists and its direction is `which`. */
  function Routed(folder: HistFolder, directions: map<string, string>, which: string): seq<Sample>
  {
    if folder.samples.Some? && folder.name in directions && directions[folder.name] == which then folder.samples.value else []
  }

  /** The samples of the folders, in listing order, whose file exists and whose bend direction is `which`. */
  function Pool(folders: seq<HistFolder>, directions: map<string, string>, which: string): seq<Sample>
  {
    if folders == [] then []
    else Pool(folders[..|folders| - 1], directions, which) + Routed(folders[|folders| - 1], directions, which)
  }

  /** Every sample of the present folders, in listing order. */
  function AllSamples(folders: seq<HistFolder>): seq<Sample>
  {
    if folders == [] then []
    else
      var last := folders[|folders| - 1];
      AllSamples(folders[..|folders| - 1]) + (if last.samples.Some? then last.samples.value else [])
  }

  /** The two pools never share a folder's samples: together they hold at most all of them. */
  lemma {:induction false} PoolSizes(folders: seq<HistFolder>, directions: map<string, string>)
    ensures |Pool(folders, directions, "straight")| + |Pool(folders, directions, "bend")| <= |AllSamples(folders)|
  {
    if folders != [] {
      PoolSizes(folders[..|folders| - 1], directions);
    }
  }

  /** A folder marked neither "straight" nor "bend" adds nothing to either pool. */
  lemma {:induction false} UndeterminedFolderIgnored(folders: seq<HistFolder>, directions: map<string, string>, f: HistFolder)
    requires f.name in directions && directions[f.name] != "straight" && directions[f.name] != "bend"
    ensures Pool(folders + [f], directions, "straight") == Pool(folders, directions, "straight")
    ensures Pool(folders + [f], directions, "bend") == Pool(folders, directions, "bend")
  {
    assert (folders + [f])[..|folders|] == folders;
  }

  /**
   * One pass of the main loop: nothing for a folder without a points file,
   * otherwise its histogram, unless the legend or the bend-direction lookup raises.
   */
  function Visit(folder: HistFolder, directions: map<string, string>): (r: Result<Option<Figure>, HistError>)
    ensures r == Success(None) <==> folder.samples.None?
    ensures r.Success? && folder.samples.Some? ==> folder.name in directions
    ensures r.Failure? && r.error.BendDirectionKeyError? ==> r.error.folder == folder.name && folder.name !in directions
    ensures r.Failure? ==> !r.error.FileNotFound?
  {
    if folder.samples.None? then Success(None)
    else
      match GenerateFigure(folder.samples.value)
      case Failure(e) => Failure(e)
      case Success(figure) =>
        if folder.name !in directions then Failure(BendDirectionKeyError(folder.name))
        else Success(Some(figure))
  }

  /**
   * A folder with a points file gets its `generate_figure` histogram when
   * that succeeds and the folder has a bend direction; otherwise the pass
   * raises the histogram's KeyError, or else the bend-direction KeyError.
   */
  lemma VisitFigure(folder: HistFolder, directions: map<string, string>)
    requires folder.samples.Some?
    ensures var r, g := Visit(folder, directions), GenerateFigure(folder.samples.value);
            && (g.Failure? ==> r == Failure(g.error))
            && (g.Success? && folder.name in directions ==> r == Success(Some(g.value)))
            && (g.Success? && folder.name !in directions ==> r == Failure(BendDirectionKeyError(folder.name)))
  {
  }

  /**
   * The histograms of the main loop, one per folder whose file exists, in
   * listing order; the run stops at the first `KeyError`.
   */
  function Figures(folders: seq<HistFolder>, directions: map<string, string>): (r: Result<seq<(string, Figure)>, HistError>)
    ensures r.Success? ==> |r.value| <= |folders|
    ensures r.Success? ==> forall i :: 0 <= i < |folders| && folders[i].samples.Some? ==> folders[i].name in directions
  {
    if folders == [] then Success([])
    else
      var prefix := folders[..|folders| - 1];
      var last := folders[|folders| - 1];
      var r := Figures(prefix, directions);
      assert forall i :: 0 <= i < |prefix| ==> prefix[i] == folders[i];
      if r.Failure? then r
      else
        match Visit(last, directions)
        case Failure(e) => Failure(e)
        case Success(None) => r
        case Success(Some(figure)) => Success(r.value + [(last.name, figure)])
  }

  lemma {:induction false} FiguresFailureStops(folders: seq<HistFolder>, i: nat, directions: map<string, string>)
    requires i <= |folders| && Figures(folders[..i], directions).Failure?
    ensures Figures(folders, directions) == Figures(folders[..i], directions)
    decreases |folders| - i
  {
    if i == |folders| {
      assert folders[..i] == folders;
    } else {
      assert folders[..i + 1][..i] == folders[..i];
      FiguresFailureStops(folders, i + 1, directions);
    }
  }

  /** The folders whose points file exists, in listing order. */
  function PresentFolders(folders: seq<HistFolder>): (present: seq<HistFolder>)
    ensures forall k :: 0 <= k < |present| ==> present[k] in folders && present[k].samples.Some?
  {
    if folders == [] then []
    else
      var last := folders[|folders| - 1];
      PresentFolders(folders[..|folders| - 1]) + (if last.samples.Some? then [last] else [])
  }

  /** The main loop succeeds exactly when every pass over a present folder does. */
  lemma {:induction false} FiguresSucceed(folders: seq<HistFolder>, directions: map<string, string>)
    ensures Figures(folders, directions).Success? <==>
              forall i :: 0 <= i < |folders| && folders[i].samples.Some? ==> Visit(folders[i], directions).Success?
  {
    if folders != [] {
      var prefix := folders[..|folders| - 1];
      assert forall i :: 0 <= i < |prefix| ==> prefix[i] == folders[i];
      FiguresSucceed(prefix, directions);
    }
    forall i | 0 <= i < |folders|
      ensures Figures(folders, directions).Success? ==> Visit(folders[i], directions).Success?
    {
      if Visit(folders[i], directions).Failure? {
        FiguresPassFails(folders, i, directions);
      }
    }
  }

  /** A raising pass makes the whole main loop raise. */
  lemma FiguresPassFails(folders: seq<HistFolder>, i: nat, directions: map<string, string>)
    requires i < |folders| && Visit(folders[i], directions).Failure?
    ensures Figures(folders, directions).Failure?
  {
    assert folders[..i + 1][..i] == folders[..i];
    assert Figures(folders[..i + 1], directions).Failure?;
    FiguresFailureStops(folders, i + 1, directions);
  }

  /**
   * The main loop succeeds exactly when every pass over a present folder
   * does; it then yields one histogram per present folder, in listing order,
   * each that folder's pass's histogram.
   */
  lemma {:induction false} FiguresOfVisits(folders: seq<HistFolder>, directions: map<string, string>)
    ensures var r := Figures(folders, directions);
            r.Success? <==> forall i :: 0 <= i < |folders| && folders[i].samples.Some? ==>
                              Visit(folders[i], directions).Success?
    ensures var r, present := Figures(folders, directions), PresentFolders(folders);
            r.Success? ==>
              && |r.value| == |present|
              && forall k :: 0 <= k < |present| ==>
                   && Visit(present[k], directions).Success? && Visit(present[k], directions).value.Some?
                   && r.value[k] == (present[k].name, Visit(present[k], directions).value.value)
  {
    FiguresSucceed(folders, directions);
    if folders != [] {
      var prefix := folders[..|folders| - 1];
      FiguresOfVisits(prefix, directions);
    }
  }

  /**
   * The main loop succeeds exactly when every present folder has a histogram
   * and a bend direction; it then yields one histogram per present folder,
   * in listing order, each that folder's `generate_figure`.
   */
  lemma FiguresContents(folders: seq<HistFolder>, directions: map<string, string>)
    ensures var r := Figures(folders, directions);
            r.Success? <==> forall i :: 0 <= i < |folders| && folders[i].samples.Some? ==>
                              GenerateFigure(folders[i].samples.value).Success? && folders[i].name in directions
    ensures var r, present := Figures(folders, directions), PresentFolders(folders);
            r.Success? ==>
              && |r.value| == |present|
              && forall k :: 0 <= k < |present| ==>
                   r.value[k] == (present[k].name, GenerateFigure(present[k].samples.value).value)
  {
    FiguresOfVisits(folders, directions);
    forall i | 0 <= i < |folders| && folders[i].samples.Some? {
      VisitFigure(folders[i], directions);
    }
    var present := PresentFolders(folders);
    forall k | 0 <= k < |present| {
      VisitFigure(present[k], directions);
    }
  }

  lemma PoolStep(folders: seq<HistFolder>, i: nat, directions: map<string, string>, which: string)
    requires i < |folders|
    ensures Pool(folders[..i + 1], directions, which) == Pool(folders[..i], directions, which) + Routed(folders[i], directions, which)
  {
    assert folders[..i + 1][..i] == folders[..i];
  }

  /** Private helper for the folder loop's proof: concatenation of samples is associative. */
  lemma ConcatAssociates(a: seq<Sample>, b: seq<Sample>, c: seq<Sample>)
    ensures (a + b) + c == a + (b + c)
  {
  }

  /** The histograms of one more folder: its Visit decides. */
  lemma FiguresStep(folders: seq<HistFolder>, i: nat, directions: map<string, string>, figures: seq<(string, Figure)>)
    requires i < |folders| && Figures(folders[..i], directions) == Success(figures)
    ensures Figures(folders[..i + 1], directions) ==
              match Visit(folders[i], directions)
              case Failure(e) => Failure(e)
              case Success(None) => Success(figures)
              case Success(Some(figure)) => Success(figures + [(folders[i].name, figure)])
  {
    assert folders[..i + 1][..i] == folders[..i];
  }

  /** One pass of the main loop, routing the folder's samples once its histogram is made. */
  method VisitFolder(folder: HistFolder, directions: map<string, string>, pools: PoolAccumulator)
    returns (visit: Result<Option<Figure>, HistError>)
    modifies pools
    ensures visit == Visit(folder, directions)
    ensures visit.Success? ==> pools.straight == old(pools.straight) + Routed(folder, directions, "straight")
    ensures visit.Success? ==> pools.bend == old(pools.bend) + Routed(folder, directions, "bend")
  {
    visit := Visit(folder, directions);
    if visit.Success? && visit.value.Some? {
      pools.Add(folder.samples.value, directions[folder.name]);
    }
  }

  /** The main loop: a histogram per present folder, and its samples routed to a pool by bend direction. */
  method MainLoop(folders: seq<HistFolder>, directions: map<string, string>, pools: PoolAccumulator)
    returns (r: Result<seq<(string, Figure)>, HistError>)
    modifies pools
    ensures r == Figures(folders, directions)
    ensures r.Success? ==> pools.straight == old(pools.straight) + Pool(folders, directions, "straight")
    ensures r.Success? ==> pools.bend == old(pools.bend) + Pool(folders, directions, "bend")
  {
    var figures: seq<(string, Figure)> := [];
    for i := 0 to |folders|
      invariant Figures(folders[..i], directions) == Success(figures)
      invariant pools.straight == old(pools.straight) + Pool(folders[..i], directions, "straight")
      invariant pools.bend == old(pools.bend) + Pool(folders[..i], directions, "bend")
    {
      var folder := folders[i];
      FiguresStep(folders, i, directions, figures);
      PoolStep(folders, i, directions, "straight");
      PoolStep(folders, i, directions, "bend");
      ConcatAssociates(old(pools.straight), Pool(folders[..i], directions, "straight"), Routed(folder, directions, "straight"));
      ConcatAssociates(old(pools.bend), Pool(folders[..i], directions, "bend"), Routed(folder, directions, "bend"));
      var visit := VisitFolder(folder, directions, pools);
      if visit.Failure? {
        FiguresFailureStops(folders, i + 1, directions);
        return Failure(visit.error);
      }
      if visit.value.Some? {
        figures := figures + [(folder.name, visit.value.value)];
      }
    }
    assert folders[..|folders|] == folders;
    return Success(figures);
  }

  const StraightCsvPath: string := "Results/all_data_straight.csv"
  const BendCsvPath: string := "Results/all_data_bend.csv"

  /**
   * The contents of a pooled CSV file when the combined histograms read it:
   * the pool, when it is non-empty and so written out, or else whatever an
   * earlier run left there (None: no such file).
   */
  function PoolFile(pool: seq<Sample>, earlier: Option<seq<Sample>>): (file: Option<seq<Sample>>)
    ensures pool != [] ==> file == Some(pool)
    ensures pool == [] ==> file == earlier
  {
    if pool != [] then Some(pool) else earlier
  }

  /** One `generate_combined_histogram` call: `read_csv` of the pooled file, then the histogram. */
  function CombinedFromFile(file: Option<seq<Sample>>, path: string, groupedCombined: bool): (r: Result<Figure, HistError>)
    ensures file.None? ==> r == Failure(FileNotFound(path))
    ensures file.Some? ==> r == GenerateCombinedHistogram(file.value, groupedCombined)
  {
    if file.None? then Failure(FileNotFound(path)) else GenerateCombinedHistogram(file.value, groupedCombined)
  }

  /**
   * The four combined histograms, in call order: straight grouped, straight
   * single, bend grouped, bend single; the first exception stops the script.
   */
  function CombinedHistograms(straightFile: Option<seq<Sample>>, bendFile: Option<seq<Sample>>)
    : (r: Result<seq<Figure>, HistError>)
    ensures straightFile.None? ==> r == Failure(FileNotFound(StraightCsvPath))
    ensures straightFile.Some? && bendFile.None? && r.Failure? && r.error.FileNotFound? ==> r.error.path == BendCsvPath
    ensures r.Success? ==> |r.value| == 4
  {
    match CombinedFromFile(straightFile, StraightCsvPath, true)
    case Failure(e) => Failure(e)
    case Success(f1) =>
      match CombinedFromFile(straightFile, StraightCsvPath, false)
      case Failure(e) => Failure(e)
      case Success(f2) =>
        match CombinedFromFile(bendFile, BendCsvPath, true)
        case Failure(e) => Failure(e)
        case Success(f3) =>
          match CombinedFromFile(bendFile, BendCsvPath, false)
          case Failure(e) => Failure(e)
          case Success(f4) => Success([f1, f2, f3, f4])
  }

  /**
   * The combined histograms succeed exactly when both pooled files exist and
   * each of the four histograms can be drawn; they are then those four, in
   * call order.
   */
  lemma CombinedHistogramsMeans(straightFile: Option<seq<Sample>>, bendFile: Option<seq<Sample>>)
    ensures var r := CombinedHistograms(straightFile, bendFile);
            r.Success? <==>
              && straightFile.Some? && bendFile.Some?
              && GenerateCombinedHistogram(straightFile.value, true).Success?
              && GenerateCombinedHistogram(straightFile.value, false).Success?
              && GenerateCombinedHistogram(bendFile.value, true).Success?
              && GenerateCombinedHistogram(bendFile.value, false).Success?
    ensures var r := CombinedHistograms(straightFile, bendFile);
            r.Success? ==> r.value == [
              GenerateCombinedHistogram(straightFile.value, true).value,
              GenerateCombinedHistogram(straightFile.value, false).value,
              GenerateCombinedHistogram(bendFile.value, true).value,
              GenerateCombinedHistogram(bendFile.value, false).value]
  {
  }

  /**
   * The whole script after its metadata check: the per-folder histograms,
   * then the combined histograms of the two pools. `earlierStraight` and
   * `earlierBend` are the pooled files an earlier run may have left.
   */
  function HistogramRun(folders: seq<HistFolder>, directions: map<string, string>,
                        earlierStraight: Option<seq<Sample>>, earlierBend: Option<seq<Sample>>)
    : (r: Result<(seq<(string, Figure)>, seq<Figure>), HistError>)
    ensures Figures(folders, directions).Failure? ==> r == Failure(Figures(folders, directions).error)
    ensures r.Success? ==> r.value.0 == Figures(folders, directions).value && |r.value.1| == 4
  {
    match Figures(folders, directions)
    case Failure(e) => Failure(e)
    case Success(figures) =>
      var straight := PoolFile(Pool(folders, directions, "straight"), earlierStraight);
      var bend := PoolFile(Pool(folders, directions, "bend"), earlierBend);
      match CombinedHistograms(straight, bend)
      case Failure(e) => Failure(e)
      case Success(combined) => Success((figures, combined))
  }

  /**
   * On a fresh run (no pooled file left by an earlier one) the script fails
   * once its main loop is done whenever no present folder is marked
   * "straight": `read_csv` of the unwritten straight file raises.
   */
  lemma FreshRunNeedsStraightFolder(folders: seq<HistFolder>, directions: map<string, string>)
    requires Figures(folders, directions).Success?
    requires Pool(folders, directions, "straight") == []
    ensures HistogramRun(folders, directions, None, None) == Failure(FileNotFound(StraightCsvPath))
  {
  }

  /** The script: the main loop over fresh pools, then the combined histograms of those pools. */
  method RunHistograms(folders: seq<HistFolder>, directions: map<string, string>,
                       earlierStraight: Option<seq<Sample>>, earlierBend: Option<seq<Sample>>)
    returns (r: Result<(seq<(string, Figure)>, seq<Figure>), HistError>)
    ensures r == HistogramRun(folders, directions, earlierStraight, earlierBend)
  {
    var pools := new PoolAccumulator();
    var figures := MainLoop(folders, directions, pools);
    if figures.Failure? {
      return Failure(figures.error);
    }
    assert pools.straight == Pool(folders, directions, "straight");
    assert pools.bend == Pool(folders, directions, "bend");
    var combined := CombinedHistograms(PoolFile(pools.straight, earlierStraight), PoolFile(pools.bend, earlierBend));
    if combined.Failure? {
      return Failure(combined.error);
    }
    return Success((figures.value, combined.value));
  }
}

=== FILE: star_classes.dfy ===
/**
 * relion_classes_to_mod_files.py: reads a RELION particle STAR file, groups
 * the particles by tomogram (class, helical-tube id + 1, binned x, y, z) and
 * builds, per tomogram, the `point2model` command that turns its coordinate
 * text file into an IMOD model with one colour per class.
 *
 * The file is a sequence of lines; Python's iterator over it is a position in
 * that sequence. `int()` and `float()` are the parsers held in `Parsers`.
 */
module StarClasses {
  import opened Util
  import opened Text

  /** The exceptions that end the script early. */
  datatype StarError = StopIteration | IndexError | ValueError | ZeroDivisionError

  datatype Parsers = Parsers(parseInt: string -> Option<int>, parseFloat: string -> Option<real>)

  /** The six columns the script needs. */
  datatype Field = X | Y | Z | Contour | TomoName | ClassNr

  /** RLN_COLS: the STAR labels of the six columns. */
  function RlnField(name: string): Option<Field>
  {
    if name == "_rlnCoordinateX" then Some(X)
    else if name == "_rlnCoordinateY" then Some(Y)
    else if name == "_rlnCoordinateZ" then Some(Z)
    else if name == "_rlnHelicalTubeID" then Some(Contour)
    else if name == "_rlnTomoName" then Some(TomoName)
    else if name == "_rlnClassNumber" then Some(ClassNr)
    else None
  }

  /** Column positions found so far (0-based, as written in the header minus one). */
  type Columns = map<Field, int>

  predicate AllKnown(cols: Columns)
  {
    X in cols && Y in cols && Z in cols && Contour in cols && TomoName in cols && ClassNr in cols
  }

  // ---------------------------------------------------------------- header

  /**
   * One header line: when its first word is one of the six labels, that
   * column becomes `int(second word without '#') - 1`; a missing second word
   * is an IndexError and a non-integer one a ValueError. Other lines leave
   * the columns alone.
   */
  function HeaderLine(line: string, cols: Columns, p: Parsers): (r: Result<Columns, StarError>)
    ensures r.Success? ==> cols.Keys <= r.value.Keys
    ensures r.Failure? ==> r.error == IndexError || r.error == ValueError
  {
    var words := Words(Strip(line));
    if |words| > 0 && RlnField(words[0]).Some? then
      if |words| < 2 then Failure(IndexError)
      else
        match p.parseInt(StripChar(words[1], '#'))
        case None => Failure(ValueError)
        case Some(k) => Success(cols[RlnField(words[0]).value := k - 1])
    else Success(cols)
  }

  /**
   * A line changes the columns only when it is a label line with a column
   * number after the label, and then it sets that label's field to the
   * number minus one and leaves every other field as it was.
   */
  lemma HeaderLineChanges(line: string, cols: Columns, p: Parsers)
    ensures var r := HeaderLine(line, cols, p);
      r.Success? && r.value != cols ==> |Words(Strip(line))| >= 2 && RlnField(Words(Strip(line))[0]).Some?
    ensures var words := Words(Strip(line));
      |words| >= 2 && RlnField(words[0]).Some? && p.parseInt(StripChar(words[1], '#')).Some? ==>
        var r := HeaderLine(line, cols, p);
        var f := RlnField(words[0]).value;
        && r.Success?
        && f in r.value && r.value[f] == p.parseInt(StripChar(words[1], '#')).value - 1
        && forall g :: g != f ==> (g in r.value <==> g in cols) && (g in cols ==> r.value[g] == cols[g])
  {
    var words := Words(Strip(line));
    var r := HeaderLine(line, cols, p);
    if |words| >= 2 && RlnField(words[0]).Some? {
      var k := p.parseInt(StripChar(words[1], '#'));
      if k.Some? {
        assert r == Success(cols[RlnField(words[0]).value := k.value - 1]);
      }
    } else {
      assert r.Failure? || r.value == cols;
    }
  }

  /** One header line under fixed parsers. */
  type HeaderStep = (string, Columns) -> Result<Columns, StarError>

  function LabelStep(p: Parsers): HeaderStep
  {
    (line, cols) => HeaderLine(line, cols, p)
  }

  /**
   * The header scan from line `pos` on: it reads lines until every column is
   * known or the file ends, and yields the columns and the position of the
   * next unread line.
   */
  function ScanHeader(step: HeaderStep, lines: seq<string>, pos: nat, cols: Columns): (r: Result<(Columns, nat), StarError>)
    requires pos <= |lines|
    ensures r.Success? ==> pos <= r.value.1 <= |lines|
    ensures r.Success? ==> AllKnown(r.value.0) || r.value.1 == |lines|
    decreases |lines| - pos
  {
    if AllKnown(cols) || pos == |lines| then Success((cols, pos))
    else
      match step(lines[pos], cols)
      case Failure(e) => Failure(e)
      case Success(next) => ScanHeader(step, lines, pos + 1, next)
  }

  /** A step that never forgets a column it has found. */
  ghost predicate KeepsColumns(step: HeaderStep)
  {
    forall line, cols :: step(line, cols).Success? ==> cols.Keys <= step(line, cols).value.Keys
  }

  /** A step whose only exceptions are a missing or a non-integer column number. */
  ghost predicate RaisesOnColumnNumber(step: HeaderStep)
  {
    forall line, cols :: step(line, cols).Failure? ==>
      step(line, cols).error == IndexError || step(line, cols).error == ValueError
  }

  lemma LabelStepFacts(p: Parsers)
    ensures KeepsColumns(LabelStep(p)) && RaisesOnColumnNumber(LabelStep(p))
  {
    forall line, cols ensures LabelStep(p)(line, cols) == HeaderLine(line, cols, p) {
    }
  }

  /** The scan only adds columns, and fails only as one of its lines does. */
  lemma {:induction false} ScanHeaderKeys(step: HeaderStep, lines: seq<string>, pos: nat, cols: Columns)
    requires pos <= |lines| && KeepsColumns(step) && RaisesOnColumnNumber(step)
    ensures var r := ScanHeader(step, lines, pos, cols);
      && (r.Success? ==> cols.Keys <= r.value.0.Keys)
      && (r.Failure? ==> r.error == IndexError || r.error == ValueError)
    decreases |lines| - pos
  {
    if !AllKnown(cols) && pos < |lines| && step(lines[pos], cols).Success? {
      ScanHeaderKeys(step, lines, pos + 1, step(lines[pos], cols).value);
    }
  }

  /** Reading stops as soon as the six columns are known: later lines are not looked at. */
  lemma {:induction false} ScanStopsWhenKnown(step: HeaderStep, lines: seq<string>, more: seq<string>, pos: nat, cols: Columns)
    requires pos <= |lines|
    requires ScanHeader(step, lines, pos, cols).Success? && ScanHeader(step, lines, pos, cols).value.1 < |lines|
    ensures ScanHeader(step, lines + more, pos, cols) == ScanHeader(step, lines, pos, cols)
    decreases |lines| - pos
  {
    if !AllKnown(cols) {
      assert (lines + more)[pos] == lines[pos];
      ScanStopsWhenKnown(step, lines, more, pos + 1, step(lines[pos], cols).value);
    }
  }

  /** The `while any(i is None ...)` loop. */
  method FindColumns(lines: seq<string>, p: Parsers) returns (r: Result<(Columns, nat), StarError>)
    ensures r == ScanHeader(LabelStep(p), lines, 0, map[])
  {
    var cols: Columns := map[];
    var pos := 0;
    while !AllKnown(cols)
      invariant pos <= |lines|
      invariant ScanHeader(LabelStep(p), lines, pos, cols) == ScanHeader(LabelStep(p), lines, 0, map[])
      decreases |lines| - pos
    {
      if pos == |lines| {
        break;
      }
      var next := HeaderLine(lines[pos], cols, p);
      if next.Failure? {
        return Failure(next.error);
      }
      cols := next.value;
      pos := pos + 1;
    }
    r := Success((cols, pos));
  }

  // ------------------------------------------------------------ label lines

  /**
   * `next(iterator)` followed by skipping every line that starts with '_':
   * the position of the first data line, or StopIteration when the file ends
   * first.
   */
  function FirstDataLine(lines: seq<string>, pos: nat): (r: Result<nat, StarError>)
    requires pos <= |lines|
    ensures r.Success? ==> pos <= r.value < |lines| && !StartsWith(lines[r.value], "_")
    ensures r.Success? ==> forall k :: pos <= k < r.value ==> StartsWith(lines[k], "_")
    ensures r.Failure? <==> forall k :: pos <= k < |lines| ==> StartsWith(lines[k], "_")
    ensures r.Failure? ==> r.error == StopIteration
    decreases |lines| - pos
  {
    if pos == |lines| then Failure(StopIteration)
    else if StartsWith(lines[pos], "_") then FirstDataLine(lines, pos + 1)
    else Success(pos)
  }

  method SkipLabels(lines: seq<string>, pos: nat) returns (r: Result<nat, StarError>)
    requires pos <= |lines|
    ensures r == FirstDataLine(lines, pos)
  {
    if pos == |lines| {
      return Failure(StopIteration);
    }
    var at := pos;
    while StartsWith(lines[at], "_")
      invariant pos <= at < |lines|
      invariant FirstDataLine(lines, at) == FirstDataLine(lines, pos)
      decreases |lines| - at
    {
      at := at + 1;
      if at == |lines| {
        return Failure(StopIteration);
      }
    }
    r := Success(at);
  }

  // ------------------------------------------------------------- data rows

  /** One output tuple: class, contour (1-based), and the binned coordinates. */
  datatype Particle = Particle(cls: int, contour: int, x: real, y: real, z: real)

  datatype Row = Row(tomo: string, particle: Particle)

  /** `split[k]` with Python's indexing: negative positions count from the end. */
  function PyIndex(words: seq<string>, k: int): (r: Option<string>)
    ensures r.Some? <==> -|words| <= k < |words|
    ensures 0 <= k < |words| ==> r == Some(words[k])
    ensures -|words| <= k < 0 ==> r == Some(words[|words| + k])
  {
    if 0 <= k < |words| then Some(words[k])
    else if -|words| <= k < 0 then Some(words[|words| + k])
    else None
  }

  /** The word a column points at, if the line is long enough. */
  function WordAt(words: seq<string>, cols: Columns, f: Field): Option<string>
    requires f in cols
  {
    PyIndex(words, cols[f])
  }

  predicate InRange(words: seq<string>, cols: Columns)
    requires AllKnown(cols)
  {
    WordAt(words, cols, TomoName).Some? && WordAt(words, cols, Contour).Some? &&
    WordAt(words, cols, ClassNr).Some? && WordAt(words, cols, X).Some? &&
    WordAt(words, cols, Y).Some? && WordAt(words, cols, Z).Some?
  }

  /** Every column is present and parses: class and contour as integers, x, y, z as floats. */
  predicate WellFormed(words: seq<string>, cols: Columns, p: Parsers)
    requires AllKnown(cols)
  {
    InRange(words, cols) &&
    p.parseInt(WordAt(words, cols, ClassNr).value).Some? &&
    p.parseInt(WordAt(words, cols, Contour).value).Some? &&
    p.parseFloat(WordAt(words, cols, X).value).Some? &&
    p.parseFloat(WordAt(words, cols, Y).value).Some? &&
    p.parseFloat(WordAt(words, cols, Z).value).Some?
  }

  /** `row` holds what the line says: its tomogram, class, contour + 1 and coordinates divided by the binning. */
  predicate Describes(words: seq<string>, cols: Columns, binning: int, p: Parsers, row: Row)
    requires AllKnown(cols) && WellFormed(words, cols, p) && binning != 0
  {
    var b := binning as real;
    WordAt(words, cols, TomoName) == Some(row.tomo) &&
    p.parseInt(WordAt(words, cols, ClassNr).value) == Some(row.particle.cls) &&
    p.parseInt(WordAt(words, cols, Contour).value) == Some(row.particle.contour - 1) &&
    row.particle.x == p.parseFloat(WordAt(words, cols, X).value).value / b &&
    row.particle.y == p.parseFloat(WordAt(words, cols, Y).value).value / b &&
    row.particle.z == p.parseFloat(WordAt(words, cols, Z).value).value / b
  }

  /**
   * The body of the data loop for a non-blank line, in the order Python
   * evaluates it: the tomogram, contour and class words, `int` of the class,
   * the x, y and z words, then the tuple (`int(contour)+1`, `float(x)/binning`
   * and so on).
   */
  function ParseRow(words: seq<string>, cols: Columns, binning: int, p: Parsers): (r: Result<Row, StarError>)
    requires AllKnown(cols)
  {
    var tomo := PyIndex(words, cols[TomoName]);
    var contour := PyIndex(words, cols[Contour]);
    var classWord := PyIndex(words, cols[ClassNr]);
    if tomo.None? || contour.None? || classWord.None? then Failure(IndexError)
    else
      var cls := p.parseInt(classWord.value);
      if cls.None? then Failure(ValueError)
      else
        var x := PyIndex(words, cols[X]);
        var y := PyIndex(words, cols[Y]);
        var z := PyIndex(words, cols[Z]);
        if x.None? || y.None? || z.None? then Failure(IndexError)
        else
          var c := p.parseInt(contour.value);
          var xv := p.parseFloat(x.value);
          if c.None? || xv.None? then Failure(ValueError)
          else if binning == 0 then Failure(ZeroDivisionError)
          else
            var yv := p.parseFloat(y.value);
            var zv := p.parseFloat(z.value);
            if yv.None? || zv.None? then Failure(ValueError)
            else
              var b := binning as real;
              Success(Row(tomo.value, Particle(cls.value, c.value + 1, xv.value / b, yv.value / b, zv.value / b)))
  }

  /**
   * A line yields a row exactly when every column is present and parses and
   * the binning is not zero, and the row is what the line says; a short line
   * is an IndexError, an unparsable word a ValueError, a zero binning a
   * ZeroDivisionError.
   */
  lemma ParseRowMeaning(words: seq<string>, cols: Columns, binning: int, p: Parsers)
    requires AllKnown(cols)
    ensures var r := ParseRow(words, cols, binning, p);
      && (r.Success? <==> WellFormed(words, cols, p) && binning != 0)
      && (r.Success? ==> Describes(words, cols, binning, p, r.value))
      && (WellFormed(words, cols, p) && binning == 0 ==> r == Failure(ZeroDivisionError))
      && (r.Failure? ==> r.error != StopIteration)
      && (r.Failure? && InRange(words, cols) ==> r.error == ValueError || r.error == ZeroDivisionError)
  {
  }

  /** One data line: a blank line yields no row, any other is parsed. */
  function ParseLine(line: string, cols: Columns, binning: int, p: Parsers): Result<Option<Row>, StarError>
    requires AllKnown(cols)
  {
    var words := Words(Strip(line));
    if words == [] then Success(None)
    else
      match ParseRow(words, cols, binning, p)
      case Failure(e) => Failure(e)
      case Success(row) => Success(Some(row))
  }

  /** One data line under a fixed header, binning and parsers. */
  type LineParser = string -> Result<Option<Row>, StarError>

  function RowParser(cols: Columns, binning: int, p: Parsers): LineParser
    requires AllKnown(cols)
  {
    line => ParseLine(line, cols, binning, p)
  }

  /** The data lines parsed in file order; lines without a row are skipped, the first failing line stops. */
  function ParseRows(parse: LineParser, lines: seq<string>): (r: Result<seq<Row>, StarError>)
    ensures r.Success? ==> |r.value| <= |lines|
  {
    if lines == [] then Success([])
    else
      match ParseRows(parse, lines[..|lines| - 1])
      case Failure(e) => Failure(e)
      case Success(rows) =>
        match parse(lines[|lines| - 1])
        case Failure(e) => Failure(e)
        case Success(None) => Success(rows)
        case Success(Some(row)) => Success(rows + [row])
  }

  /** One more line: skipped when it yields no row, otherwise its row is appended, or its exception raised. */
  lemma ParseRowsStep(parse: LineParser, lines: seq<string>, line: string, rows: seq<Row>)
    requires ParseRows(parse, lines) == Success(rows)
    ensures ParseRows(parse, lines + [line]) ==
      match parse(line)
      case Failure(e) => Failure(e)
      case Success(None) => Success(rows)
      case Success(Some(row)) => Success(rows + [row])
  {
    assert (lines + [line])[..|lines|] == lines;
  }

  /** Blank lines add no particle. */
  lemma BlankLineSkipped(lines: seq<string>, blank: string, cols: Columns, binning: int, p: Parsers)
    requires AllKnown(cols) && Blank(blank)
    ensures ParseRows(RowParser(cols, binning, p), lines + [blank]) == ParseRows(RowParser(cols, binning, p), lines)
  {
    assert (lines + [blank])[..|lines|] == lines;
    WordsEmptyIffBlank(Strip(blank));
    assert Strip(blank) == [];
    assert RowParser(cols, binning, p)(blank) == Success(None);
  }

  /** Once a line fails, the whole data section fails with the same exception. */
  lemma {:induction false} FailureSticks(parse: LineParser, lines: seq<string>, more: seq<string>)
    requires ParseRows(parse, lines).Failure?
    ensures ParseRows(parse, lines + more) == ParseRows(parse, lines)
    decreases |more|
  {
    if more != [] {
      var all := lines + more;
      var init := more[..|more| - 1];
      assert all[..|all| - 1] == lines + init;
      FailureSticks(parse, lines, init);
    } else {
      assert lines + more == lines;
    }
  }

  /** A line that fails decides the result of every longer stretch of the data section. */
  lemma FailureDecides(parse: LineParser, lines: seq<string>, start: nat, stop: nat)
    requires start <= stop <= |lines|
    requires ParseRows(parse, lines[start..stop]).Failure?
    ensures ParseRows(parse, lines[start..]) == ParseRows(parse, lines[start..stop])
  {
    FailureSticks(parse, lines[start..stop], lines[stop..]);
    assert lines[start..stop] + lines[stop..] == lines[start..];
  }

  // ------------------------------------------------------------- grouping

  /**
   * `outputs` (a dict, so keys keep their first-insertion order) plus the
   * running `min_class` and `max_class`, both starting at 1.
   */
  datatype Outputs = Outputs(names: seq<string>, particles: map<string, seq<Particle>>, minClass: int, maxClass: int)

  /** The particles of one tomogram, in file order. */
  function ParticlesOf(rows: seq<Row>, tomo: string): (ps: seq<Particle>)
    ensures |ps| <= |rows|
  {
    if rows == [] then []
    else
      var last := rows[|rows| - 1];
      ParticlesOf(rows[..|rows| - 1], tomo) + (if last.tomo == tomo then [last.particle] else [])
  }

  /** One iteration of the data loop after the row is parsed. */
  function Add(out: Outputs, row: Row): Outputs
  {
    var t := row.tomo;
    var known := if t in out.particles then out.particles[t] else [];
    Outputs(if t in out.particles then out.names else out.names + [t],
            out.particles[t := known + [row.particle]],
            if row.particle.cls < out.minClass then row.particle.cls else out.minClass,
            if row.particle.cls > out.maxClass then row.particle.cls else out.maxClass)
  }

  predicate Distinct(names: seq<string>)
  {
    forall i, j :: 0 <= i < j < |names| ==> names[i] != names[j]
  }

  /** The dictionary after all rows, built one row at a time. */
  function Collect(rows: seq<Row>): Outputs
  {
    if rows == [] then Outputs([], map[], 1, 1)
    else Add(Collect(rows[..|rows| - 1]), rows[|rows| - 1])
  }

  /** Each tomogram's entry holds exactly its particles, in file order; tomograms without particles have none. */
  lemma {:induction false} CollectParticles(rows: seq<Row>, tomo: string)
    ensures tomo in Collect(rows).particles <==> ParticlesOf(rows, tomo) != []
    ensures tomo in Collect(rows).particles ==> Collect(rows).particles[tomo] == ParticlesOf(rows, tomo)
  {
    if rows != [] {
      CollectParticles(rows[..|rows| - 1], tomo);
    }
  }

  /** Every tomogram of the dictionary is listed exactly once in its key order. */
  lemma {:induction false} CollectNames(rows: seq<Row>)
    ensures Distinct(Collect(rows).names)
    ensures forall t :: t in Collect(rows).names <==> t in Collect(rows).particles
  {
    if rows != [] {
      var init := rows[..|rows| - 1];
      var last := rows[|rows| - 1];
      CollectNames(init);
      var prev := Collect(init);
      assert Collect(rows) == Add(prev, last);
      if last.tomo !in prev.particles {
        assert forall i :: 0 <= i < |prev.names| ==> prev.names[i] != last.tomo;
      }
    }
  }

  /** [lo, hi] is [1, 1] widened just enough to cover every class of `rows`. */
  predicate CoversClasses(rows: seq<Row>, lo: int, hi: int)
  {
    && lo <= 1 <= hi
    && (forall i :: 0 <= i < |rows| ==> lo <= rows[i].particle.cls <= hi)
    && (lo == 1 || exists i :: 0 <= i < |rows| && rows[i].particle.cls == lo)
    && (hi == 1 || exists i :: 0 <= i < |rows| && rows[i].particle.cls == hi)
  }

  lemma WidenRange(rows: seq<Row>, row: Row, lo: int, hi: int)
    requires CoversClasses(rows, lo, hi)
    ensures CoversClasses(rows + [row],
                          if row.particle.cls < lo then row.particle.cls else lo,
                          if row.particle.cls > hi then row.particle.cls else hi)
  {
    var all := rows + [row];
    assert forall i :: 0 <= i < |rows| ==> all[i] == rows[i];
    assert all[|rows|] == row;
  }

  /** `min_class` and `max_class` after all rows. */
  lemma {:induction false} ClassRange(rows: seq<Row>)
    ensures CoversClasses(rows, Collect(rows).minClass, Collect(rows).maxClass)
  {
    if rows != [] {
      var init := rows[..|rows| - 1];
      ClassRange(init);
      WidenRange(init, rows[|rows| - 1], Collect(init).minClass, Collect(init).maxClass);
      assert init + [rows[|rows| - 1]] == rows;
    }
  }

  /** A tomogram's first particle puts its name at the end of the list; later ones leave the order alone. */
  lemma NameOrder(rows: seq<Row>, row: Row)
    ensures row.tomo in Collect(rows).particles ==> Collect(rows + [row]).names == Collect(rows).names
    ensures row.tomo !in Collect(rows).particles ==> Collect(rows + [row]).names == Collect(rows).names + [row.tomo]
  {
    assert (rows + [row])[..|rows|] == rows;
  }

  /** The data section read through: its exception, or the dictionary of its rows. */
  function ReadAll(parse: LineParser, lines: seq<string>): Result<Outputs, StarError>
  {
    match ParseRows(parse, lines)
    case Failure(e) => Failure(e)
    case Success(rows) => Success(Collect(rows))
  }

  /** What one parsed line does to the dictionary. */
  function Absorb(parsed: Result<Option<Row>, StarError>, out: Outputs): Result<Outputs, StarError>
  {
    match parsed
    case Failure(e) => Failure(e)
    case Success(None) => Success(out)
    case Success(Some(row)) => Success(Add(out, row))
  }

  /** The data loop from line `i` on, with the dictionary `out` built so far. */
  function ReadFrom(parse: LineParser, lines: seq<string>, i: nat, out: Outputs): Result<Outputs, StarError>
    requires i <= |lines|
    decreases |lines| - i
  {
    if i == |lines| then Success(out)
    else
      match Absorb(parse(lines[i]), out)
      case Failure(e) => Failure(e)
      case Success(next) => ReadFrom(parse, lines, i + 1, next)
  }

  /**
   * Reading on from line `i` with the dictionary of the rows before it gives
   * the dictionary of all the rows, or the exception of the first failing line.
   */
  lemma {:induction false} ReadFromRows(parse: LineParser, lines: seq<string>, start: nat, i: nat, rows: seq<Row>)
    requires start <= i <= |lines|
    requires ParseRows(parse, lines[start..i]) == Success(rows)
    ensures ReadFrom(parse, lines, i, Collect(rows)) == ReadAll(parse, lines[start..])
    decreases |lines| - i
  {
    if i == |lines| {
      assert lines[start..i] == lines[start..];
    } else {
      SliceExtend(lines, start, i);
      ParseRowsStep(parse, lines[start..i], lines[i], rows);
      match parse(lines[i])
      case Failure(e) =>
        FailureDecides(parse, lines, start, i + 1);
      case Success(None) =>
        ReadFromRows(parse, lines, start, i + 1, rows);
      case Success(Some(row)) =>
        assert (rows + [row])[..|rows|] == rows;
        ReadFromRows(parse, lines, start, i + 1, rows + [row]);
    }
  }

  /**
   * The body of the data loop for one line: a blank line is skipped, any
   * other is parsed and its particle added to its tomogram's list.
   */
  method ReadLine(line: string, cols: Columns, binning: int, p: Parsers, out: Outputs) returns (r: Result<Outputs, StarError>)
    requires AllKnown(cols)
    ensures r == Absorb(ParseLine(line, cols, binning, p), out)
  {
    var words := Words(Strip(line));
    if words == [] {
      return Success(out);
    }
    var row := ParseRow(words, cols, binning, p);
    if row.Failure? {
      return Failure(row.error);
    }
    r := Success(Add(out, row.value));
  }

  /** The data loop (the `for line in chain([line], iterator)` loop). */
  method ReadParticles(lines: seq<string>, start: nat, cols: Columns, binning: int, p: Parsers)
    returns (r: Result<Outputs, StarError>)
    requires start <= |lines| && AllKnown(cols)
    ensures r == ReadAll(RowParser(cols, binning, p), lines[start..])
  {
    var out := Outputs([], map[], 1, 1);
    ReadFromRows(RowParser(cols, binning, p), lines, start, start, []);
    var i := start;
    while i < |lines|
      invariant start <= i <= |lines|
      invariant ReadFrom(RowParser(cols, binning, p), lines, i, out) == ReadAll(RowParser(cols, binning, p), lines[start..])
      decreases |lines| - i
    {
      var next := ReadLine(lines[i], cols, binning, p, out);
      if next.Failure? {
        return Failure(next.error);
      }
      out := next.value;
      i := i + 1;
    }
    r := Success(out);
  }

  // ------------------------------------------------------------ conversion

  datatype Rgb = Rgb(r: nat, g: nat, b: nat)

  /** MPL_COLORS: matplotlib's ten default colours. */
  const MplColors: seq<Rgb> := [
    Rgb(31, 119, 180), Rgb(255, 127, 14), Rgb(44, 160, 44), Rgb(214, 39, 40),
    Rgb(148, 103, 189), Rgb(140, 86, 75), Rgb(227, 119, 194), Rgb(127, 127, 127),
    Rgb(188, 189, 34), Rgb(23, 190, 207)]

  /**
   * `[MPL_COLORS[i] for i in range(0, max_class - min_class + 1)]`: the first
   * colours, one per class in the range; more than ten classes is an
   * IndexError.
   */
  function UsedColors(minClass: int, maxClass: int): (r: Result<seq<Rgb>, StarError>)
    ensures r.Success? <==> maxClass - minClass + 1 <= |MplColors|
    ensures r.Success? ==> |r.value| <= |MplColors|
    ensures r.Success? && minClass <= maxClass ==> |r.value| == maxClass - minClass + 1
    ensures r.Success? ==> forall i :: 0 <= i < |r.value| ==> r.value[i] == MplColors[i]
    ensures r.Failure? ==> r.error == IndexError
  {
    var count := maxClass - minClass + 1;
    if count > |MplColors| then Failure(IndexError)
    else if count <= 0 then Success([])
    else Success(MplColors[..count])
  }

  /** The text file written for a tomogram. */
  function CoordinatesName(tomo: string): string
  {
    tomo + "_coordinates.txt"
  }

  /** `name.split('.')[0] + '.mod'`. */
  function ModName(name: string): string
  {
    SplitOn(name, '.')[0] + ".mod"
  }

  /** Every model file name ends in `.mod`. */
  lemma ModNameSuffix(name: string)
    ensures |ModName(name)| >= 4 && ModName(name)[|ModName(name)| - 4..] == ".mod"
  {
  }

  /**
   * For a tomogram name without a dot, the model file is the coordinates
   * file with `.txt` replaced by `.mod`; a dotted name keeps only its part
   * before the first dot.
   */
  lemma ModNameOfCoordinates(tomo: string)
    ensures '.' !in tomo ==> ModName(CoordinatesName(tomo)) == tomo + "_coordinates.mod"
    ensures forall a, b :: tomo == a + "." + b && '.' !in a ==> ModName(CoordinatesName(tomo)) == a + ".mod"
  {
    if '.' !in tomo {
      assert CoordinatesName(tomo) == (tomo + "_coordinates") + ['.'] + "txt";
      SplitOnHead(tomo + "_coordinates", "txt", '.');
    }
    forall a, b | tomo == a + "." + b && '.' !in a
      ensures ModName(CoordinatesName(tomo)) == a + ".mod"
    {
      assert CoordinatesName(tomo) == a + ['.'] + (b + "_coordinates.txt");
      SplitOnHead(a, b + "_coordinates.txt", '.');
    }
  }

  /** `f"{c[0]},{c[1]},{c[2]}"`. */
  function ColorArgument(c: Rgb): string
  {
    NatToDecimal(c.r) + "," + NatToDecimal(c.g) + "," + NatToDecimal(c.b)
  }

  /** The `-color r,g,b` pairs, one per used colour, in order. */
  function ColorOptions(colors: seq<Rgb>): (opts: seq<string>)
    ensures |opts| == 2 * |colors|
  {
    if colors == [] then []
    else ColorOptions(colors[..|colors| - 1]) + ["-color", ColorArgument(colors[|colors| - 1])]
  }

  /** Colour `k` is passed as the `k`-th `-color` option. */
  lemma {:induction false} ColorOptionAt(colors: seq<Rgb>, k: nat)
    requires k < |colors|
    ensures ColorOptions(colors)[2 * k] == "-color" && ColorOptions(colors)[2 * k + 1] == ColorArgument(colors[k])
  {
    var init := colors[..|colors| - 1];
    if k < |init| {
      ColorOptionAt(init, k);
      assert init[k] == colors[k];
    }
  }

  /** The `point2model` command for one coordinates file. */
  function Command(name: string, colors: seq<Rgb>): seq<string>
  {
    ["point2model", "-sphere", "5"] + ColorOptions(colors) + [name, ModName(name)]
  }

  /**
   * The command runs `point2model -sphere 5`, then one `-color r,g,b` pair
   * per class colour in order, then the input file and its model file.
   */
  lemma CommandLayout(name: string, colors: seq<Rgb>)
    ensures var cmd := Command(name, colors);
      && |cmd| == 5 + 2 * |colors|
      && cmd[0] == "point2model" && cmd[1] == "-sphere" && cmd[2] == "5"
      && (forall k :: 0 <= k < |colors| ==> cmd[3 + 2 * k] == "-color" && cmd[4 + 2 * k] == ColorArgument(colors[k]))
      && cmd[|cmd| - 2] == name && cmd[|cmd| - 1] == ModName(name)
  {
    var opts := ColorOptions(colors);
    var cmd := Command(name, colors);
    assert forall k :: 0 <= k < |opts| ==> cmd[3 + k] == opts[k];
    forall k | 0 <= k < |colors|
      ensures cmd[3 + 2 * k] == "-color" && cmd[4 + 2 * k] == ColorArgument(colors[k])
    {
      ColorOptionAt(colors, k);
    }
  }

  method BuildCommand(name: string, colors: seq<Rgb>) returns (cmd: seq<string>)
    ensures cmd == Command(name, colors)
  {
    cmd := ["point2model", "-sphere", "5"];
    var i := 0;
    while i < |colors|
      invariant i <= |colors|
      invariant cmd == ["point2model", "-sphere", "5"] + ColorOptions(colors[..i])
    {
      assert colors[..i + 1][..i] == colors[..i];
      cmd := cmd + ["-color", ColorArgument(colors[i])];
      i := i + 1;
    }
    assert colors[..i] == colors;
    cmd := cmd + [name, ModName(name)];
  }

  /**
   * What the script produces once the STAR file is read: the coordinates
   * files it writes, then either the commands it runs or the IndexError
   * that the palette raises after the files are written.
   */
  datatype Conversion = Conversion(outputs: Outputs, files: seq<string>, commands: Result<seq<seq<string>>, StarError>)

  /** The files written, one per tomogram in dictionary order, then one command per file. */
  function Convert(out: Outputs): (r: Conversion)
    ensures r.outputs == out && |r.files| == |out.names|
    ensures forall i :: 0 <= i < |out.names| ==> r.files[i] == CoordinatesName(out.names[i])
    ensures r.commands.Failure? <==> UsedColors(out.minClass, out.maxClass).Failure?
    ensures r.commands.Failure? ==> r.commands.error == IndexError
    ensures r.commands.Success? ==> |r.commands.value| == |out.names| && forall i :: 0 <= i < |out.names| ==>
      r.commands.value[i] == Command(CoordinatesName(out.names[i]), UsedColors(out.minClass, out.maxClass).value)
  {
    var files := seq(|out.names|, i requires 0 <= i < |out.names| => CoordinatesName(out.names[i]));
    match UsedColors(out.minClass, out.maxClass)
    case Failure(e) => Conversion(out, files, Failure(e))
    case Success(colors) =>
      Conversion(out, files, Success(seq(|files|, i requires 0 <= i < |files| => Command(files[i], colors))))
  }

  /** The two loops after the file is read: write the files, then build the commands. */
  method ConvertFiles(out: Outputs) returns (r: Conversion)
    ensures r == Convert(out)
  {
    var files := WriteCoordinateFiles(out.names);
    var colors := UsedColors(out.minClass, out.maxClass);
    if colors.Failure? {
      WrittenBeforeRaise(out, files);
      return Conversion(out, files, Failure(colors.error));
    }
    var commands := BuildCommands(files, colors.value);
    ConvertOfLoops(out, colors.value, files, commands);
    r := Conversion(out, files, Success(commands));
  }

  /** When the palette raises, the files the first loop wrote are the ones `Convert` reports. */
  lemma WrittenBeforeRaise(out: Outputs, files: seq<string>)
    requires UsedColors(out.minClass, out.maxClass).Failure?
    requires |files| == |out.names| && forall k :: 0 <= k < |files| ==> files[k] == CoordinatesName(out.names[k])
    ensures Convert(out) == Conversion(out, files, Failure(UsedColors(out.minClass, out.maxClass).error))
  {
    assert files == seq(|out.names|, i requires 0 <= i < |out.names| => CoordinatesName(out.names[i]));
  }

  /** The first loop: one coordinates file per tomogram, in output order. */
  method WriteCoordinateFiles(names: seq<string>) returns (files: seq<string>)
    ensures |files| == |names| && forall k :: 0 <= k < |files| ==> files[k] == CoordinatesName(names[k])
  {
    files := [];
    var i := 0;
    while i < |names|
      invariant i <= |names|
      invariant |files| == i
      invariant forall k :: 0 <= k < i ==> files[k] == CoordinatesName(names[k])
    {
      files := files + [CoordinatesName(names[i])];
      i := i + 1;
    }
  }

  /** The second loop: one `point2model` command per coordinates file. */
  method BuildCommands(files: seq<string>, colors: seq<Rgb>) returns (commands: seq<seq<string>>)
    ensures |commands| == |files| && forall k :: 0 <= k < |commands| ==> commands[k] == Command(files[k], colors)
  {
    commands := [];
    var j := 0;
    while j < |files|
      invariant j <= |files|
      invariant |commands| == j
      invariant forall k :: 0 <= k < j ==> commands[k] == Command(files[k], colors)
    {
      var cmd := BuildCommand(files[j], colors);
      commands := commands + [cmd];
      j := j + 1;
    }
  }

  /** The lists the two loops build are the ones `Convert` describes. */
  lemma ConvertOfLoops(out: Outputs, colors: seq<Rgb>, files: seq<string>, commands: seq<seq<string>>)
    requires UsedColors(out.minClass, out.maxClass) == Success(colors)
    requires |files| == |out.names| && forall k :: 0 <= k < |files| ==> files[k] == CoordinatesName(out.names[k])
    requires |commands| == |files| && forall k :: 0 <= k < |commands| ==> commands[k] == Command(files[k], colors)
    ensures Convert(out) == Conversion(out, files, Success(commands))
  {
    assert files == seq(|out.names|, i requires 0 <= i < |out.names| => CoordinatesName(out.names[i]));
    assert commands == seq(|files|, i requires 0 <= i < |files| => Command(files[i], colors));
  }

  // ------------------------------------------------------------ main

  /**
   * `main(starfile, binning)` on the lines of the STAR file. A failure is
   * an exception raised before any file is written; the palette's
   * IndexError comes after the coordinates files and sits in the conversion.
   */
  function ClassesToMod(lines: seq<string>, binning: int, p: Parsers): (r: Result<Conversion, StarError>)
  {
    match ScanHeader(LabelStep(p), lines, 0, map[])
    case Failure(e) => Failure(e)
    case Success((cols, pos)) =>
      match FirstDataLine(lines, pos)
      case Failure(e) => Failure(e)
      case Success(start) =>
        assert AllKnown(cols);
        match ReadAll(RowParser(cols, binning, p), lines[start..])
        case Failure(e) => Failure(e)
        case Success(out) => Success(Convert(out))
  }

  /**
   * A file that never names all six columns ends in StopIteration (the
   * header scan reaches the end of the file), unless a malformed header
   * line raises first.
   */
  lemma MissingColumnStops(lines: seq<string>, binning: int, p: Parsers)
    requires ScanHeader(LabelStep(p), lines, 0, map[]).Success?
    requires !AllKnown(ScanHeader(LabelStep(p), lines, 0, map[]).value.0)
    ensures ClassesToMod(lines, binning, p) == Failure(StopIteration)
  {
  }

  /**
   * A run that reads the whole file writes one coordinates file per
   * tomogram it grouped, whether or not the palette then raises.
   */
  lemma OneFilePerTomogram(lines: seq<string>, binning: int, p: Parsers, tomo: string)
    requires ClassesToMod(lines, binning, p).Success?
    requires tomo in ClassesToMod(lines, binning, p).value.outputs.names
    ensures CoordinatesName(tomo) in ClassesToMod(lines, binning, p).value.files
  {
    var c := ClassesToMod(lines, binning, p).value;
    var i :| 0 <= i < |c.outputs.names| && c.outputs.names[i] == tomo;
    assert c.files[i] == CoordinatesName(tomo);
  }

  method RelionClassesToMod(lines: seq<string>, binning: int, p: Parsers) returns (r: Result<Conversion, StarError>)
    ensures r == ClassesToMod(lines, binning, p)
  {
    var header := FindColumns(lines, p);
    if header.Failure? {
      return Failure(header.error);
    }
    var (cols, pos) := header.value;
    var start := SkipLabels(lines, pos);
    if start.Failure? {
      return Failure(start.error);
    }
    var out := ReadParticles(lines, start.value, cols, binning, p);
    if out.Failure? {
      return Failure(out.error);
    }
    var conversion := ConvertFiles(out.value);
    r := Success(conversion);
  }
}

=== FILE: tally.dfy ===
/**
 * pandas' `value_counts().sort_index()` on an integer column: one row per
 * distinct value, in ascending order, with the number of times it occurs.
 * Also gives the sorted distinct values that `pivot_table` uses as its index
 * and columns.
 */
module Tally {

  function Occurrences(xs: seq<int>, v: int): (n: nat)
    ensures n <= |xs|
    ensures n > 0 <==> v in xs
  {
    if xs == [] then 0 else (if xs[0] == v then 1 else 0) + Occurrences(xs[1..], v)
  }

  function Minimum(xs: seq<int>): (m: int)
    requires xs != []
    ensures m in xs
    ensures forall i :: 0 <= i < |xs| ==> m <= xs[i]
  {
    if |xs| == 1 then xs[0]
    else
      var m := Minimum(xs[1..]);
      if xs[0] <= m then xs[0] else m
  }

  /** The column with every occurrence of `v` filtered out. */
  function Without(xs: seq<int>, v: int): (ys: seq<int>)
    ensures |ys| == |xs| - Occurrences(xs, v)
    ensures forall u :: u in ys <==> u in xs && u != v
    ensures forall u :: u != v ==> Occurrences(ys, u) == Occurrences(xs, u)
  {
    if xs == [] then []
    else if xs[0] == v then Without(xs[1..], v)
    else
      var r := Without(xs[1..], v);
      assert ([xs[0]] + r)[1..] == r;
      [xs[0]] + r
  }

  datatype ValueCount = ValueCount(value: int, count: nat)

  function Keys(rows: seq<ValueCount>): (ks: seq<int>)
    ensures |ks| == |rows|
    ensures forall i :: 0 <= i < |rows| ==> ks[i] == rows[i].value
  {
    if rows == [] then [] else [rows[0].value] + Keys(rows[1..])
  }

  function TotalCount(rows: seq<ValueCount>): nat
  {
    if rows == [] then 0 else rows[0].count + TotalCount(rows[1..])
  }

  predicate StrictlyIncreasing(ks: seq<int>)
  {
    forall i, j :: 0 <= i < j < |ks| ==> ks[i] < ks[j]
  }

  /** pandas' `value_counts().sort_index()`: the minimum's row, then the rows of the other values. */
  function ValueCounts(xs: seq<int>): seq<ValueCount>
    decreases |xs|
  {
    if xs == [] then []
    else
      var m := Minimum(xs);
      [ValueCount(m, Occurrences(xs, m))] + ValueCounts(Without(xs, m))
  }

  /** One row per distinct value, ascending, each with its (positive) number of occurrences. */
  lemma {:induction false} ValueCountsFacts(xs: seq<int>)
    ensures StrictlyIncreasing(Keys(ValueCounts(xs)))
    ensures forall i :: 0 <= i < |ValueCounts(xs)| ==>
              1 <= ValueCounts(xs)[i].count == Occurrences(xs, ValueCounts(xs)[i].value)
    ensures forall v :: v in xs <==> v in Keys(ValueCounts(xs))
    ensures TotalCount(ValueCounts(xs)) == |xs|
    decreases |xs|
  {
    if xs != [] {
      var m := Minimum(xs);
      var rest := ValueCounts(Without(xs, m));
      var rows := ValueCounts(xs);
      assert rows == [ValueCount(m, Occurrences(xs, m))] + rest;
      ValueCountsFacts(Without(xs, m));
      PrependIncreasing(xs, m, rest, rows);
      PrependCounts(xs, m, rest, rows);
      PrependMembers(xs, m, rest, rows);
      PrependTotal(xs, m, rest, rows);
    }
  }

  // Putting the minimum's row in front of the rows of the other values keeps
  // each property of ValueCounts; one lemma per property.

  lemma PrependIncreasing(xs: seq<int>, m: int, rest: seq<ValueCount>, rows: seq<ValueCount>)
    requires xs != [] && m == Minimum(xs)
    requires StrictlyIncreasing(Keys(rest))
    requires forall v :: v in Without(xs, m) <==> v in Keys(rest)
    requires rows == [ValueCount(m, Occurrences(xs, m))] + rest
    ensures StrictlyIncreasing(Keys(rows))
  {
    assert Keys(rows) == [m] + Keys(rest) by {
      assert rows[1..] == rest;
    }
    forall k | 0 <= k < |rest|
      ensures m < Keys(rest)[k]
    {
      assert Keys(rest)[k] in Without(xs, m);
    }
  }

  lemma PrependCounts(xs: seq<int>, m: int, rest: seq<ValueCount>, rows: seq<ValueCount>)
    requires xs != [] && m == Minimum(xs)
    requires forall i :: 0 <= i < |rest| ==> 1 <= rest[i].count == Occurrences(Without(xs, m), rest[i].value)
    requires rows == [ValueCount(m, Occurrences(xs, m))] + rest
    ensures forall i :: 0 <= i < |rows| ==> 1 <= rows[i].count == Occurrences(xs, rows[i].value)
  {
    forall i | 0 <= i < |rows|
      ensures 1 <= rows[i].count == Occurrences(xs, rows[i].value)
    {
      if i > 0 {
        var row := rest[i - 1];
        assert rows[i] == row;
        OccurrencesWithout(xs, m, row.value);
      }
    }
  }

  /** Filtering out `m` keeps the count of every value that is left. */
  lemma OccurrencesWithout(xs: seq<int>, m: int, v: int)
    requires Occurrences(Without(xs, m), v) > 0
    ensures Occurrences(Without(xs, m), v) == Occurrences(xs, v)
  {
  }

  lemma PrependMembers(xs: seq<int>, m: int, rest: seq<ValueCount>, rows: seq<ValueCount>)
    requires xs != [] && m == Minimum(xs)
    requires forall v :: v in Without(xs, m) <==> v in Keys(rest)
    requires rows == [ValueCount(m, Occurrences(xs, m))] + rest
    ensures forall v :: v in xs <==> v in Keys(rows)
  {
    assert Keys(rows) == [m] + Keys(rest) by {
      assert rows[1..] == rest;
    }
  }

  lemma PrependTotal(xs: seq<int>, m: int, rest: seq<ValueCount>, rows: seq<ValueCount>)
    requires TotalCount(rest) == |Without(xs, m)|
    requires rows == [ValueCount(m, Occurrences(xs, m))] + rest
    ensures TotalCount(rows) == |xs|
  {
    assert rows[1..] == rest;
  }

  /** The distinct values of a column, ascending (pandas' sorted unique index). */
  function SortedDistinct(xs: seq<int>): (ks: seq<int>)
    ensures StrictlyIncreasing(ks)
    ensures forall v :: v in xs <==> v in ks
  {
    ValueCountsFacts(xs);
    Keys(ValueCounts(xs))
  }
}

=== FILE: text.dfy ===
/**
 * The few Python `str` operations the scripts rely on: `split()` on runs of
 * whitespace, `strip()`, `strip(c)`, `split(sep)`, `sep.join(parts)`,
 * `startswith`, and decimal rendering of a natural number.
 */
module Text {

  /** Python's whitespace, the characters `str.isspace` accepts (what `split()` and `strip()` remove). */
  predicate IsSpace(c: char)
  {
    c as int in WhitespaceCodes
  }

  const WhitespaceCodes: set<int> :=
    {9, 10, 11, 12, 13, 28, 29, 30, 31, 32, 0x85, 0xA0, 0x1680,
     0x2000, 0x2001, 0x2002, 0x2003, 0x2004, 0x2005, 0x2006, 0x2007, 0x2008, 0x2009, 0x200A,
     0x2028, 0x2029, 0x202F, 0x205F, 0x3000}

  /** A line holding nothing but whitespace (possibly nothing at all). */
  predicate Blank(s: string)
  {
    forall i :: 0 <= i < |s| ==> IsSpace(s[i])
  }

  predicate StartsWith(s: string, prefix: string)
  {
    |prefix| <= |s| && s[..|prefix|] == prefix
  }

  /** Length of the leading run of non-whitespace characters. */
  function TokenLength(s: string): (n: nat)
    ensures n <= |s|
    ensures forall i :: 0 <= i < n ==> !IsSpace(s[i])
    ensures n < |s| ==> IsSpace(s[n])
  {
    if s == [] || IsSpace(s[0]) then 0 else 1 + TokenLength(s[1..])
  }

  /** Python's `s.split()`: the maximal runs of non-whitespace, in order. */
  function Words(s: string): (ws: seq<string>)
    ensures forall k :: 0 <= k < |ws| ==> ws[k] != []
    ensures forall k, i :: 0 <= k < |ws| && 0 <= i < |ws[k]| ==> !IsSpace(ws[k][i])
    decreases |s|
  {
    if s == [] then []
    else if IsSpace(s[0]) then Words(s[1..])
    else
      var n := TokenLength(s);
      [s[..n]] + Words(s[n..])
  }

  lemma {:induction false} WordsEmptyIffBlank(s: string)
    ensures Words(s) == [] <==> Blank(s)
    decreases |s|
  {
    if s != [] {
      if IsSpace(s[0]) {
        WordsEmptyIffBlank(s[1..]);
        assert Blank(s) <==> Blank(s[1..]) by {
          if Blank(s[1..]) {
            forall i | 0 <= i < |s| ensures IsSpace(s[i]) {
              if i > 0 { assert s[i] == s[1..][i - 1]; }
            }
          }
        }
      } else {
        assert !Blank(s);
      }
    }
  }

  /** The text rebuilt from its gaps and its words: `gaps[0] + ws[0] + gaps[1] + … + gaps[|ws|]`. */
  function Interleave(gaps: seq<string>, ws: seq<string>): string
    requires |gaps| == |ws| + 1
  {
    if ws == [] then gaps[0] else gaps[0] + ws[0] + Interleave(gaps[1..], ws[1..])
  }

  /** Gaps of whitespace that keep apart the words they separate. */
  predicate Separating(gaps: seq<string>)
  {
    (forall k :: 0 <= k < |gaps| ==> Blank(gaps[k])) && (forall k :: 0 < k < |gaps| - 1 ==> gaps[k] != [])
  }

  /**
   * The words of `s` are its maximal non-whitespace runs, in order: `s` is
   * the words interleaved with whitespace gaps, each inner gap non-empty.
   */
  lemma {:induction false} WordsAreMaximalRuns(s: string) returns (gaps: seq<string>)
    ensures |gaps| == |Words(s)| + 1
    ensures Separating(gaps)
    ensures Interleave(gaps, Words(s)) == s
    decreases |s|
  {
    if s == [] {
      gaps := [""];
    } else if IsSpace(s[0]) {
      var g := WordsAreMaximalRuns(s[1..]);
      gaps := GapsAfterSpace(s, g);
    } else {
      var g := WordsAreMaximalRuns(s[TokenLength(s)..]);
      gaps := GapsAfterWord(s, g);
    }
  }

  /** A leading whitespace character joins the first gap of the rest of the line. */
  lemma GapsAfterSpace(s: string, g: seq<string>) returns (gaps: seq<string>)
    requires s != [] && IsSpace(s[0])
    requires |g| == |Words(s[1..])| + 1 && Separating(g) && Interleave(g, Words(s[1..])) == s[1..]
    ensures |gaps| == |Words(s)| + 1 && Separating(gaps) && Interleave(gaps, Words(s)) == s
  {
    var ws := Words(s[1..]);
    assert Words(s) == ws;
    var first := [s[0]] + g[0];
    gaps := [first] + g[1..];
    assert Blank(first) by {
      forall i | 0 <= i < |first| ensures IsSpace(first[i]) {
        if i > 0 {
          assert first[i] == g[0][i - 1];
        }
      }
    }
    forall k | 0 < k < |gaps| ensures gaps[k] == g[k] {
    }
    InterleaveWidensFirstGap(s[0], g, ws);
    assert [s[0]] + s[1..] == s;
  }

  /** Putting a character in front of the first gap puts it in front of the whole line. */
  lemma InterleaveWidensFirstGap(c: char, g: seq<string>, ws: seq<string>)
    requires |g| == |ws| + 1
    ensures Interleave([[c] + g[0]] + g[1..], ws) == [c] + Interleave(g, ws)
  {
    var gaps := [[c] + g[0]] + g[1..];
    if ws != [] {
      assert gaps[1..] == g[1..];
      var tail := ws[0] + Interleave(g[1..], ws[1..]);
      assert Interleave(gaps, ws) == gaps[0] + tail;
      assert Interleave(g, ws) == g[0] + tail;
      assert ([c] + g[0]) + tail == [c] + (g[0] + tail);
    }
  }

  /** A leading word is preceded by an empty gap and followed by the gaps of the rest. */
  lemma GapsAfterWord(s: string, g: seq<string>) returns (gaps: seq<string>)
    requires s != [] && !IsSpace(s[0])
    requires var rest := s[TokenLength(s)..];
             |g| == |Words(rest)| + 1 && Separating(g) && Interleave(g, Words(rest)) == rest
    ensures |gaps| == |Words(s)| + 1 && Separating(gaps) && Interleave(gaps, Words(s)) == s
  {
    var n := TokenLength(s);
    var ws := Words(s[n..]);
    gaps := [""] + g;
    assert gaps[1..] == g;
    assert Interleave(gaps, [s[..n]] + ws) == s[..n] + Interleave(g, ws) by {
      assert ([s[..n]] + ws)[1..] == ws;
    }
    assert s[..n] + s[n..] == s;
    GapAfterWord(s, g);
    forall k | 0 <= k < |gaps| ensures Blank(gaps[k]) {
      if k > 0 {
        assert gaps[k] == g[k - 1];
      }
    }
  }

  /** A word run ends at whitespace, so when another word follows, the gap after it is not empty. */
  lemma GapAfterWord(s: string, g: seq<string>)
    requires s != [] && !IsSpace(s[0])
    requires var rest := s[TokenLength(s)..];
             |g| == |Words(rest)| + 1 && Interleave(g, Words(rest)) == rest
    ensures Words(s[TokenLength(s)..]) != [] ==> g[0] != []
  {
    var n := TokenLength(s);
    var ws := Words(s[n..]);
    if ws != [] {
      var word, head := ws[0], ws[0][0];
      var rest, tail := s[n..], Interleave(g[1..], ws[1..]);
      assert rest == g[0] + word + tail;
      var first := rest[0];
      assert g[0] == [] ==> rest == word + tail;
      assert g[0] == [] ==> first == head;
      assert IsSpace(first) && !IsSpace(head);
    }
  }

  function TrimStart(s: string): (r: string)
    ensures |r| <= |s| && r == s[|s| - |r|..]
    ensures r != [] ==> !IsSpace(r[0])
    ensures r == [] <==> Blank(s)
  {
    if s == [] then s
    else if IsSpace(s[0]) then
      var r := TrimStart(s[1..]);
      assert Blank(s[1..]) ==> Blank(s) by {
        if Blank(s[1..]) {
          forall i | 0 <= i < |s| ensures IsSpace(s[i]) {
            if i > 0 { assert s[i] == s[1..][i - 1]; }
          }
        }
      }
      r
    else s
  }

  function TrimEnd(s: string): (r: string)
    ensures |r| <= |s| && r == s[..|r|]
    ensures r != [] ==> !IsSpace(r[|r| - 1])
    ensures r == [] <==> Blank(s)
  {
    if s == [] then s
    else if IsSpace(s[|s| - 1]) then
      var s' := s[..|s| - 1];
      var r := TrimEnd(s');
      assert Blank(s') ==> Blank(s) by {
        if Blank(s') {
          forall i | 0 <= i < |s| ensures IsSpace(s[i]) {
            if i < |s| - 1 { assert s[i] == s'[i]; }
          }
        }
      }
      r
    else s
  }

  /** Python's `s.strip()`. */
  function Strip(s: string): (r: string)
    ensures r == [] <==> Blank(s)
    ensures r != [] ==> !IsSpace(r[0]) && !IsSpace(r[|r| - 1])
  {
    var t := TrimStart(s);
    var r := TrimEnd(t);
    assert r != [] ==> r[0] == t[0];
    r
  }

  /** What `TrimStart` drops is whitespace. */
  lemma {:induction false} TrimStartDropsBlank(s: string)
    ensures Blank(s[..|s| - |TrimStart(s)|])
    decreases |s|
  {
    if s != [] && IsSpace(s[0]) {
      TrimStartDropsBlank(s[1..]);
      var d := s[..|s| - |TrimStart(s)|];
      forall i | 0 <= i < |d| ensures IsSpace(d[i]) {
        if i > 0 { assert d[i] == s[1..][..|s| - 1 - |TrimStart(s[1..])|][i - 1]; }
      }
    }
  }

  /** What `TrimEnd` drops is whitespace. */
  lemma {:induction false} TrimEndDropsBlank(s: string)
    ensures Blank(s[|TrimEnd(s)|..])
    decreases |s|
  {
    if s != [] && IsSpace(s[|s| - 1]) {
      var s' := s[..|s| - 1];
      TrimEndDropsBlank(s');
      var d := s[|TrimEnd(s)|..];
      forall i | 0 <= i < |d| ensures IsSpace(d[i]) {
        if i < |d| - 1 { assert d[i] == s'[|TrimEnd(s')|..][i]; }
      }
    }
  }

  /**
   * `strip()` keeps the middle of the text and removes only whitespace: the
   * result is the slice `s[i..i + |r|]`, with blank text on either side of it,
   * and it neither starts nor ends with whitespace.
   */
  lemma StripMeans(s: string) returns (i: nat)
    ensures i + |Strip(s)| <= |s|
    ensures Strip(s) == s[i..i + |Strip(s)|]
    ensures Blank(s[..i]) && Blank(s[i + |Strip(s)|..])
  {
    var t := TrimStart(s);
    var r := TrimEnd(t);
    i := |s| - |t|;
    TrimStartDropsBlank(s);
    TrimEndDropsBlank(t);
    assert t[|r|..] == s[i + |r|..];
  }

  /** Python's `s.strip(c)`: leading and trailing copies of `c` removed. */
  function StripChar(s: string, c: char): (r: string)
    ensures r != [] ==> r[0] != c && r[|r| - 1] != c
    ensures |r| <= |s|
    decreases |s|
  {
    if s == [] then s
    else if s[0] == c then StripChar(s[1..], c)
    else if s[|s| - 1] == c then StripChar(s[..|s| - 1], c)
    else s
  }

  /**
   * `strip(c)` removes only copies of `c`, and only at the ends: the result is
   * a slice `s[i..j]` with nothing but `c` before and after it.
   */
  lemma {:induction false} StripCharMeans(s: string, c: char) returns (i: nat, j: nat)
    ensures i <= j <= |s| && StripChar(s, c) == s[i..j]
    ensures forall k :: 0 <= k < i ==> s[k] == c
    ensures forall k :: j <= k < |s| ==> s[k] == c
    decreases |s|
  {
    if s == [] {
      i, j := 0, 0;
    } else if s[0] == c {
      var i', j' := StripCharMeans(s[1..], c);
      i, j := i' + 1, j' + 1;
      assert s[1..][i'..j'] == s[i..j];
      forall k | 0 < k < i ensures s[k] == c {
        assert s[k] == s[1..][k - 1];
      }
      forall k | j <= k < |s| ensures s[k] == c {
        assert s[k] == s[1..][k - 1];
      }
    } else if s[|s| - 1] == c {
      var s' := s[..|s| - 1];
      i, j := StripCharMeans(s', c);
      assert s'[i..j] == s[i..j];
      forall k | j <= k < |s| - 1 ensures s[k] == c {
        assert s[k] == s'[k];
      }
    } else {
      i, j := 0, |s|;
    }
  }

  /** Python's `s.split(sep)` for a one-character separator: always at least one part. */
  function SplitOn(s: string, sep: char): (parts: seq<string>)
    ensures |parts| >= 1
    ensures |parts| >= 2 <==> sep in s
    ensures sep !in s ==> parts == [s]
    ensures forall k, i :: 0 <= k < |parts| && 0 <= i < |parts[k]| ==> parts[k][i] != sep
    decreases |s|
  {
    if s == [] then [""]
    else
      var rest := SplitOn(s[1..], sep);
      if s[0] == sep then [""] + rest
      else
        assert sep !in s ==> rest == [s[1..]] && [s[0]] + s[1..] == s;
        [[s[0]] + rest[0]] + rest[1..]
  }

  /** The first part of `split(sep)` is the text before the first separator. */
  lemma {:induction false} SplitOnHead(a: string, b: string, sep: char)
    requires sep !in a
    ensures SplitOn(a + [sep] + b, sep)[0] == a
    decreases |a|
  {
    var s := a + [sep] + b;
    if a == [] {
      assert s[0] == sep;
    } else {
      assert s[0] == a[0] && s[1..] == a[1..] + [sep] + b;
      SplitOnHead(a[1..], b, sep);
      assert [a[0]] + a[1..] == a;
    }
  }

  /** `sep.join(parts)`. */
  function Join(parts: seq<string>, sep: string): string
  {
    if parts == [] then ""
    else if |parts| == 1 then parts[0]
    else parts[0] + sep + Join(parts[1..], sep)
  }

  /** `split(sep)` loses nothing: joining the parts with `sep` gives back the text. */
  lemma {:induction false} SplitOnJoin(s: string, sep: char)
    ensures Join(SplitOn(s, sep), [sep]) == s
    decreases |s|
  {
    if s != [] {
      var rest := SplitOn(s[1..], sep);
      SplitOnJoin(s[1..], sep);
      if s[0] == sep {
        assert SplitOn(s, sep) == [""] + rest;
        JoinAfterEmpty(rest, [sep]);
      } else {
        assert SplitOn(s, sep) == [[s[0]] + rest[0]] + rest[1..];
        JoinWidensFirst([s[0]], rest, [sep]);
      }
      assert [s[0]] + s[1..] == s;
    }
  }

  lemma JoinAfterEmpty(parts: seq<string>, sep: string)
    requires parts != []
    ensures Join([""] + parts, sep) == sep + Join(parts, sep)
  {
    assert ([""] + parts)[1..] == parts;
  }

  lemma JoinWidensFirst(c: string, parts: seq<string>, sep: string)
    requires parts != []
    ensures Join([c + parts[0]] + parts[1..], sep) == c + Join(parts, sep)
  {
    var widened := [c + parts[0]] + parts[1..];
    if |parts| > 1 {
      assert widened[1..] == parts[1..];
    }
  }

  /** A single word of `split()`: non-empty, without whitespace. */
  predicate IsWord(w: string)
  {
    w != [] && forall i :: 0 <= i < |w| ==> !IsSpace(w[i])
  }

  lemma {:induction false} TokenLengthOfWord(w: string, t: string)
    requires IsWord(w) && (t == [] || IsSpace(t[0]))
    ensures TokenLength(w + t) == |w|
    decreases |w|
  {
    var s := w + t;
    assert s[0] == w[0];
    if |w| == 1 {
      assert s[1..] == t;
    } else {
      assert s[1..] == w[1..] + t;
      TokenLengthOfWord(w[1..], t);
    }
  }

  /** A word followed by whitespace (or nothing) is the first word of the text. */
  lemma WordsOfWordThen(w: string, t: string)
    requires IsWord(w) && (t == [] || IsSpace(t[0]))
    ensures Words(w + t) == [w] + Words(t)
  {
    TokenLengthOfWord(w, t);
    var s := w + t;
    assert s[..|w|] == w && s[|w|..] == t;
  }

  /** Splitting a tab-joined, newline-terminated line gives back its words. */
  lemma {:induction false} WordsOfJoin(ws: seq<string>)
    requires forall k :: 0 <= k < |ws| ==> IsWord(ws[k])
    ensures Words(Join(ws, "\t") + "\n") == ws
    decreases |ws|
  {
    if ws == [] {
      assert Words("\n") == Words("");
    } else if |ws| == 1 {
      WordsOfWordThen(ws[0], "\n");
      assert Words("\n") == Words("");
    } else {
      var tail := Join(ws[1..], "\t") + "\n";
      assert Join(ws, "\t") + "\n" == ws[0] + ("\t" + tail);
      WordsOfWordThen(ws[0], "\t" + tail);
      assert ("\t" + tail)[1..] == tail;
      WordsOfJoin(ws[1..]);
      assert [ws[0]] + ws[1..] == ws;
    }
  }

  function DigitChar(d: nat): char
    requires d < 10
  {
    "0123456789"[d]
  }

  /** Python's `str(n)` for a natural number. */
  function NatToDecimal(n: nat): (s: string)
    ensures 1 <= |s|
    ensures forall i :: 0 <= i < |s| ==> '0' <= s[i] <= '9'
  {
    if n < 10 then [DigitChar(n)] else NatToDecimal(n / 10) + [DigitChar(n % 10)]
  }

  /** The number a string of decimal digits denotes, most significant digit first. */
  function DecimalValue(s: string): nat
    requires forall i :: 0 <= i < |s| ==> '0' <= s[i] <= '9'
  {
    if s == [] then 0 else 10 * DecimalValue(s[..|s| - 1]) + (s[|s| - 1] as int - '0' as int)
  }

  /** `str(n)` denotes `n`, and has no leading zero unless it is `"0"`. */
  lemma {:induction false} NatToDecimalValue(n: nat)
    ensures DecimalValue(NatToDecimal(n)) == n
    ensures NatToDecimal(n)[0] == '0' <==> n == 0
  {
    var s := NatToDecimal(n);
    if n >= 10 {
      NatToDecimalValue(n / 10);
      assert s[..|s| - 1] == NatToDecimal(n / 10);
      assert s[0] == NatToDecimal(n / 10)[0];
    }
  }
}

=== FILE: util.dfy ===
/** Failure-compatible wrappers and small numeric helpers shared by every stage. */
module Util {

  /** A value that may be missing: Python's None, or pandas' NaN in a column. */
  datatype Option<+T> = None | Some(value: T)

  /** The outcome of a step that may raise: a value, or the kind of exception raised. */
  datatype Result<+T, +E> = Success(value: T) | Failure(error: E)

  /** A slice one element longer is the slice followed by that element. */
  lemma SliceExtend<T>(s: seq<T>, lo: nat, hi: nat)
    requires lo <= hi < |s|
    ensures s[lo..hi + 1] == s[lo..hi] + [s[hi]]
  {
  }

  function Abs(x: real): (r: real)
    ensures r >= 0.0 && (r == x || r == -x)
  {
    if x < 0.0 then -x else x
  }

  /** numpy's clip: the value pinned into [lo, hi]. */
  function Clamp(x: real, lo: real, hi: real): (r: real)
    requires lo <= hi
    ensures lo <= r <= hi
    ensures lo <= x <= hi ==> r == x
    ensures x < lo ==> r == lo
    ensures x > hi ==> r == hi
  {
    if x < lo then lo else if x > hi then hi else x
  }

  /** Sum of a sequence of reals, accumulated from the left. */
  function SumReal(s: seq<real>): real
  {
    if s == [] then 0.0 else SumReal(s[..|s| - 1]) + s[|s| - 1]
  }

  lemma {:induction false} SumRealAppend(a: seq<real>, b: seq<real>)
    ensures SumReal(a + b) == SumReal(a) + SumReal(b)
    decreases |b|
  {
    if b == [] {
      assert a + b == a;
    } else {
      var b' := b[..|b| - 1];
      assert (a + b)[..|a + b| - 1] == a + b';
      SumRealAppend(a, b');
    }
  }

  lemma {:induction false} SumRealNonNegative(s: seq<real>)
    requires forall i :: 0 <= i < |s| ==> s[i] >= 0.0
    ensures SumReal(s) >= 0.0
    decreases |s|
  {
    if s != [] {
      SumRealNonNegative(s[..|s| - 1]);
    }
  }

  /** Each non-negative entry is at most the sum of all of them. */
  lemma {:induction false} SumRealBoundsEntry(s: seq<real>, k: nat)
    requires k < |s|
    requires forall i :: 0 <= i < |s| ==> s[i] >= 0.0
    ensures s[k] <= SumReal(s)
    decreases |s|
  {
    var s' := s[..|s| - 1];
    SumRealNonNegative(s');
    if k < |s| - 1 {
      SumRealBoundsEntry(s', k);
    }
  }
}
